=== FILE: README.md ===
# Crash-recovery write path of the 7-Zip fork, modelled in Dafny

This project models the two pieces that let this 7-Zip fork resume an archive write after a crash. Both are modelled as pure functions over immutable values.

**The recovery journal** (`CHandler` in `7zHandlerOut.cpp` and `7zHandler.h`).
- The handler keeps the archive database being written (`_newDB`): eleven growing fields, namely start positions, three file times, pack CRC flags, pack CRCs, pack sizes, unpack-stream counts, anti flags, file entries and folders.
- Next to the archive, the handler keeps an append-only journal file that starts with the wide-string signature `D7ZR`.
- `CRecoveryIndex` holds one cursor per field. `UpdateRecoveryData` appends one *checkpoint*, in a fixed field order: `[int count][elements]` for every element each field gained since its cursor.
  - Before writing, it records the journal offset in the first unflushed entry (its *anchor*).
- `OpenWithRecoveryData` resumes a session:
  - it checks the signature and replays checkpoints until a checkpoint is cut short or holds an entry under a trash filter;
  - it rolls every field back to its length at the last *commit point*, a checkpoint whose last entry name starts with the commit marker;
  - it reopens the journal at the offset right after that commit point and resets the cursors. A journal stream that is already open refuses this `open`; it is left failed, and later checkpoints are lost.
- `MoveItemToTrash` renames an entry into `Trash/` and zero-fills its pending journal tail.
- `IsItemFiltered` is the prefix test both filters use.

**The multi-volume stream** (`COutMultiVolStream` in `Update.cpp` and `BIA_CHANGES/Update.h`).
- It is one logical seekable stream laid over volume files `Prefix001`, `Prefix002`, ….
- Each volume's capacity comes from a size table whose last entry repeats.
- `Write` creates volumes on demand and writes at most one volume's remainder per call.
- `Seek` only moves the logical position.
- `SetSize` cuts the volume holding the cut point and deletes every later volume.
- `Open` probes `001`, `002`, … until a part is missing.

Values are modelled as follows:
- The journal is a `seq<byte>` with little-endian fixed widths: `int` and `UInt32` take 4 bytes, `UInt64` takes 8, `bool` takes 1, and `wchar_t` takes 2 (the Windows build).
- Files on disk are byte sequences, or a map from names to byte sequences.
- Every `unsigned long long` counter wraps explicitly modulo 2^64.

Modules, in dependency order:
- `Primitives`: fixed-width values, `Wrap64`, `WriteAt`, `Zeros`.
- `Database`: the eleven-field database, cursors, slices, appends, truncation.
- `JournalCodec`: element readers and writers and their laws.
- `Checkpoint`: whole checkpoints.
- `RecoveryHandler`: handler state, session start, update, trash and filters.
- `Recovery`: the replay loop and resume.
- `Crash`: what a resume makes of a journal a crash left behind.
- `MultiVolume`: the volume stream.

Behaviour the model follows exactly as the code has it:
- **The tail after a resume is kept.** The resumed journal is not cut at the commit offset. The file is reopened `in|out|ate` and only the write offset moves back, so bytes after the commit point stay until they are overwritten. `Crash.ZerosInert` and `Crash.CutStops` state which such tails replay to nothing.
- **Size statistics count every folder.** For every entry under the statistics prefix, the unpacked size of *every* folder of the same checkpoint is added, not that of the entry's own folder.
- **Renaming does not depend on the anchor.** `MoveItemToTrash` renames the first entry with the name even when its anchor does not allow zero-filling.
- **The pack size follows the journal.** `UpdateRecoveryData` adds every pack size it journals to `_totalPackSize`, wrapping at 2^64, and a resume sets it to the sum of the recovered pack sizes. Both keep it equal to the wrapped sum of the pack sizes journaled so far.
- **Counters are not rolled back.** The recovered counters include checkpoints the rollback removes. The code's own comments say that everything written without a following commit point is to be excluded (`7zHandlerOut.cpp` lines 790-791 and 971-972). This is finding 2 below; both readings are modelled.
- **`SetSize` sets the remainder as the length.** `SetSize` sets the stream length to the remainder of the requested size, not the size itself. This is finding 1 below.

## Model

| member | source | states |
|---|---|---|
| Primitives.IntRoundTrip | 7zip_4_65/CPP/7zip/Archive/7z/7zHandlerOut.cpp:259-274 | a field count written as four little-endian bytes reads back, as a signed 32-bit `int`, as the count written, negative counts included |
| Primitives.WrapSumIsSum | 7zip_4_65/CPP/7zip/Archive/7z/7zHandlerOut.cpp:999-1001 | the pack-size loop, wrapping after every addition, ends with the exact sum of the pack sizes modulo 2^64 |
| Database.InitIndex | 7zip_4_65/CPP/7zip/Archive/7z/7zHandler.h:53-66 | the eleven cursors of a fresh index equal the field lengths of the empty database, i.e. all are zero |
| Database.TruncateAppend | 7zip_4_65/CPP/7zip/Archive/7z/7zHandlerOut.cpp:971-983 | cutting every field back to its length before a checkpoint was appended undoes the append |
| Database.TruncateToPrefix | 7zip_4_65/CPP/7zip/Archive/7z/7zHandlerOut.cpp:971-983 | cutting a database back to the field lengths of any database it extends gives exactly that database |
| Database.AppendSlice | 7zip_4_65/CPP/7zip/Archive/7z/7zHandlerOut.cpp:910-948 | appending the elements past a prefix's lengths to the prefix rebuilds the whole database (write-side slice and replay-side append are inverse) |
| JournalCodec.CountedRoundTrip | 7zip_4_65/CPP/7zip/Archive/7z/7zHandlerOut.cpp:506-525 | a field written as `count = length - cursor` followed by the elements from the cursor on reads back as exactly those elements, the following bytes left unread |
| JournalCodec.OptLaws | 7zip_4_65/CPP/7zip/Archive/7z/7zHandlerOut.cpp:259-274 | an optional element written as a defined flag and the value, or 0 when undefined, reads back as the same defined/undefined value; the reader is stable under appended bytes and always consumes input |
| JournalCodec.CutIsEof | 7zip_4_65/CPP/7zip/Archive/7z/7zHandlerOut.cpp:892-894 | for any reader that inverts its writer and is stable, every strict prefix of an encoding reads as end of stream |
| JournalCodec.CStrTerminated | 7zip_4_65/CPP/7zip/Archive/7z/7zHandlerOut.cpp:397-430 | a name without NUL characters, stored with its terminator, is recovered whole as a C string |
| JournalCodec.NameRoundTrip | 7zip_4_65/CPP/7zip/Archive/7z/7zHandlerOut.cpp:651-679 | a name written as its length plus one, its characters and the terminator reads back as the same name |
| JournalCodec.EntryRoundTrip | 7zip_4_65/CPP/7zip/Archive/7z/7zHandlerOut.cpp:397-430 | an entry record (attrib, attribDefined, crc, crcDefined, hasStream, isDir, name, size) reads back as the same entry with its anchor reset, since the anchor is never journaled |
| JournalCodec.PropsRoundTrip | 7zip_4_65/CPP/7zip/Archive/7z/7zHandlerOut.cpp:681-739 | a coder property buffer written with its capacity prefix reads back as the same bytes |
| JournalCodec.CoderLaws | 7zip_4_65/CPP/7zip/Archive/7z/7zHandlerOut.cpp:681-739 | a coder record (method id, stream counts, properties) reads back unchanged and the reader is stable and consuming |
| JournalCodec.FolderRoundTrip | 7zip_4_65/CPP/7zip/Archive/7z/7zHandlerOut.cpp:432-504 | a folder record (bind pairs, coders, pack streams, unpack CRC and its flag, unpack sizes) reads back as the same folder |
| Checkpoint.HeadRoundTrip | 7zip_4_65/CPP/7zip/Archive/7z/7zHandlerOut.cpp:822-872 | the ten fields before the folders, written from the cursors in the fixed order, read back in the same order as the delta since the cursors |
| Checkpoint.CheckpointRoundTrip | 7zip_4_65/CPP/7zip/Archive/7z/7zHandlerOut.cpp:754-764 | a whole checkpoint written at given cursors reads back as the delta of every field since its cursor (anchors reset), with whatever follows it left unread |
| Checkpoint.CheckpointStable | 7zip_4_65/CPP/7zip/Archive/7z/7zHandlerOut.cpp:822-894 | bytes after a checkpoint do not change how it reads; they only lengthen what is left |
| Checkpoint.CheckpointCut | 7zip_4_65/CPP/7zip/Archive/7z/7zHandlerOut.cpp:887-894 | any strict prefix of a journaled checkpoint reads as end of stream, so no partial checkpoint is ever applied |
| Checkpoint.WriteIsDelta | 7zip_4_65/CPP/7zip/Archive/7z/7zHandlerOut.cpp:754-764 | with the cursors inside their fields, the bytes written are the encoding of the delta since the cursors |
| Checkpoint.ZeroCheckpoint | 7zip_4_65/CPP/7zip/Archive/7z/7zHandlerOut.cpp:822-894 | 44 zero bytes (eleven zero counts) read back as a checkpoint that adds nothing |
| Checkpoint.ZeroIsEmptyDelta | 7zip_4_65/CPP/7zip/Archive/7z/7zHandlerOut.cpp:754-764 | the encoding of an empty delta is exactly 44 zero bytes |
| RecoveryHandler.StartsWithIsLeft | 7zip_4_65/CPP/7zip/Archive/7z/7zHandlerOut.cpp:248-257 | the character-by-character filter test agrees with `name.Left(filter.Length()) == filter` |
| RecoveryHandler.StartsWithIsPrefix | 7zip_4_65/CPP/7zip/Archive/7z/7zHandlerOut.cpp:248-257 | the `Left` comparison is exactly "the filter is a prefix of the name"; the empty filter matches every name |
| RecoveryHandler.IsItemFilteredIsAnyPrefix | 7zip_4_65/CPP/7zip/Archive/7z/7zHandlerOut.cpp:248-257 | an item is filtered if and only if some filter in the list is a prefix of its name |
| RecoveryHandler.SetRecoveryOption | 7zip_4_65/CPP/7zip/Archive/7z/7zHandlerOut.cpp:1026-1048 | an already open journal, failed or not, is left as it is with S_OK; a journal that cannot be created gives E_FAIL and changes nothing; otherwise the journal holds just the signature, the write offset is right after it, and every cursor is zero |
| RecoveryHandler.FreshSessionWritesAll | 7zip_4_65/CPP/7zip/Archive/7z/7zHandler.h:53-66 | after a fresh session starts, the next checkpoint carries every element of the database |
| RecoveryHandler.UpdateRecoveryData | 7zip_4_65/CPP/7zip/Archive/7z/7zHandlerOut.cpp:741-770 | S_OK if and only if the journal is open; when closed nothing changes (S_FALSE); when open the first unflushed entry is anchored at `tellp` (the old write offset, or -1 for a failed stream), no other entry and no element changes, every cursor moves to its field's end, each pack size past the cursor is added to the total pack size with a wrapping addition, and the recovered counters are untouched; a good stream stays good and a failed one is left as it was |
| RecoveryHandler.UpdateTracksPackSize | 7zip_4_65/CPP/7zip/Archive/7z/7zHandlerOut.cpp:614-625 | when the total pack size is the wrapped sum of the pack sizes before the cursor, an update makes it the wrapped sum of all pack sizes, so the total keeps tracking what is journaled |
| RecoveryHandler.UpdateWritesCheckpoint | 7zip_4_65/CPP/7zip/Archive/7z/7zHandlerOut.cpp:754-764 | the journal before the old write offset is kept, the offset only moves forward, and reading from the old offset gives back exactly the delta since the cursors, ending at the new offset |
| RecoveryHandler.UpdateLeavesNothingPending | 7zip_4_65/CPP/7zip/Archive/7z/7zHandlerOut.cpp:741-770 | right after an update, the delta since the cursors is empty in every field |
| RecoveryHandler.FirstNamed | 7zip_4_65/CPP/7zip/Archive/7z/7zHandlerOut.cpp:216-218 | the index found holds the name and no earlier entry does; none found means no entry has the name |
| RecoveryHandler.MoveItemToTrash | 7zip_4_65/CPP/7zip/Archive/7z/7zHandlerOut.cpp:209-246 | E_FAIL exactly when the journal is closed, S_OK exactly when it is open and an entry has the name, S_FALSE otherwise, with nothing changed unless S_OK; on S_OK only the first such entry is renamed to `Trash/`+name and nothing else in the handler changes; when `0 < anchor < tellp`, which never holds for a failed stream, the journal bytes from the anchor to the offset become zero, the bytes before the anchor and those from the old offset to the end are kept, and the offset returns to the anchor |
| RecoveryHandler.TrashRewinds | 7zip_4_65/CPP/7zip/Archive/7z/7zHandlerOut.cpp:224-237 | with the write offset at the end of the journal and the entry's anchor before it, the trash zero-fills everything from the anchor on and rewinds the offset to the anchor |
| RecoveryHandler.FinishUpdate | 7zip_4_65/CPP/7zip/Archive/7z/7zHandlerOut.cpp:1283-1303 | when the reported size differs from the last entry's size, only the last entry's anchor is cleared and journal and cursors stay; when it matches, the anchor is cleared and a checkpoint is written, which stamps the anchor again if that entry was not yet journaled; no field changes length and no entry changes otherwise |
| Recovery.AnyFilteredIsSome | 7zip_4_65/CPP/7zip/Archive/7z/7zHandlerOut.cpp:874-885 | a checkpoint fails the trash test if and only if one of its entries is filtered |
| Recovery.NextCheckpoint | 7zip_4_65/CPP/7zip/Archive/7z/7zHandlerOut.cpp:822-894 | the loop applies a checkpoint if and only if it reads whole and none of its entries is under a trash filter, and then continues right after it |
| Recovery.CountStatsClosedForm | 7zip_4_65/CPP/7zip/Archive/7z/7zHandlerOut.cpp:896-908 | the statistics loop over a checkpoint adds, modulo 2^64, one per entry under the statistics prefix to the file count and the total unpacked size of all the checkpoint's folders once per such entry to the size |
| Recovery.ApplyCheckpoint | 7zip_4_65/CPP/7zip/Archive/7z/7zHandlerOut.cpp:910-969 | every field of the checkpoint is appended; a commit point records the new field lengths, the current journal offset and the counters, any other checkpoint keeps the previous commit point |
| Recovery.ReplayFrom | 7zip_4_65/CPP/7zip/Archive/7z/7zHandlerOut.cpp:817-969 | the recorded valid end never moves back past where the replay started |
| Recovery.ReplayExtends | 7zip_4_65/CPP/7zip/Archive/7z/7zHandlerOut.cpp:910-948 | replay only appends: the database it starts from is a prefix of the one it ends with, field by field |
| Recovery.ResumeWith | 7zip_4_65/CPP/7zip/Archive/7z/7zHandlerOut.cpp:772-1024 | counters zeroed first; S_FALSE with nothing else changed when the archive writer already exists; E_FAIL when the journal is missing or its signature differs; S_OK exactly when the signature matches and either the journal reopens or it was already open; on S_OK every cursor equals its field's length; a closed journal is reopened on the same bytes at an offset past the signature, while an open one refuses the second `open` and is left failed on its old file; and the pack size is the sum of the pack sizes modulo 2^64 |
| Recovery.Reseat | 7zip_4_65/CPP/7zip/Archive/7z/7zHandlerOut.cpp:985-1019 | the handler takes the reopened journal, the cursors equal the field lengths, the pack size is the wrapped sum of the pack sizes (so it tracks the journaled pack sizes), and the stream is sized and placed at that sum plus the 32-byte start header |
| Recovery.ResumeOnOpenJournal | 7zip_4_65/CPP/7zip/Archive/7z/7zHandlerOut.cpp:985-993 | a resume while the journal stream is open reports S_OK but leaves the stream failed on its old file (the second `open` is refused, `is_open` stays true and `seekp` does nothing); every later checkpoint then reports S_OK and writes nothing, and a trash zero-fills nothing |
| Recovery.StreamTarget | 7zip_4_65/CPP/7zip/Archive/7z/7zHandlerOut.cpp:999-1005 | the stream target is the pack size plus 32, less 2^64 when that overflows |
| Crash.NextOfDelta | 7zip_4_65/CPP/7zip/Archive/7z/7zHandlerOut.cpp:822-894 | a journaled checkpoint without trashed entries is read back whole and the loop continues right after it |
| Crash.TrashedStops | 7zip_4_65/CPP/7zip/Archive/7z/7zHandlerOut.cpp:874-885 | a checkpoint holding an entry under a trash filter stops the loop before its folders are read, whatever follows |
| Crash.CutStops | 7zip_4_65/CPP/7zip/Archive/7z/7zHandlerOut.cpp:887-894 | a checkpoint cut short at any byte stops the loop |
| Crash.ZerosInert | 7zip_4_65/CPP/7zip/Archive/7z/7zHandlerOut.cpp:231-237 | a zero-filled journal tail of any length replays to no change at all |
| Crash.ReplayRun | 7zip_4_65/CPP/7zip/Archive/7z/7zHandlerOut.cpp:822-969 | replaying a run of clean checkpoints followed by an inert tail is the checkpoints applied one after another |
| Crash.FoldCommit | 7zip_4_65/CPP/7zip/Archive/7z/7zHandlerOut.cpp:950-969 | the commit point after a run is the field lengths and journal offset right after the last checkpoint whose last entry carries the marker, or the starting ones when none does |
| Crash.StatCountIsMatching | 7zip_4_65/CPP/7zip/Archive/7z/7zHandlerOut.cpp:896-908 | the entries the statistics loop counts over a run are the entries of the joined run under the statistics prefix |
| Crash.CountRunClosedForm | 7zip_4_65/CPP/7zip/Archive/7z/7zHandlerOut.cpp:896-908 | the statistics loop over a run of checkpoints adds the run's file and size totals to the counters, modulo 2^64 |
| Crash.ResumeAfterCrash | 7zip_4_65/CPP/7zip/Archive/7z/7zHandlerOut.cpp:950-1017 | a journal left as the signature, a run of clean checkpoints and any tail that replays to nothing (zero fill, a cut checkpoint, a trashed one) resumes with S_OK to exactly the checkpoints up to the last commit point, with the write offset right after it, or, when the handler's journal was already open, with that journal left failed |
| Crash.ResumedStatistics | 7zip_4_65/CPP/7zip/Archive/7z/7zHandlerOut.cpp:1050-1068 | after such a resume the file count and pack size are those of the surviving checkpoints, and the recovered counters are the statistics of every checkpoint read (as written) or of the surviving ones (corrected) |
| Crash.RolledBackStillCounted | 7zip_4_65/CPP/7zip/Archive/7z/7zHandlerOut.cpp:896-908 | as written, a journal with one uncommitted checkpoint of one counted entry resumes to an empty database yet reports one recovered file |
| Crash.TrashThenResume | 7zip_4_65/CPP/7zip/Archive/7z/7zHandlerOut.cpp:209-246 | trashing an entry first journaled by checkpoint `i` of a journal that ends with a clean run succeeds, rewinds the offset to where checkpoint `i` began, and a resume of the journal it leaves recovers the checkpoints before `i` up to their last commit point, never more than those checkpoints |
| Crash.SurvivorCounters | 7zip_4_65/CPP/7zip/Archive/7z/7zHandlerOut.cpp:971-983 | with the counters taken at the commit point, the recovered file count is the number of recovered entries under the statistics prefix, and the size the totals of the surviving checkpoints |
| MultiVolume.DecimalRoundTrip | 7zip_4_65/CPP/7zip/Common/Update.cpp:105-107 | the decimal digits of a part number denote that number |
| MultiVolume.VolumeNameInjective | 7zip_4_65/CPP/7zip/Common/Update.cpp:105-110 | two part numbers give the same volume name if and only if they are equal |
| MultiVolume.FirstVolumeName | 7zip_4_65/CPP/7zip/Common/Update.cpp:54-60 | part 1 is named `Prefix` + `001` |
| MultiVolume.Capacity | 7zip_4_65/CPP/7zip/Common/Update.cpp:130-133 | a volume's capacity is its entry in the size table and, past the end of the table, the table's last entry; it is positive |
| MultiVolume.Init | BIA_CHANGES/Update.h:43-49 | position and length 0, and volume index and offset agree with the position |
| MultiVolume.Created | 7zip_4_65/CPP/7zip/Common/Update.cpp:101-126 | a missing current volume is appended under its name, empty, at position 0; index, offset and position stay |
| MultiVolume.Skipped | 7zip_4_65/CPP/7zip/Common/Update.cpp:135-140 | a volume the offset reaches is skipped: the index moves on by one and its capacity is taken off the offset |
| MultiVolume.PutLands | 7zip_4_65/CPP/7zip/Common/Update.cpp:141-170 | into the current volume go `min(size, capacity - offset)` bytes or as many as the file takes, at the offset, and a write the file takes nothing of leaves the volume's bytes as they were; S_OK exactly when some went in; no other volume changes; `RealSize` and the length become maxima; the position moves on by the bytes written |
| MultiVolume.WriteLands | 7zip_4_65/CPP/7zip/Common/Update.cpp:95-173 | a successful write lands in the one volume the current index and offset resolve to, after skipping and creating volumes, writing at most that volume's remainder and leaving every other volume as it was |
| MultiVolume.WriteKeepsLocated | BIA_CHANGES/Update.h:17-19 | whatever a write returns, the volume index and in-volume offset still agree with the logical position |
| MultiVolume.WriteKeepsNames | 7zip_4_65/CPP/7zip/Common/Update.cpp:101-126 | volumes stay named `Prefix` + their 1-based number, zero-padded to three digits |
| MultiVolume.WriteSucceeds | 7zip_4_65/CPP/7zip/Common/Update.cpp:95-173 | when every volume is open, creation is allowed and the files take bytes, a write succeeds and writes at least one byte of a non-empty request |
| MultiVolume.SeekMoves | 7zip_4_65/CPP/7zip/Common/Update.cpp:175-196 | S_OK exactly for origins 0-2, otherwise STG_E_INVALIDFUNCTION with nothing changed; the new position is the offset, position plus offset or length plus offset modulo 2^64, it is reported, the index restarts at volume 0 with the whole position as offset, and volumes and length stay |
| MultiVolume.SeekSetExact | 7zip_4_65/CPP/7zip/Common/Update.cpp:181-183 | seeking to a non-negative offset from the start reports that offset |
| MultiVolume.CutAt | 7zip_4_65/CPP/7zip/Common/Update.cpp:202-222 | the volumes kept hold `min(newSize, total)` bytes, keep their names, and are all of them when the size is not below the total |
| MultiVolume.CutAtIndex | 7zip_4_65/CPP/7zip/Common/Update.cpp:202-222 | when the cut falls in volume `k`, volumes before it are kept, volume `k` is cut to the remainder and every later volume is dropped; it fails exactly when volume `k`'s file is not open |
| MultiVolume.SetSizeResult | 7zip_4_65/CPP/7zip/Common/Update.cpp:198-227 | E_INVALIDARG exactly for a negative size; on failure nothing changes; on S_OK the volumes hold `min(newSize, total)` bytes, keep their names, and the index and offset agree with the unchanged position |
| MultiVolume.SetSizeLength | 7zip_4_65/CPP/7zip/Common/Update.cpp:223-225 | corrected: after `SetSize(n)` the length is `n`, so seeking to the end reports `n` |
| MultiVolume.SetSizeLengthIsRemainder | 7zip_4_65/CPP/7zip/Common/Update.cpp:198-227 | as written: volumes of 100, 100 and 50 bytes cut at 120 keep two volumes holding 120 bytes, but the length becomes 20 |
| MultiVolume.ProbeFound | 7zip_4_65/CPP/7zip/Common/Update.cpp:74-89 | a part on disk is held open at its end with its size as `RealSize`; a placeholder is held at 0 with the size of the nearest earlier part found on disk |
| MultiVolume.OpenFailure | 7zip_4_65/CPP/7zip/Common/Update.cpp:31-93 | the result is S_OK, S_FALSE or E_FAIL; an empty prefix gives E_FAIL with nothing changed; otherwise E_FAIL exactly when `OnNewPart` vetoes a part reached through an unbroken series of parts from 001, and then the parts found before the vetoed one, each held as the probe holds it, stay appended to the stream's volumes |
| MultiVolume.OpenFromVetoed | 7zip_4_65/CPP/7zip/Common/Update.cpp:41-89 | a probe from part `k` fails if and only if some part from `k` on is vetoed and every part between `k` and it is on disk or a placeholder |
| MultiVolume.OpenResult | 7zip_4_65/CPP/7zip/Common/Update.cpp:41-92 | otherwise the parts found from 1 on, each as the probe holds it, are appended up to the first part neither on disk nor a placeholder; S_FALSE exactly when the stream has no volume |
| MultiVolume.OpenNames | 7zip_4_65/CPP/7zip/Common/Update.cpp:54-60 | the volumes an open finds are named after their part numbers |
| MultiVolume.OpenBase | 7zip_4_65/CPP/7zip/Common/Update.cpp:229-242 | with the base class's hooks, opening never fails, gives S_FALSE exactly when part 001 is missing, and holds every consecutive part on disk from 001 on, open at its end |

## Left out

- File I/O is abstracted:
  - the journal is a byte sequence with a write offset;
  - volume files are byte sequences, and the files `Open` probes are a map from name to bytes;
  - `std::fstream`, `COutFileStream`, `flush`, `close` and `Close` are not modelled.
  - Whether a file opens, can be created, or how many bytes its `Write` takes are parameters (`canOpen`, `reopened`, `canCreate`, `accept`).
  - A failed `Create` returns `LastError`, which stands for whatever `GetLastError` reports.
- `RINOK` failures of a volume's own `Seek`, `Write` or `SetSize` are not modelled; on them the source returns before `RealSize` and `_length` change. A volume whose file is not open fails the write or the cut instead.
- `DeleteFileAlways` is not modelled: deleted volumes are dropped from the sequence. Its two declarations also disagree, with `(name)` in the header and `(partNumber, name)` in the source file.
- The archive writer (`_archive.Create`, `WriteDatabase`, the `Update` call in `UpdateItems`) is foreign code. Its "already created" state is the `archiveCreated` flag.
- The `numItems == 0` close at the end of `UpdateItems` is not modelled; it writes the archive database and closes the journal.
- Compression-method and password setup is not modelled: it relies on the codec registry and COM callbacks.
- The optional small pieces of `7zHandlerOut.cpp` are not modelled: `GetTime`, the bind-string parser `GetBindInfo`, anti-item normalisation in `UpdateItems`, and the solid-block-size rule.
- `CFolder::GetUnpackSize` is an abstract function `unpack`.
- The sparse `Defined`/`Values` representation of `CUInt64DefVector` is not part of this model. Optional vectors are modelled with one value per defined flag, as they are journaled.
- RecoveryHandler.MoveItemToTrash: the anchor is compared with `tellp`'s `Int64` as a signed value. The declaration of `RecoveryRecordPos` is not part of this model; were it unsigned, a failed stream's -1 would compare above every anchor and the zero fill would run with an unsigned size.
- A failed journal stream is modelled only as writing nothing and reporting -1 for `tellp`. Other stream state bits are not modelled.
- Recovery.ResumeWith: when the journal cannot be reopened for writing, the contract states only the S_FALSE result, not the rolled-back database left in the handler.
- Crash.ResumeAfterCrash: the theorem covers journals that are a run of clean checkpoints followed by an inert tail. A trashed checkpoint in mid-journal is covered only by `Crash.TrashedStops`, and a structurally corrupt journal that still parses is not covered.
- RecoveryHandler.UpdateRecoveryData: a failed or short journal write is not modelled. The source does not check the stream state after writing.
- JournalCodec.ReadProps: a negative property capacity reads as empty properties and the replay goes on. The source passes that `int` to `CBuffer::SetCapacity`, whose `size_t` parameter turns it into a huge allocation; the failed allocation throws, and the exception ends `OpenWithRecoveryData` with an error, without a rollback or a reopened journal. Exceptions and allocation failure are not part of this model. Such bytes can appear without disk damage: a resume keeps the old tail, and a later, shorter checkpoint overwrites only its start.
- JournalCodec.ReadName: a stored name length of 2^31 or more reads that many characters, or end of stream. The source passes it to `UString::GetBuffer(int)` as a negative count, gets the existing small buffer back and reads past its end, which is undefined behaviour.
- MultiVolume.Write: it requires a non-empty size table with no zero entry. With an empty table the source reads `Sizes[-1]`, and a zero last entry makes it skip volumes without end. A table with a zero entry before a positive last entry is also excluded, although the source handles it: it creates that volume empty and moves on to the next one.
- MultiVolume.Write: the stream index is unbounded, where the source's `int _streamIndex` would overflow after 2^31 volumes.
- MultiVolume.Open: it probes at most part 2^31 - 1, where the source's `int` part counter would overflow. It requires every file size to fit the `UInt64` that `Seek` reports.
- The getters `GetFileCount`, `GetTotalPackSize`, `GetRecoveredFileCount` and `GetRecoveredUncompressedFileSize` carry no contract of their own. `Crash.ResumedStatistics` states what they return after a resume.

## Findings

| source | as written | input that shows it | evidently intended | confidence | as-written member | corrected member |
|---|---|---|---|---|---|---|
| 7zip_4_65/CPP/7zip/Common/Update.cpp:198-227 | `SetSize` subtracts each earlier volume's `RealSize` from `newSize` in its loop, then sets `_length = newSize`, i.e. to the remainder | volumes of 100, 100 and 50 bytes, `SetSize(120)`: two volumes holding 120 bytes remain but the length is 20, so a seek to the end reports 20 | the length becomes the requested size, 120 | not executed; high | MultiVolume.SetSizeLengthIsRemainder | MultiVolume.SetSizeLength |
| 7zip_4_65/CPP/7zip/Archive/7z/7zHandlerOut.cpp:896-908 | the recovered counters are incremented for every fully read checkpoint, before the rollback to the last commit point, and never reverted | a journal holding one checkpoint with one entry under the statistics prefix and no commit marker: the database resumes empty but the recovered file count is 1 | the counters count only the checkpoints that survive the rollback | not executed; medium | Crash.RolledBackStillCounted | Crash.SurvivorCounters |

=== FILE: checkpoint.dfy ===
/** One journal checkpoint: the elements each of the eleven database fields gained
    since the cursors, written field by field, and the reader replay uses for it. */
module Checkpoint {
  import opened Primitives
  import opened Database
  import opened JournalCodec

  /** Every entry and folder of the database can be journaled. */
  predicate ValidDb(db: Db) {
    && (forall i :: 0 <= i < |db.files| ==> ValidEntry(db.files[i]))
    && (forall i :: 0 <= i < |db.folders| ==> ValidFolder(db.folders[i]))
  }

  /** Every field length and cursor fits the `int` count the journal stores. */
  predicate ValidIndex(db: Db, idx: RecoveryIndex) {
    && CountOk(|db.startPos|, idx.startPos) && CountOk(|db.cTime|, idx.cTime)
    && CountOk(|db.mTime|, idx.mTime) && CountOk(|db.aTime|, idx.aTime)
    && CountOk(|db.packCrcsDefined|, idx.packCrcsDefined) && CountOk(|db.packCrcs|, idx.packCrcs)
    && CountOk(|db.packSizes|, idx.packSizes)
    && CountOk(|db.numUnpackStreams|, idx.numUnpackStreams)
    && CountOk(|db.isAnti|, idx.isAnti) && CountOk(|db.files|, idx.files)
    && CountOk(|db.folders|, idx.folders)
  }

  /** No cursor is past the end of its field. */
  predicate Within(idx: RecoveryIndex, db: Db) {
    && idx.startPos <= |db.startPos| && idx.cTime <= |db.cTime| && idx.mTime <= |db.mTime|
    && idx.aTime <= |db.aTime| && idx.packCrcsDefined <= |db.packCrcsDefined|
    && idx.packCrcs <= |db.packCrcs| && idx.packSizes <= |db.packSizes|
    && idx.numUnpackStreams <= |db.numUnpackStreams| && idx.isAnti <= |db.isAnti|
    && idx.files <= |db.files| && idx.folders <= |db.folders|
  }

  /** The ten fields before the folders, each from its cursor on. */
  function WriteHead(db: Db, idx: RecoveryIndex): seq<byte> {
    WriteCounted(db.startPos, idx.startPos, EncOpt)
    + (WriteCounted(db.cTime, idx.cTime, EncOpt)
    + (WriteCounted(db.mTime, idx.mTime, EncOpt)
    + (WriteCounted(db.aTime, idx.aTime, EncOpt)
    + (WriteCounted(db.packCrcsDefined, idx.packCrcsDefined, EncBool)
    + (WriteCounted(db.packCrcs, idx.packCrcs, EncU32)
    + (WriteCounted(db.packSizes, idx.packSizes, EncU64)
    + (WriteCounted(db.numUnpackStreams, idx.numUnpackStreams, EncU32)
    + (WriteCounted(db.isAnti, idx.isAnti, EncBool)
    + WriteCounted(db.files, idx.files, EncEntry)))))))))
  }

  /** The bytes one `UpdateRecoveryData` appends. */
  function WriteCheckpoint(db: Db, idx: RecoveryIndex): seq<byte> {
    WriteHead(db, idx) + WriteCounted(db.folders, idx.folders, EncFolder)
  }

  /** A checkpoint delta on its own: the same bytes written from zero cursors. */
  function EncDelta(d: Db): seq<byte> {
    WriteCheckpoint(d, InitIndex())
  }

  /** Reads the ten fields before the folders; the result's folder list is empty. */
  function ReadHead(s: seq<byte>): (r: Read<Db>)
    ensures r.Got? ==> r.value.folders == [] && |r.rest| < |s|
  {
    match ReadCounted(s, ReadOpt)
    case Eof => Eof
    case Got(startPos, s1) =>
    match ReadCounted(s1, ReadOpt)
    case Eof => Eof
    case Got(cTime, s2) =>
    match ReadCounted(s2, ReadOpt)
    case Eof => Eof
    case Got(mTime, s3) =>
    match ReadCounted(s3, ReadOpt)
    case Eof => Eof
    case Got(aTime, s4) =>
    match ReadCounted(s4, ReadBool)
    case Eof => Eof
    case Got(packCrcsDefined, s5) =>
    match ReadCounted(s5, ReadU32)
    case Eof => Eof
    case Got(packCrcs, s6) =>
    match ReadCounted(s6, ReadU64)
    case Eof => Eof
    case Got(packSizes, s7) =>
    match ReadCounted(s7, ReadU32)
    case Eof => Eof
    case Got(numUnpackStreams, s8) =>
    match ReadCounted(s8, ReadBool)
    case Eof => Eof
    case Got(isAnti, s9) =>
    match ReadCounted(s9, ReadEntry)
    case Eof => Eof
    case Got(files, s10) =>
      Got(Db(startPos, cTime, mTime, aTime, packCrcsDefined, packCrcs, packSizes,
        numUnpackStreams, isAnti, files, []), s10)
  }

  function ReadFolders(s: seq<byte>): (r: Read<seq<Folder>>)
    ensures r.Got? ==> |r.rest| < |s|
  {
    ReadCounted(s, ReadFolder)
  }

  /** A whole checkpoint: the head, then the folders. */
  function ReadCheckpoint(s: seq<byte>): (r: Read<Db>)
    ensures r.Got? ==> |r.rest| < |s|
    ensures r.Got? <==> ReadHead(s).Got? && ReadFolders(ReadHead(s).rest).Got?
  {
    match ReadHead(s)
    case Eof => Eof
    case Got(h, s1) =>
      match ReadFolders(s1)
      case Eof => Eof
      case Got(fs, s2) => Got(h.(folders := fs), s2)
  }

  /** What a journaled delta reads back as: the entries lose their anchors. */
  function Unanchor(d: Db): Db {
    d.(files := MapSeq(d.files, Unanchored))
  }

  /** A delta that can be journaled from zero cursors. */
  predicate ValidDelta(d: Db) {
    ValidDb(d) && ValidIndex(d, InitIndex())
  }

  /** A counted field of elements the reader gives back unchanged round-trips. */
  lemma PlainField<T(!new)>(xs: seq<T>, cursor: nat, u: seq<byte>,
      read: seq<byte> -> Read<T>, enc: T -> seq<byte>)
    requires Inverts(read, enc, Always, Id) && Consumes(read) && CountOk(|xs|, cursor)
    ensures ReadCounted(WriteCounted(xs, cursor, enc) + u, read) == Got(Tail(xs, cursor), u)
  {
    CountedRoundTrip(xs, cursor, u, read, enc, Always, Id);
    MapSeqId(Tail(xs, cursor));
  }

  lemma OptField(xs: seq<OptU64>, cursor: nat, u: seq<byte>)
    requires CountOk(|xs|, cursor)
    ensures ReadCounted(WriteCounted(xs, cursor, EncOpt) + u, ReadOpt) == Got(Tail(xs, cursor), u)
  {
    OptLaws();
    PlainField(xs, cursor, u, ReadOpt, EncOpt);
  }

  lemma BoolField(xs: seq<bool>, cursor: nat, u: seq<byte>)
    requires CountOk(|xs|, cursor)
    ensures ReadCounted(WriteCounted(xs, cursor, EncBool) + u, ReadBool) == Got(Tail(xs, cursor), u)
  {
    BoolLaws();
    PlainField(xs, cursor, u, ReadBool, EncBool);
  }

  lemma U32Field(xs: seq<u32>, cursor: nat, u: seq<byte>)
    requires CountOk(|xs|, cursor)
    ensures ReadCounted(WriteCounted(xs, cursor, EncU32) + u, ReadU32) == Got(Tail(xs, cursor), u)
  {
    U32Laws();
    PlainField(xs, cursor, u, ReadU32, EncU32);
  }

  lemma U64Field(xs: seq<u64>, cursor: nat, u: seq<byte>)
    requires CountOk(|xs|, cursor)
    ensures ReadCounted(WriteCounted(xs, cursor, EncU64) + u, ReadU64) == Got(Tail(xs, cursor), u)
  {
    U64Laws();
    PlainField(xs, cursor, u, ReadU64, EncU64);
  }

  lemma EntryField(xs: seq<Entry>, cursor: nat, u: seq<byte>)
    requires CountOk(|xs|, cursor) && forall i :: 0 <= i < |xs| ==> ValidEntry(xs[i])
    ensures ReadCounted(WriteCounted(xs, cursor, EncEntry) + u, ReadEntry)
         == Got(MapSeq(Tail(xs, cursor), Unanchored), u)
  {
    EntryLaws();
    CountedRoundTrip(xs, cursor, u, ReadEntry, EncEntry, ValidEntry, Unanchored);
  }

  /** `ReadHead` is the ten counted reads in turn. */
  lemma ReadHeadSteps(s: seq<byte>, v: Db, s1: seq<byte>, s2: seq<byte>, s3: seq<byte>,
      s4: seq<byte>, s5: seq<byte>, s6: seq<byte>, s7: seq<byte>, s8: seq<byte>, s9: seq<byte>,
      s10: seq<byte>)
    requires ReadCounted(s, ReadOpt) == Got(v.startPos, s1)
    requires ReadCounted(s1, ReadOpt) == Got(v.cTime, s2)
    requires ReadCounted(s2, ReadOpt) == Got(v.mTime, s3)
    requires ReadCounted(s3, ReadOpt) == Got(v.aTime, s4)
    requires ReadCounted(s4, ReadBool) == Got(v.packCrcsDefined, s5)
    requires ReadCounted(s5, ReadU32) == Got(v.packCrcs, s6)
    requires ReadCounted(s6, ReadU64) == Got(v.packSizes, s7)
    requires ReadCounted(s7, ReadU32) == Got(v.numUnpackStreams, s8)
    requires ReadCounted(s8, ReadBool) == Got(v.isAnti, s9)
    requires ReadCounted(s9, ReadEntry) == Got(v.files, s10)
    ensures ReadHead(s) == Got(v.(folders := []), s10)
  {
  }

  lemma HeadRoundTrip(db: Db, idx: RecoveryIndex, u: seq<byte>)
    requires ValidDb(db) && ValidIndex(db, idx)
    ensures ReadHead(WriteHead(db, idx) + u) == Got(Unanchor(Slice(db, idx)).(folders := []), u)
  {
    var w1 := WriteCounted(db.startPos, idx.startPos, EncOpt);
    var w2 := WriteCounted(db.cTime, idx.cTime, EncOpt);
    var w3 := WriteCounted(db.mTime, idx.mTime, EncOpt);
    var w4 := WriteCounted(db.aTime, idx.aTime, EncOpt);
    var w5 := WriteCounted(db.packCrcsDefined, idx.packCrcsDefined, EncBool);
    var w6 := WriteCounted(db.packCrcs, idx.packCrcs, EncU32);
    var w7 := WriteCounted(db.packSizes, idx.packSizes, EncU64);
    var w8 := WriteCounted(db.numUnpackStreams, idx.numUnpackStreams, EncU32);
    var w9 := WriteCounted(db.isAnti, idx.isAnti, EncBool);
    var w10 := WriteCounted(db.files, idx.files, EncEntry);
    var x9 := w9 + w10;
    var x8 := w8 + x9;
    var x7 := w7 + x8;
    var x6 := w6 + x7;
    var x5 := w5 + x6;
    var x4 := w4 + x5;
    var x3 := w3 + x4;
    var x2 := w2 + x3;
    Assoc(w1, x2, u);
    Assoc(w2, x3, u);
    Assoc(w3, x4, u);
    Assoc(w4, x5, u);
    Assoc(w5, x6, u);
    Assoc(w6, x7, u);
    Assoc(w7, x8, u);
    Assoc(w8, x9, u);
    Assoc(w9, w10, u);
    OptField(db.startPos, idx.startPos, x2 + u);
    OptField(db.cTime, idx.cTime, x3 + u);
    OptField(db.mTime, idx.mTime, x4 + u);
    OptField(db.aTime, idx.aTime, x5 + u);
    BoolField(db.packCrcsDefined, idx.packCrcsDefined, x6 + u);
    U32Field(db.packCrcs, idx.packCrcs, x7 + u);
    U64Field(db.packSizes, idx.packSizes, x8 + u);
    U32Field(db.numUnpackStreams, idx.numUnpackStreams, x9 + u);
    BoolField(db.isAnti, idx.isAnti, w10 + u);
    EntryField(db.files, idx.files, u);
    ReadHeadSteps(w1 + x2 + u, Unanchor(Slice(db, idx)), x2 + u, x3 + u, x4 + u, x5 + u,
      x6 + u, x7 + u, x8 + u, x9 + u, w10 + u, u);
  }

  /** Journaling the delta since the cursors and reading it back gives that delta,
      with the entries' anchors reset. */
  lemma CheckpointRoundTrip(db: Db, idx: RecoveryIndex, u: seq<byte>)
    requires ValidDb(db) && ValidIndex(db, idx)
    ensures ReadCheckpoint(WriteCheckpoint(db, idx) + u) == Got(Unanchor(Slice(db, idx)), u)
  {
    var wf := WriteCounted(db.folders, idx.folders, EncFolder);
    Assoc(WriteHead(db, idx), wf, u);
    HeadRoundTrip(db, idx, wf + u);
    FolderField(db.folders, idx.folders, u);
    ReadCheckpointSteps(WriteHead(db, idx) + (wf + u), Unanchor(Slice(db, idx)).(folders := []),
      wf + u, Tail(db.folders, idx.folders), u);
  }

  lemma FolderField(xs: seq<Folder>, cursor: nat, u: seq<byte>)
    requires CountOk(|xs|, cursor) && forall i :: 0 <= i < |xs| ==> ValidFolder(xs[i])
    ensures ReadFolders(WriteCounted(xs, cursor, EncFolder) + u) == Got(Tail(xs, cursor), u)
  {
    FolderLaws();
    CountedRoundTrip(xs, cursor, u, ReadFolder, EncFolder, ValidFolder, Id);
    MapSeqId(Tail(xs, cursor));
  }

  /** `ReadCheckpoint` is the head read, then the folders read. */
  lemma ReadCheckpointSteps(s: seq<byte>, h: Db, s1: seq<byte>, fs: seq<Folder>, s2: seq<byte>)
    requires ReadHead(s) == Got(h, s1) && ReadFolders(s1) == Got(fs, s2)
    ensures ReadCheckpoint(s) == Got(h.(folders := fs), s2)
  {
  }

  lemma HeadStable(s: seq<byte>, t: seq<byte>)
    requires ReadHead(s).Got?
    ensures ReadHead(s + t) == Got(ReadHead(s).value, ReadHead(s).rest + t)
  {
    OptLaws();
    BoolLaws();
    U32Laws();
    U64Laws();
    EntryLaws();
    var s1 := ReadCounted(s, ReadOpt).rest;
    var s2 := ReadCounted(s1, ReadOpt).rest;
    var s3 := ReadCounted(s2, ReadOpt).rest;
    var s4 := ReadCounted(s3, ReadOpt).rest;
    var s5 := ReadCounted(s4, ReadBool).rest;
    var s6 := ReadCounted(s5, ReadU32).rest;
    var s7 := ReadCounted(s6, ReadU64).rest;
    var s8 := ReadCounted(s7, ReadU32).rest;
    var s9 := ReadCounted(s8, ReadBool).rest;
    CountedStable(s, t, ReadOpt);
    CountedStable(s1, t, ReadOpt);
    CountedStable(s2, t, ReadOpt);
    CountedStable(s3, t, ReadOpt);
    CountedStable(s4, t, ReadBool);
    CountedStable(s5, t, ReadU32);
    CountedStable(s6, t, ReadU64);
    CountedStable(s7, t, ReadU32);
    CountedStable(s8, t, ReadBool);
    CountedStable(s9, t, ReadEntry);
  }

  lemma FoldersStable(s: seq<byte>, t: seq<byte>)
    requires ReadFolders(s).Got?
    ensures ReadFolders(s + t) == Got(ReadFolders(s).value, ReadFolders(s).rest + t)
  {
    FolderLaws();
    CountedStable(s, t, ReadFolder);
  }

  lemma CheckpointStable(s: seq<byte>, t: seq<byte>)
    requires ReadCheckpoint(s).Got?
    ensures ReadCheckpoint(s + t) == Got(ReadCheckpoint(s).value, ReadCheckpoint(s).rest + t)
  {
    HeadStable(s, t);
    FoldersStable(ReadHead(s).rest, t);
  }

  lemma CheckpointLaws()
    ensures Inverts(ReadCheckpoint, EncDelta, ValidDelta, Unanchor)
    ensures Stable(ReadCheckpoint) && Consumes(ReadCheckpoint)
  {
    forall d, u | ValidDelta(d) ensures ReadCheckpoint(EncDelta(d) + u) == Got(Unanchor(d), u) {
      CheckpointRoundTrip(d, InitIndex(), u);
      assert Slice(d, InitIndex()) == d;
    }
    forall s, t | ReadCheckpoint(s).Got?
      ensures ReadCheckpoint(s + t) == Got(ReadCheckpoint(s).value, ReadCheckpoint(s).rest + t)
    {
      CheckpointStable(s, t);
    }
  }

  /** A checkpoint cut short anywhere reads as end of stream: replay never applies
      a partial checkpoint. */
  lemma CheckpointCut(d: Db, k: nat)
    requires ValidDelta(d) && k < |EncDelta(d)|
    ensures ReadCheckpoint(EncDelta(d)[..k]) == Eof
  {
    CheckpointLaws();
    CutIsEof(ReadCheckpoint, EncDelta, ValidDelta, Unanchor, d, k);
  }

  /** With the cursors inside the fields, the bytes written at the cursors are the
      encoding of the delta since the cursors. */
  lemma WriteIsDelta(db: Db, idx: RecoveryIndex)
    requires Within(idx, db)
    ensures WriteCheckpoint(db, idx) == EncDelta(Slice(db, idx))
  {
  }

  /** The bytes of an empty checkpoint: eleven zero counts. */
  const EmptyCheckpointWidth: nat := 11 * IntWidth

  /** A run of zero bytes as long as eleven counts reads as a checkpoint that adds
      nothing: this is what a zero-filled region of the journal replays as. */
  lemma ZeroCheckpoint(u: seq<byte>)
    ensures ReadCheckpoint(Zeros(EmptyCheckpointWidth) + u) == Got(EmptyDb, u)
  {
    var d := EmptyDb;
    assert ValidDelta(d);
    CheckpointRoundTrip(d, InitIndex(), u);
    assert Slice(d, InitIndex()) == d;
    ZeroIsEmptyDelta();
  }

  /** An empty field from cursor zero is just its zero count. */
  lemma EmptyField<T>(enc: T -> seq<byte>)
    ensures WriteCounted<T>([], 0, enc) == Zeros(IntWidth)
  {
    Pow256Widths();
    assert EncInt(0) == [0, 0, 0, 0];
  }

  lemma ZerosSplit(a: nat, b: nat)
    ensures Zeros(a + b) == Zeros(a) + Zeros(b)
  {
  }

  lemma ZeroIsEmptyDelta()
    ensures EncDelta(EmptyDb) == Zeros(EmptyCheckpointWidth)
  {
    var z := Zeros(IntWidth);
    EmptyField<OptU64>(EncOpt);
    EmptyField<bool>(EncBool);
    EmptyField<u32>(EncU32);
    EmptyField<u64>(EncU64);
    EmptyField<Entry>(EncEntry);
    EmptyField<Folder>(EncFolder);
    ZerosSplit(40, 4);
    ZerosSplit(4, 36);
    ZerosSplit(4, 32);
    ZerosSplit(4, 28);
    ZerosSplit(4, 24);
    ZerosSplit(4, 20);
    ZerosSplit(4, 16);
    ZerosSplit(4, 12);
    ZerosSplit(4, 8);
    ZerosSplit(4, 4);
  }
}

=== FILE: codec.dfy ===
/** The recovery journal's byte layout: the `WriteRecovery*Data` writers and the
    `ReadRecovery*Data` readers of 7zHandlerOut.cpp, one reader per writer.

    Every reader is sequential and returns the unread suffix. Two laws tie each
    reader to its writer: it inverts the writer whatever bytes follow, and it is
    stable, that is appending bytes after what it read changes nothing but the
    unread suffix. Together they give the truncation law: any strict prefix of
    an encoding reads as end of stream. */
module JournalCodec {
  import opened Primitives
  import opened Database

  // ---------------------------------------------------------------------------
  // Generic laws

  /** `read` undoes `enc` on every `ok` value, up to `norm`, whatever follows. */
  ghost predicate Inverts<T(!new)>(read: seq<byte> -> Read<T>, enc: T -> seq<byte>,
                                   ok: T -> bool, norm: T -> T)
  {
    forall x, u :: ok(x) ==> read(enc(x) + u) == Got(norm(x), u)
  }

  /** Bytes appended after what `read` consumed only lengthen the unread suffix. */
  ghost predicate Stable<T(!new)>(read: seq<byte> -> Read<T>) {
    forall s, t :: read(s).Got? ==> read(s + t) == Got(read(s).value, read(s).rest + t)
  }

  /** Every successful read consumes at least one byte. */
  ghost predicate Consumes<T(!new)>(read: seq<byte> -> Read<T>) {
    forall s :: read(s).Got? ==> |read(s).rest| < |s|
  }

  /** A reader that inverts a writer and is stable reads any strict prefix of an
      encoding as end of stream: a cut journal never yields a value. */
  lemma {:induction false} CutIsEof<T(!new)>(read: seq<byte> -> Read<T>, enc: T -> seq<byte>,
                                             ok: T -> bool, norm: T -> T, x: T, k: nat)
    requires Inverts(read, enc, ok, norm) && Stable(read)
    requires ok(x) && k < |enc(x)|
    ensures read(enc(x)[..k]) == Eof
  {
    var e := enc(x);
    var p := e[..k];
    var t := e[k..];
    assert p + t == e + [];
  }

  lemma Assoc<T>(a: seq<T>, b: seq<T>, c: seq<T>)
    ensures (a + b) + c == a + (b + c)
  {
  }

  lemma ReadBytesStable(n: nat, s: seq<byte>, t: seq<byte>)
    requires ReadBytes(n, s).Got?
    ensures ReadBytes(n, s + t) == Got(s[..n], s[n..] + t)
  {
    assert (s + t)[..n] == s[..n];
    assert (s + t)[n..] == s[n..] + t;
  }

  lemma ReadBytesExact(b: seq<byte>, u: seq<byte>)
    ensures ReadBytes(|b|, b + u) == Got(b, u)
  {
    assert (b + u)[..|b|] == b;
    assert (b + u)[|b|..] == u;
  }

  // ---------------------------------------------------------------------------
  // Scalars: bool = 1 byte, UInt32 = 4, UInt64 = 8, wchar_t = 2, int = 4

  function EncBool(b: bool): (r: seq<byte>)
    ensures |r| == BoolWidth
  {
    [if b then 1 else 0]
  }

  /** A stored `bool` byte is true when it is not zero. */
  function ReadBool(s: seq<byte>): (r: Read<bool>)
    ensures r.Got? ==> |r.rest| < |s|
  {
    match ReadBytes(BoolWidth, s)
    case Eof => Eof
    case Got(b, rest) => Got(b[0] != 0, rest)
  }

  function EncU32(x: u32): (r: seq<byte>)
    ensures |r| == U32Width
  {
    LE(x, U32Width)
  }

  function ReadU32(s: seq<byte>): (r: Read<u32>)
    ensures r.Got? ==> |r.rest| < |s|
  {
    match ReadBytes(U32Width, s)
    case Eof => Eof
    case Got(b, rest) => Pow256Widths(); Got(FromLE(b), rest)
  }

  function EncU64(x: u64): (r: seq<byte>)
    ensures |r| == U64Width
  {
    LE(x, U64Width)
  }

  function ReadU64(s: seq<byte>): (r: Read<u64>)
    ensures r.Got? ==> |r.rest| < |s|
  {
    match ReadBytes(U64Width, s)
    case Eof => Eof
    case Got(b, rest) => Pow256Widths(); Got(FromLE(b), rest)
  }

  function EncWchar(c: wchar): (r: seq<byte>)
    ensures |r| == WcharWidth
  {
    LE(c, WcharWidth)
  }

  function ReadWchar(s: seq<byte>): (r: Read<wchar>)
    ensures r.Got? ==> |r.rest| < |s|
  {
    match ReadBytes(WcharWidth, s)
    case Eof => Eof
    case Got(b, rest) => Pow256Widths(); Got(FromLE(b), rest)
  }

  /** A signed 32-bit count as the source's `int` holds it. */
  function ReadInt(s: seq<byte>): (r: Read<i32>)
    ensures r.Got? ==> |r.rest| < |s|
  {
    match ReadBytes(IntWidth, s)
    case Eof => Eof
    case Got(b, rest) => Got(DecInt(b), rest)
  }

  /** Truncation of a count into the source's 32-bit `int`. */
  function ToInt32(x: int): (r: i32)
    ensures -0x8000_0000 <= x < 0x8000_0000 ==> r == x
  {
    var m := x % TwoTo32;
    if m < 0x8000_0000 then m else m - TwoTo32
  }

  /** Truncation into `UInt32`. */
  function ToU32(x: int): (r: u32)
    ensures 0 <= x < TwoTo32 ==> r == x
  {
    x % TwoTo32
  }

  lemma BoolRoundTrip(b: bool, u: seq<byte>)
    ensures ReadBool(EncBool(b) + u) == Got(b, u)
  {
    ReadBytesExact(EncBool(b), u);
  }

  lemma U32RoundTrip(x: u32, u: seq<byte>)
    ensures ReadU32(EncU32(x) + u) == Got(x, u)
  {
    ReadBytesExact(EncU32(x), u);
    Pow256Widths();
    LERoundTrip(x, U32Width);
  }

  lemma U64RoundTrip(x: u64, u: seq<byte>)
    ensures ReadU64(EncU64(x) + u) == Got(x, u)
  {
    ReadBytesExact(EncU64(x), u);
    Pow256Widths();
    LERoundTrip(x, U64Width);
  }

  lemma WcharRoundTrip(c: wchar, u: seq<byte>)
    ensures ReadWchar(EncWchar(c) + u) == Got(c, u)
  {
    ReadBytesExact(EncWchar(c), u);
    Pow256Widths();
    LERoundTrip(c, WcharWidth);
  }

  lemma IntRoundTripRead(c: i32, u: seq<byte>)
    ensures ReadInt(EncInt(c) + u) == Got(c, u)
  {
    ReadBytesExact(EncInt(c), u);
    IntRoundTrip(c);
  }

  lemma BoolStable(s: seq<byte>, t: seq<byte>)
    requires ReadBool(s).Got?
    ensures ReadBool(s + t) == Got(ReadBool(s).value, ReadBool(s).rest + t)
  {
    ReadBytesStable(BoolWidth, s, t);
  }

  lemma U32Stable(s: seq<byte>, t: seq<byte>)
    requires ReadU32(s).Got?
    ensures ReadU32(s + t) == Got(ReadU32(s).value, ReadU32(s).rest + t)
  {
    ReadBytesStable(U32Width, s, t);
  }

  lemma U64Stable(s: seq<byte>, t: seq<byte>)
    requires ReadU64(s).Got?
    ensures ReadU64(s + t) == Got(ReadU64(s).value, ReadU64(s).rest + t)
  {
    ReadBytesStable(U64Width, s, t);
  }

  lemma WcharStable(s: seq<byte>, t: seq<byte>)
    requires ReadWchar(s).Got?
    ensures ReadWchar(s + t) == Got(ReadWchar(s).value, ReadWchar(s).rest + t)
  {
    ReadBytesStable(WcharWidth, s, t);
  }

  lemma IntStable(s: seq<byte>, t: seq<byte>)
    requires ReadInt(s).Got?
    ensures ReadInt(s + t) == Got(ReadInt(s).value, ReadInt(s).rest + t)
  {
    ReadBytesStable(IntWidth, s, t);
  }

  // ---------------------------------------------------------------------------
  // Repetition: `n` elements back to back, and the `[int count][elements]` field

  function EncMany<T>(xs: seq<T>, enc: T -> seq<byte>): seq<byte>
    decreases |xs|
  {
    if |xs| == 0 then [] else enc(xs[0]) + EncMany(xs[1..], enc)
  }

  function ReadMany<T(!new)>(n: nat, s: seq<byte>, read: seq<byte> -> Read<T>): (r: Read<seq<T>>)
    requires Consumes(read)
    ensures r.Got? ==> |r.value| == n && |r.rest| <= |s|
    decreases n
  {
    if n == 0 then Got([], s)
    else match read(s)
      case Eof => Eof
      case Got(x, s1) =>
        match ReadMany(n - 1, s1, read)
        case Eof => Eof
        case Got(xs, s2) => Got([x] + xs, s2)
  }

  /** `f` applied to every element, in order. */
  function MapSeq<T, U>(xs: seq<T>, f: T -> U): (r: seq<U>)
    ensures |r| == |xs|
    decreases |xs|
  {
    if |xs| == 0 then [] else [f(xs[0])] + MapSeq(xs[1..], f)
  }

  /** Sequences `f` maps pointwise to the same values map to the same sequence. */
  lemma {:induction false} MapSeqSame<T>(xs: seq<T>, ys: seq<T>, f: T -> T)
    requires |xs| == |ys|
    requires forall i :: 0 <= i < |xs| ==> f(xs[i]) == f(ys[i])
    ensures MapSeq(xs, f) == MapSeq(ys, f)
    decreases |xs|
  {
    if |xs| > 0 {
      assert f(xs[0]) == f(ys[0]);
      assert forall i :: 0 <= i < |xs| - 1 ==> xs[1..][i] == xs[i + 1] && ys[1..][i] == ys[i + 1];
      MapSeqSame(xs[1..], ys[1..], f);
    }
  }

  lemma {:induction false} MapSeqIndex<T>(xs: seq<T>, f: T -> T, i: nat)
    requires i < |xs|
    ensures MapSeq(xs, f)[i] == f(xs[i])
    decreases i
  {
    if i > 0 {
      MapSeqIndex(xs[1..], f, i - 1);
    }
  }

  /** The first element's bytes lead an encoded run and whatever follows it. */
  lemma EncManyCons<T>(xs: seq<T>, enc: T -> seq<byte>, u: seq<byte>)
    requires |xs| > 0
    ensures EncMany(xs, enc) + u == enc(xs[0]) + (EncMany(xs[1..], enc) + u)
  {
    var a, b := enc(xs[0]), EncMany(xs[1..], enc);
    assert EncMany(xs, enc) == a + b;
    Assoc(a, b, u);
  }

  lemma {:induction false} ReadManyRoundTrip<T(!new)>(xs: seq<T>, u: seq<byte>,
      read: seq<byte> -> Read<T>, enc: T -> seq<byte>, ok: T -> bool, norm: T -> T)
    requires Inverts(read, enc, ok, norm) && Consumes(read)
    requires forall i :: 0 <= i < |xs| ==> ok(xs[i])
    ensures ReadMany(|xs|, EncMany(xs, enc) + u, read) == Got(MapSeq(xs, norm), u)
    decreases |xs|
  {
    if |xs| > 0 {
      var tail := EncMany(xs[1..], enc) + u;
      EncManyCons(xs, enc, u);
      assert read(enc(xs[0]) + tail) == Got(norm(xs[0]), tail);
      ReadManyRoundTrip(xs[1..], u, read, enc, ok, norm);
      assert MapSeq(xs, norm) == [norm(xs[0])] + MapSeq(xs[1..], norm);
    }
  }

  lemma {:induction false} ReadManyStable<T(!new)>(n: nat, s: seq<byte>, t: seq<byte>,
      read: seq<byte> -> Read<T>)
    requires Stable(read) && Consumes(read)
    requires ReadMany(n, s, read).Got?
    ensures ReadMany(n, s + t, read)
         == Got(ReadMany(n, s, read).value, ReadMany(n, s, read).rest + t)
    decreases n
  {
    if n > 0 {
      var s1 := read(s).rest;
      assert read(s + t) == Got(read(s).value, s1 + t);
      ReadManyStable(n - 1, s1, t, read);
    }
  }

  /** The element count a field writer stores: `len - cursor`, as an `int`. */
  function FieldCount(len: nat, cursor: nat): i32 {
    ToInt32(len - cursor)
  }

  /** `[int count][elements]` for the elements from `cursor` on. */
  function WriteCounted<T>(xs: seq<T>, cursor: nat, enc: T -> seq<byte>): seq<byte> {
    EncInt(FieldCount(|xs|, cursor)) + EncMany(Tail(xs, cursor), enc)
  }

  /** Reads a count and that many elements; a count below one reads none,
      since the source's `for` loop then does not run. */
  function ReadCounted<T(!new)>(s: seq<byte>, read: seq<byte> -> Read<T>): (r: Read<seq<T>>)
    requires Consumes(read)
    ensures r.Got? ==> |r.rest| < |s|
  {
    match ReadInt(s)
    case Eof => Eof
    case Got(c, s1) =>
      ReadMany(if c > 0 then c else 0, s1, read)
  }

  /** Field counts the source's `int` can hold. */
  predicate CountOk(len: nat, cursor: nat) {
    len < 0x8000_0000 && cursor < 0x8000_0000
  }

  lemma CountedRoundTrip<T(!new)>(xs: seq<T>, cursor: nat, u: seq<byte>,
      read: seq<byte> -> Read<T>, enc: T -> seq<byte>, ok: T -> bool, norm: T -> T)
    requires Inverts(read, enc, ok, norm) && Consumes(read)
    requires CountOk(|xs|, cursor)
    requires forall i :: 0 <= i < |xs| ==> ok(xs[i])
    ensures ReadCounted(WriteCounted(xs, cursor, enc) + u, read)
         == Got(MapSeq(Tail(xs, cursor), norm), u)
  {
    var tl := Tail(xs, cursor);
    var body := EncMany(tl, enc) + u;
    assert WriteCounted(xs, cursor, enc) + u == EncInt(FieldCount(|xs|, cursor)) + body;
    IntRoundTripRead(FieldCount(|xs|, cursor), body);
    forall i | 0 <= i < |tl| ensures ok(tl[i]) {
      assert tl[i] == xs[cursor + i];
    }
    ReadManyRoundTrip(tl, u, read, enc, ok, norm);
  }

  lemma CountedStable<T(!new)>(s: seq<byte>, t: seq<byte>, read: seq<byte> -> Read<T>)
    requires Stable(read) && Consumes(read)
    requires ReadCounted(s, read).Got?
    ensures ReadCounted(s + t, read)
         == Got(ReadCounted(s, read).value, ReadCounted(s, read).rest + t)
  {
    IntStable(s, t);
    var c := ReadInt(s).value;
    ReadManyStable(if c > 0 then c else 0, ReadInt(s).rest, t, read);
  }

  function Id<T>(x: T): T { x }

  function Always<T>(x: T): bool { true }

  lemma {:induction false} MapSeqId<T>(xs: seq<T>)
    ensures MapSeq(xs, Id) == xs
    decreases |xs|
  {
    if |xs| > 0 {
      MapSeqId(xs[1..]);
    }
  }

  lemma WcharLaws()
    ensures Inverts(ReadWchar, EncWchar, Always, Id) && Stable(ReadWchar) && Consumes(ReadWchar)
  {
    forall x, u | Always(x) ensures ReadWchar(EncWchar(x) + u) == Got(Id(x), u) {
      WcharRoundTrip(x, u);
    }
    forall s, t | ReadWchar(s).Got?
      ensures ReadWchar(s + t) == Got(ReadWchar(s).value, ReadWchar(s).rest + t)
    {
      WcharStable(s, t);
    }
  }

  lemma U32Laws()
    ensures Inverts(ReadU32, EncU32, Always, Id) && Stable(ReadU32) && Consumes(ReadU32)
  {
    forall x, u | Always(x) ensures ReadU32(EncU32(x) + u) == Got(Id(x), u) {
      U32RoundTrip(x, u);
    }
    forall s, t | ReadU32(s).Got?
      ensures ReadU32(s + t) == Got(ReadU32(s).value, ReadU32(s).rest + t)
    {
      U32Stable(s, t);
    }
  }

  lemma U64Laws()
    ensures Inverts(ReadU64, EncU64, Always, Id) && Stable(ReadU64) && Consumes(ReadU64)
  {
    forall x, u | Always(x) ensures ReadU64(EncU64(x) + u) == Got(Id(x), u) {
      U64RoundTrip(x, u);
    }
    forall s, t | ReadU64(s).Got?
      ensures ReadU64(s + t) == Got(ReadU64(s).value, ReadU64(s).rest + t)
    {
      U64Stable(s, t);
    }
  }

  lemma BoolLaws()
    ensures Inverts(ReadBool, EncBool, Always, Id) && Stable(ReadBool) && Consumes(ReadBool)
  {
    forall x, u | Always(x) ensures ReadBool(EncBool(x) + u) == Got(Id(x), u) {
      BoolRoundTrip(x, u);
    }
    forall s, t | ReadBool(s).Got?
      ensures ReadBool(s + t) == Got(ReadBool(s).value, ReadBool(s).rest + t)
    {
      BoolStable(s, t);
    }
  }

  // ---------------------------------------------------------------------------
  // Optional 64-bit element: `[bool defined][UInt64 value, or 0 when undefined]`

  function EncOpt(o: OptU64): (r: seq<byte>)
    ensures |r| == BoolWidth + U64Width
  {
    match o
    case Undefined => EncBool(false) + EncU64(0)
    case Defined(v) => EncBool(true) + EncU64(v)
  }

  /** The value read for an undefined element is dropped, as `SetItem` drops it. */
  function ReadOpt(s: seq<byte>): (r: Read<OptU64>)
    ensures r.Got? ==> |r.rest| < |s|
  {
    match ReadBool(s)
    case Eof => Eof
    case Got(defined, s1) =>
      match ReadU64(s1)
      case Eof => Eof
      case Got(v, s2) => Got(if defined then Defined(v) else Undefined, s2)
  }

  lemma OptLaws()
    ensures Inverts(ReadOpt, EncOpt, Always, Id) && Stable(ReadOpt) && Consumes(ReadOpt)
  {
    forall o, u | Always(o) ensures ReadOpt(EncOpt(o) + u) == Got(Id(o), u) {
      var d := o.Defined?;
      var v: u64 := if d then o.value else 0;
      assert EncOpt(o) + u == EncBool(d) + (EncU64(v) + u);
      BoolRoundTrip(d, EncU64(v) + u);
      U64RoundTrip(v, u);
    }
    forall s, t | ReadOpt(s).Got?
      ensures ReadOpt(s + t) == Got(ReadOpt(s).value, ReadOpt(s).rest + t)
    {
      BoolStable(s, t);
      U64Stable(ReadBool(s).rest, t);
    }
  }

  // ---------------------------------------------------------------------------
  // Entry name: `[UInt32 length + 1][wchar_t characters][wchar_t 0]`

  /** A C string: the characters before the first terminator. */
  function CStr(cs: seq<wchar>): (r: seq<wchar>)
    ensures |r| <= |cs|
  {
    if |cs| == 0 || cs[0] == 0 then [] else [cs[0]] + CStr(cs[1..])
  }

  /** A name a `UString` can hold: an `int` length and no terminator inside. */
  predicate ValidName(name: seq<wchar>) {
    |name| < 0x8000_0000 && forall i :: 0 <= i < |name| ==> name[i] != 0
  }

  function EncName(name: seq<wchar>): seq<byte> {
    EncU32(ToU32(|name| + 1)) + EncMany(name + [0], EncWchar)
  }

  /** Reads the stored length, that many characters, and keeps the C string. */
  function ReadName(s: seq<byte>): (r: Read<seq<wchar>>)
    ensures r.Got? ==> |r.rest| < |s|
  {
    match ReadU32(s)
    case Eof => Eof
    case Got(n, s1) =>
      match ReadMany(n, s1, ReadWchar)
      case Eof => Eof
      case Got(cs, s2) => Got(CStr(cs), s2)
  }

  lemma {:induction false} CStrTerminated(name: seq<wchar>)
    requires forall i :: 0 <= i < |name| ==> name[i] != 0
    ensures CStr(name + [0]) == name
  {
    if |name| > 0 {
      assert (name + [0])[1..] == name[1..] + [0];
      CStrTerminated(name[1..]);
    }
  }

  lemma NameRoundTrip(name: seq<wchar>, u: seq<byte>)
    requires ValidName(name)
    ensures ReadName(EncName(name) + u) == Got(name, u)
  {
    var cs := name + [0];
    var body := EncMany(cs, EncWchar) + u;
    var n: u32 := |name| + 1;
    assert ToU32(|name| + 1) == n;
    Assoc(EncU32(n), EncMany(cs, EncWchar), u);
    assert EncName(name) + u == EncU32(n) + body;
    U32RoundTrip(n, body);
    assert ReadU32(EncName(name) + u) == Got(n, body);
    WcharLaws();
    ReadManyRoundTrip(cs, u, ReadWchar, EncWchar, Always, Id);
    MapSeqId(cs);
    assert ReadMany(n, body, ReadWchar) == Got(cs, u);
    CStrTerminated(name);
  }

  lemma NameStable(s: seq<byte>, t: seq<byte>)
    requires ReadName(s).Got?
    ensures ReadName(s + t) == Got(ReadName(s).value, ReadName(s).rest + t)
  {
    U32Stable(s, t);
    WcharLaws();
    ReadManyStable(ReadU32(s).value, ReadU32(s).rest, t, ReadWchar);
  }

  // ---------------------------------------------------------------------------
  // Entry: attrib, attribDefined, crc, crcDefined, hasStream, isDir, name, size

  /** What a journaled entry reads back as: everything but the anchor, which is not
      journaled and starts at 0 in a freshly read item. */
  function Unanchored(e: Entry): (r: Entry)
    ensures r.anchor == 0
  {
    e.(anchor := 0)
  }

  predicate ValidEntry(e: Entry) {
    ValidName(e.name)
  }

  function EncEntry(e: Entry): seq<byte> {
    EncU32(e.attrib) + (EncBool(e.attribDefined) + (EncU32(e.crc) + (EncBool(e.crcDefined)
      + (EncBool(e.hasStream) + (EncBool(e.isDir) + (EncName(e.name) + EncU64(e.size)))))))
  }

  function ReadEntry(s: seq<byte>): (r: Read<Entry>)
    ensures r.Got? ==> |r.rest| < |s|
  {
    match ReadU32(s)
    case Eof => Eof
    case Got(attrib, s1) =>
    match ReadBool(s1)
    case Eof => Eof
    case Got(attribDefined, s2) =>
    match ReadU32(s2)
    case Eof => Eof
    case Got(crc, s3) =>
    match ReadBool(s3)
    case Eof => Eof
    case Got(crcDefined, s4) =>
    match ReadBool(s4)
    case Eof => Eof
    case Got(hasStream, s5) =>
    match ReadBool(s5)
    case Eof => Eof
    case Got(isDir, s6) =>
    match ReadName(s6)
    case Eof => Eof
    case Got(name, s7) =>
    match ReadU64(s7)
    case Eof => Eof
    case Got(size, s8) =>
      Got(Entry(attrib, attribDefined, crc, crcDefined, hasStream, isDir, name, size, 0), s8)
  }

  lemma EntryRoundTrip(e: Entry, u: seq<byte>)
    requires ValidEntry(e)
    ensures ReadEntry(EncEntry(e) + u) == Got(Unanchored(e), u)
  {
    var x7 := EncName(e.name) + EncU64(e.size);
    var x6 := EncBool(e.isDir) + x7;
    var x5 := EncBool(e.hasStream) + x6;
    var x4 := EncBool(e.crcDefined) + x5;
    var x3 := EncU32(e.crc) + x4;
    var x2 := EncBool(e.attribDefined) + x3;
    Assoc(EncU32(e.attrib), x2, u);
    Assoc(EncBool(e.attribDefined), x3, u);
    Assoc(EncU32(e.crc), x4, u);
    Assoc(EncBool(e.crcDefined), x5, u);
    Assoc(EncBool(e.hasStream), x6, u);
    Assoc(EncBool(e.isDir), x7, u);
    Assoc(EncName(e.name), EncU64(e.size), u);
    U32RoundTrip(e.attrib, x2 + u);
    BoolRoundTrip(e.attribDefined, x3 + u);
    U32RoundTrip(e.crc, x4 + u);
    BoolRoundTrip(e.crcDefined, x5 + u);
    BoolRoundTrip(e.hasStream, x6 + u);
    BoolRoundTrip(e.isDir, x7 + u);
    NameRoundTrip(e.name, EncU64(e.size) + u);
    U64RoundTrip(e.size, u);
  }

  lemma EntryStable(s: seq<byte>, t: seq<byte>)
    requires ReadEntry(s).Got?
    ensures ReadEntry(s + t) == Got(ReadEntry(s).value, ReadEntry(s).rest + t)
  {
    var s1 := ReadU32(s).rest;
    var s2 := ReadBool(s1).rest;
    var s3 := ReadU32(s2).rest;
    var s4 := ReadBool(s3).rest;
    var s5 := ReadBool(s4).rest;
    var s6 := ReadBool(s5).rest;
    var s7 := ReadName(s6).rest;
    U32Stable(s, t);
    BoolStable(s1, t);
    U32Stable(s2, t);
    BoolStable(s3, t);
    BoolStable(s4, t);
    BoolStable(s5, t);
    NameStable(s6, t);
    U64Stable(s7, t);
  }

  lemma EntryLaws()
    ensures Inverts(ReadEntry, EncEntry, ValidEntry, Unanchored)
    ensures Stable(ReadEntry) && Consumes(ReadEntry)
  {
    forall e, u | ValidEntry(e) ensures ReadEntry(EncEntry(e) + u) == Got(Unanchored(e), u) {
      EntryRoundTrip(e, u);
    }
    forall s, t | ReadEntry(s).Got?
      ensures ReadEntry(s + t) == Got(ReadEntry(s).value, ReadEntry(s).rest + t)
    {
      EntryStable(s, t);
    }
  }

  // ---------------------------------------------------------------------------
  // Folder: bind pairs, coders, pack streams, unpack CRC and its flag, unpack sizes.
  // The nested lists are written whole (count = size), not from a cursor.

  function EncBindPair(b: BindPair): seq<byte> {
    EncU32(b.inIndex) + EncU32(b.outIndex)
  }

  function ReadBindPair(s: seq<byte>): (r: Read<BindPair>)
    ensures r.Got? ==> |r.rest| < |s|
  {
    match ReadU32(s)
    case Eof => Eof
    case Got(i, s1) =>
      match ReadU32(s1)
      case Eof => Eof
      case Got(o, s2) => Got(BindPair(i, o), s2)
  }

  lemma BindPairLaws()
    ensures Inverts(ReadBindPair, EncBindPair, Always, Id)
    ensures Stable(ReadBindPair) && Consumes(ReadBindPair)
  {
    forall b, u | Always(b) ensures ReadBindPair(EncBindPair(b) + u) == Got(Id(b), u) {
      Assoc(EncU32(b.inIndex), EncU32(b.outIndex), u);
      U32RoundTrip(b.inIndex, EncU32(b.outIndex) + u);
      U32RoundTrip(b.outIndex, u);
    }
    forall s, t | ReadBindPair(s).Got?
      ensures ReadBindPair(s + t) == Got(ReadBindPair(s).value, ReadBindPair(s).rest + t)
    {
      U32Stable(s, t);
      U32Stable(ReadU32(s).rest, t);
    }
  }

  /** Coder properties: `[int capacity][capacity bytes]`. */
  function EncProps(p: seq<byte>): seq<byte> {
    EncInt(ToInt32(|p|)) + p
  }

  /** Reads nothing more for a capacity of 0. A negative capacity also reads as empty
      properties here; the source's allocation for it fails instead. */
  function ReadProps(s: seq<byte>): (r: Read<seq<byte>>)
    ensures r.Got? ==> |r.rest| < |s|
  {
    match ReadInt(s)
    case Eof => Eof
    case Got(c, s1) => if c <= 0 then Got([], s1) else ReadBytes(c, s1)
  }

  lemma PropsRoundTrip(p: seq<byte>, u: seq<byte>)
    requires |p| < 0x8000_0000
    ensures ReadProps(EncProps(p) + u) == Got(p, u)
  {
    Assoc(EncInt(|p|), p, u);
    IntRoundTripRead(|p|, p + u);
    ReadBytesExact(p, u);
  }

  lemma PropsStable(s: seq<byte>, t: seq<byte>)
    requires ReadProps(s).Got?
    ensures ReadProps(s + t) == Got(ReadProps(s).value, ReadProps(s).rest + t)
  {
    IntStable(s, t);
    var c := ReadInt(s).value;
    if c > 0 {
      ReadBytesStable(c, ReadInt(s).rest, t);
    }
  }

  predicate ValidCoder(c: Coder) {
    |c.props| < 0x8000_0000
  }

  function EncCoder(c: Coder): seq<byte> {
    EncU64(c.methodId) + (EncU32(c.numInStreams) + (EncU32(c.numOutStreams) + EncProps(c.props)))
  }

  function ReadCoder(s: seq<byte>): (r: Read<Coder>)
    ensures r.Got? ==> |r.rest| < |s|
  {
    match ReadU64(s)
    case Eof => Eof
    case Got(id, s1) =>
    match ReadU32(s1)
    case Eof => Eof
    case Got(numIn, s2) =>
    match ReadU32(s2)
    case Eof => Eof
    case Got(numOut, s3) =>
    match ReadProps(s3)
    case Eof => Eof
    case Got(props, s4) => Got(Coder(id, numIn, numOut, props), s4)
  }

  lemma CoderLaws()
    ensures Inverts(ReadCoder, EncCoder, ValidCoder, Id)
    ensures Stable(ReadCoder) && Consumes(ReadCoder)
  {
    forall c, u | ValidCoder(c) ensures ReadCoder(EncCoder(c) + u) == Got(Id(c), u) {
      var x3 := EncU32(c.numOutStreams) + EncProps(c.props);
      var x2 := EncU32(c.numInStreams) + x3;
      Assoc(EncU64(c.methodId), x2, u);
      Assoc(EncU32(c.numInStreams), x3, u);
      Assoc(EncU32(c.numOutStreams), EncProps(c.props), u);
      U64RoundTrip(c.methodId, x2 + u);
      U32RoundTrip(c.numInStreams, x3 + u);
      U32RoundTrip(c.numOutStreams, EncProps(c.props) + u);
      PropsRoundTrip(c.props, u);
    }
    forall s, t | ReadCoder(s).Got?
      ensures ReadCoder(s + t) == Got(ReadCoder(s).value, ReadCoder(s).rest + t)
    {
      var s1 := ReadU64(s).rest;
      var s2 := ReadU32(s1).rest;
      var s3 := ReadU32(s2).rest;
      U64Stable(s, t);
      U32Stable(s1, t);
      U32Stable(s2, t);
      PropsStable(s3, t);
    }
  }

  predicate ValidFolder(f: Folder) {
    && |f.bindPairs| < 0x8000_0000
    && |f.coders| < 0x8000_0000
    && (forall i :: 0 <= i < |f.coders| ==> ValidCoder(f.coders[i]))
    && |f.packStreams| < 0x8000_0000
    && |f.unpackSizes| < 0x8000_0000
  }

  function EncFolder(f: Folder): seq<byte> {
    WriteCounted(f.bindPairs, 0, EncBindPair) + (WriteCounted(f.coders, 0, EncCoder)
      + (WriteCounted(f.packStreams, 0, EncU32) + (EncU32(f.unpackCrc)
      + (EncBool(f.unpackCrcDefined) + WriteCounted(f.unpackSizes, 0, EncU64)))))
  }

  function ReadFolder(s: seq<byte>): (r: Read<Folder>)
    ensures r.Got? ==> |r.rest| < |s|
  {
    match ReadCounted(s, ReadBindPair)
    case Eof => Eof
    case Got(bindPairs, s1) =>
    match ReadCounted(s1, ReadCoder)
    case Eof => Eof
    case Got(coders, s2) =>
    match ReadCounted(s2, ReadU32)
    case Eof => Eof
    case Got(packStreams, s3) =>
    match ReadU32(s3)
    case Eof => Eof
    case Got(unpackCrc, s4) =>
    match ReadBool(s4)
    case Eof => Eof
    case Got(unpackCrcDefined, s5) =>
    match ReadCounted(s5, ReadU64)
    case Eof => Eof
    case Got(unpackSizes, s6) =>
      Got(Folder(bindPairs, coders, packStreams, unpackCrc, unpackCrcDefined, unpackSizes), s6)
  }

  /** A whole list written from cursor 0 reads back unchanged. */
  lemma WholeRoundTrip<T(!new)>(xs: seq<T>, u: seq<byte>,
      read: seq<byte> -> Read<T>, enc: T -> seq<byte>, ok: T -> bool)
    requires Inverts(read, enc, ok, Id) && Consumes(read)
    requires |xs| < 0x8000_0000
    requires forall i :: 0 <= i < |xs| ==> ok(xs[i])
    ensures ReadCounted(WriteCounted(xs, 0, enc) + u, read) == Got(xs, u)
  {
    CountedRoundTrip(xs, 0, u, read, enc, ok, Id);
    assert Tail(xs, 0) == xs;
    MapSeqId(xs);
  }

  lemma BindPairsWhole(xs: seq<BindPair>, u: seq<byte>)
    requires |xs| < 0x8000_0000
    ensures ReadCounted(WriteCounted(xs, 0, EncBindPair) + u, ReadBindPair) == Got(xs, u)
  {
    BindPairLaws();
    WholeRoundTrip(xs, u, ReadBindPair, EncBindPair, Always);
  }

  lemma CodersWhole(xs: seq<Coder>, u: seq<byte>)
    requires |xs| < 0x8000_0000 && forall i :: 0 <= i < |xs| ==> ValidCoder(xs[i])
    ensures ReadCounted(WriteCounted(xs, 0, EncCoder) + u, ReadCoder) == Got(xs, u)
  {
    CoderLaws();
    WholeRoundTrip(xs, u, ReadCoder, EncCoder, ValidCoder);
  }

  lemma U32sWhole(xs: seq<u32>, u: seq<byte>)
    requires |xs| < 0x8000_0000
    ensures ReadCounted(WriteCounted(xs, 0, EncU32) + u, ReadU32) == Got(xs, u)
  {
    U32Laws();
    WholeRoundTrip(xs, u, ReadU32, EncU32, Always);
  }

  lemma U64sWhole(xs: seq<u64>, u: seq<byte>)
    requires |xs| < 0x8000_0000
    ensures ReadCounted(WriteCounted(xs, 0, EncU64) + u, ReadU64) == Got(xs, u)
  {
    U64Laws();
    WholeRoundTrip(xs, u, ReadU64, EncU64, Always);
  }

  /** `ReadFolder` is its six reads in turn. */
  lemma ReadFolderSteps(s: seq<byte>, f: Folder, s1: seq<byte>, s2: seq<byte>, s3: seq<byte>,
      s4: seq<byte>, s5: seq<byte>, s6: seq<byte>)
    requires ReadCounted(s, ReadBindPair) == Got(f.bindPairs, s1)
    requires ReadCounted(s1, ReadCoder) == Got(f.coders, s2)
    requires ReadCounted(s2, ReadU32) == Got(f.packStreams, s3)
    requires ReadU32(s3) == Got(f.unpackCrc, s4)
    requires ReadBool(s4) == Got(f.unpackCrcDefined, s5)
    requires ReadCounted(s5, ReadU64) == Got(f.unpackSizes, s6)
    ensures ReadFolder(s) == Got(f, s6)
  {
  }

  lemma FolderRoundTrip(f: Folder, u: seq<byte>)
    requires ValidFolder(f)
    ensures ReadFolder(EncFolder(f) + u) == Got(f, u)
  {
    var w1 := WriteCounted(f.bindPairs, 0, EncBindPair);
    var w2 := WriteCounted(f.coders, 0, EncCoder);
    var w3 := WriteCounted(f.packStreams, 0, EncU32);
    var w6 := WriteCounted(f.unpackSizes, 0, EncU64);
    var x5 := EncBool(f.unpackCrcDefined) + w6;
    var x4 := EncU32(f.unpackCrc) + x5;
    var x3 := w3 + x4;
    var x2 := w2 + x3;
    Assoc(w1, x2, u);
    Assoc(w2, x3, u);
    Assoc(w3, x4, u);
    Assoc(EncU32(f.unpackCrc), x5, u);
    Assoc(EncBool(f.unpackCrcDefined), w6, u);
    BindPairsWhole(f.bindPairs, x2 + u);
    CodersWhole(f.coders, x3 + u);
    U32sWhole(f.packStreams, x4 + u);
    U32RoundTrip(f.unpackCrc, x5 + u);
    BoolRoundTrip(f.unpackCrcDefined, w6 + u);
    U64sWhole(f.unpackSizes, u);
    ReadFolderSteps(w1 + x2 + u, f, x2 + u, x3 + u, x4 + u, x5 + u, w6 + u, u);
  }

  lemma FolderStable(s: seq<byte>, t: seq<byte>)
    requires ReadFolder(s).Got?
    ensures ReadFolder(s + t) == Got(ReadFolder(s).value, ReadFolder(s).rest + t)
  {
    BindPairLaws();
    CoderLaws();
    U32Laws();
    U64Laws();
    var s1 := ReadCounted(s, ReadBindPair).rest;
    var s2 := ReadCounted(s1, ReadCoder).rest;
    var s3 := ReadCounted(s2, ReadU32).rest;
    var s4 := ReadU32(s3).rest;
    var s5 := ReadBool(s4).rest;
    CountedStable(s, t, ReadBindPair);
    CountedStable(s1, t, ReadCoder);
    CountedStable(s2, t, ReadU32);
    U32Stable(s3, t);
    BoolStable(s4, t);
    CountedStable(s5, t, ReadU64);
  }

  lemma FolderLaws()
    ensures Inverts(ReadFolder, EncFolder, ValidFolder, Id)
    ensures Stable(ReadFolder) && Consumes(ReadFolder)
  {
    forall f, u | ValidFolder(f) ensures ReadFolder(EncFolder(f) + u) == Got(Id(f), u) {
      FolderRoundTrip(f, u);
    }
    forall s, t | ReadFolder(s).Got?
      ensures ReadFolder(s + t) == Got(ReadFolder(s).value, ReadFolder(s).rest + t)
    {
      FolderStable(s, t);
    }
  }
}

=== FILE: crash.dfy ===
/** What a resume recovers from a journal that a crash left behind: a run of whole
    checkpoints followed by a tail replay cannot use (a checkpoint cut short, one
    whose entries were moved to the trash, or zero fill). */
module Crash {
  import opened Primitives
  import opened Database
  import opened JournalCodec
  import opened Checkpoint
  import opened RecoveryHandler
  import opened Recovery

  /** The journal bytes of a run of checkpoints, oldest first. */
  function Concat(ds: seq<Db>): seq<byte> {
    EncMany(ds, EncDelta)
  }

  /** Every checkpoint of the run can be journaled, is as the journal reads it back
      (its entries carry no anchor, which is not journaled), and holds no trashed
      entry. */
  predicate Clean(ds: seq<Db>, trash: seq<seq<wchar>>) {
    forall i :: 0 <= i < |ds| ==> ValidDelta(ds[i]) && Unanchor(ds[i]) == ds[i] && !AnyFiltered(ds[i].files, trash)
  }

  /** A tail the replay loop passes over without changing anything. */
  ghost predicate Inert(p: seq<byte>, f: ResumeFilters, unpack: Folder -> u64) {
    forall st :: ReplayFrom(p, st, f, unpack) == st
  }

  /** The database a run of checkpoints reads back as: their deltas joined in order. */
  function Joined(ds: seq<Db>): (r: Db)
    ensures |ds| == 0 ==> r == EmptyDb
    decreases |ds|
  {
    if |ds| == 0 then EmptyDb else Append(ds[0], Joined(ds[1..]))
  }

  /** How many leading checkpoints end with the last commit point of the run (0 when
      none is a commit point). */
  function LastCommit(ds: seq<Db>, coc: seq<wchar>): (r: nat)
    ensures r <= |ds|
    decreases |ds|
  {
    if |ds| == 0 then 0
    else
      var k := LastCommit(ds[1..], coc);
      if k > 0 then k + 1
      else if IsCommit(ds[0], coc) then 1
      else 0
  }

  /** The reference replay: the checkpoints of the run applied one after another,
      with `p` after the last; `enc` gives each checkpoint's journal bytes, so that
      the bytes left after each one are known. */
  function Fold(st: Replayed, ds: seq<Db>, p: seq<byte>, enc: Db -> seq<byte>, f: ResumeFilters,
      unpack: Folder -> u64): Replayed
    decreases |ds|
  {
    if |ds| == 0 then st
    else Fold(ApplyCheckpoint(st, ds[0], |EncMany(ds[1..], enc) + p|, f, unpack),
      ds[1..], p, enc, f, unpack)
  }

  /** The number of entries under `stat` the statistics loop meets over a run. */
  function StatCount(ds: seq<Db>, stat: seq<wchar>): int
    decreases |ds|
  {
    if |ds| == 0 then 0 else Matching(ds[0].files, stat) + StatCount(ds[1..], stat)
  }

  /** The size the statistics loop adds over a run: for each entry under `stat`, the
      unpacked size of every folder of its checkpoint. */
  function StatSize(ds: seq<Db>, stat: seq<wchar>, unpack: Folder -> u64): int
    decreases |ds|
  {
    if |ds| == 0 then 0
    else Scaled(Matching(ds[0].files, stat), Sum(UnpackSizes(ds[0].folders, unpack))) + StatSize(ds[1..], stat, unpack)
  }

  // ----- Single checkpoints and tails -----

  /** A journaled checkpoint without trashed entries is read back whole, and the loop
      continues right after it. */
  lemma NextOfDelta(d: Db, u: seq<byte>, trash: seq<seq<wchar>>)
    requires ValidDelta(d) && !AnyFiltered(Unanchor(d).files, trash)
    ensures NextCheckpoint(EncDelta(d) + u, trash) == Apply(Unanchor(d), u)
  {
    CheckpointRoundTrip(d, InitIndex(), u);
    assert Slice(d, InitIndex()) == d;
  }

  /** A checkpoint whose entries include a trashed one stops the loop. */
  lemma TrashedStops(d: Db, u: seq<byte>, trash: seq<seq<wchar>>)
    requires ValidDelta(d) && AnyFiltered(Unanchor(d).files, trash)
    ensures NextCheckpoint(EncDelta(d) + u, trash) == Stop
  {
    CheckpointRoundTrip(d, InitIndex(), u);
    assert Slice(d, InitIndex()) == d;
  }

  /** A checkpoint cut short anywhere stops the loop. */
  lemma CutStops(d: Db, k: nat, trash: seq<seq<wchar>>)
    requires ValidDelta(d) && k < |EncDelta(d)|
    ensures NextCheckpoint(EncDelta(d)[..k], trash) == Stop
  {
    CheckpointCut(d, k);
  }

  /** Bytes at which the loop stops are inert. */
  lemma StopIsInert(p: seq<byte>, f: ResumeFilters, unpack: Folder -> u64)
    requires NextCheckpoint(p, f.trash) == Stop
    ensures Inert(p, f, unpack)
  {
    forall st: Replayed ensures ReplayFrom(p, st, f, unpack) == st {
      ReplayStop(p, st, f, unpack);
    }
  }

  /** An empty checkpoint changes nothing: it holds no entries, so it is no commit
      point and counts nothing. */
  lemma EmptyApplyIsIdentity(st: Replayed, left: nat, f: ResumeFilters, unpack: Folder -> u64)
    ensures ApplyCheckpoint(st, EmptyDb, left, f, unpack) == st
  {
    AppendEmpty(st.db);
  }

  /** Zero fill as the loop reads it: a whole 44-byte block is an empty checkpoint,
      fewer bytes are end of stream. */
  lemma NextOfZeros(n: nat, trash: seq<seq<wchar>>)
    ensures n < EmptyCheckpointWidth ==> NextCheckpoint(Zeros(n), trash) == Stop
    ensures n >= EmptyCheckpointWidth ==>
      NextCheckpoint(Zeros(n), trash) == Apply(EmptyDb, Zeros(n - EmptyCheckpointWidth))
  {
    ZeroIsEmptyDelta();
    if n < EmptyCheckpointWidth {
      CutStops(EmptyDb, n, trash);
      assert EncDelta(EmptyDb)[..n] == Zeros(n);
    } else {
      assert Zeros(n) == EncDelta(EmptyDb) + Zeros(n - EmptyCheckpointWidth);
      NextOfDelta(EmptyDb, Zeros(n - EmptyCheckpointWidth), trash);
      assert Unanchor(EmptyDb) == EmptyDb;
    }
  }

  /** Bytes the replay loop reads as nothing but empty checkpoints before it stops. */
  ghost predicate Blank(s: seq<byte>, trash: seq<seq<wchar>>)
    decreases |s|
  {
    match NextCheckpoint(s, trash)
    case Stop => true
    case Apply(cp, rest) => cp == EmptyDb && Blank(rest, trash)
  }

  /** Blank bytes are inert. */
  lemma {:induction false} BlankReplay(s: seq<byte>, st: Replayed, f: ResumeFilters, unpack: Folder -> u64)
    requires Blank(s, f.trash)
    ensures ReplayFrom(s, st, f, unpack) == st
    decreases |s|
  {
    var n := NextCheckpoint(s, f.trash);
    if n.Stop? {
      ReplayStop(s, st, f, unpack);
    } else {
      ReplayApply(s, st, f, unpack);
      EmptyApplyIsIdentity(st, |n.rest|, f, unpack);
      BlankReplay(n.rest, st, f, unpack);
    }
  }

  /** A family of byte strings in which each member of at least `w` bytes reads as an
      empty checkpoint followed by the member `w` bytes shorter, and each shorter one
      stops the loop, is blank throughout. */
  lemma {:induction false} BlankFamily(z: nat -> seq<byte>, w: nat, n: nat, trash: seq<seq<wchar>>)
    requires w > 0
    requires forall m: nat :: m < w ==> NextCheckpoint(z(m), trash) == Stop
    requires forall m: nat :: m >= w ==> NextCheckpoint(z(m), trash) == Apply(EmptyDb, z(m - w))
    ensures Blank(z(n), trash)
    decreases n
  {
    if n >= w {
      BlankFamily(z, w, n - w, trash);
    }
  }

  /** Zero fill is blank: each whole 44-byte block reads as an empty checkpoint and the
      shorter remainder stops the loop. */
  lemma ZerosBlank(n: nat, trash: seq<seq<wchar>>)
    ensures Blank(Zeros(n), trash)
  {
    forall m: nat ensures m < EmptyCheckpointWidth ==> NextCheckpoint(Zeros(m), trash) == Stop
      ensures m >= EmptyCheckpointWidth ==>
        NextCheckpoint(Zeros(m), trash) == Apply(EmptyDb, Zeros(m - EmptyCheckpointWidth))
    {
      NextOfZeros(m, trash);
    }
    BlankFamily(Zeros, EmptyCheckpointWidth, n, trash);
  }

  /** Zero fill is inert. */
  lemma ZerosInert(n: nat, f: ResumeFilters, unpack: Folder -> u64)
    ensures Inert(Zeros(n), f, unpack)
  {
    ZerosBlank(n, f.trash);
    forall st: Replayed ensures ReplayFrom(Zeros(n), st, f, unpack) == st {
      BlankReplay(Zeros(n), st, f, unpack);
    }
  }

  // ----- Runs of checkpoints -----

  /** Each checkpoint of the run, encoded by `enc` and followed by anything, is read
      back whole by the replay loop. */
  ghost predicate ReadsBack(enc: Db -> seq<byte>, ds: seq<Db>, trash: seq<seq<wchar>>) {
    forall i, u :: 0 <= i < |ds| ==> NextCheckpoint(enc(ds[i]) + u, trash) == Apply(ds[i], u)
  }

  /** A clean run is read back by the journal's own encoding. */
  lemma CleanReadsBack(ds: seq<Db>, trash: seq<seq<wchar>>)
    requires Clean(ds, trash)
    ensures ReadsBack(EncDelta, ds, trash)
  {
    forall i, u | 0 <= i < |ds|
      ensures NextCheckpoint(EncDelta(ds[i]) + u, trash) == Apply(ds[i], u)
    {
      NextOfDelta(ds[i], u, trash);
    }
  }

  lemma ReadsBackTail(enc: Db -> seq<byte>, ds: seq<Db>, trash: seq<seq<wchar>>)
    requires |ds| > 0 && ReadsBack(enc, ds, trash)
    ensures ReadsBack(enc, ds[1..], trash)
  {
    forall i, u | 0 <= i < |ds[1..]|
      ensures NextCheckpoint(enc(ds[1..][i]) + u, trash) == Apply(ds[1..][i], u)
    {
      assert ds[1..][i] == ds[i + 1];
    }
  }

  /** Replaying a run that reads back, followed by an inert tail, is the reference
      replay. */
  lemma {:induction false} ReplayRunWith(ds: seq<Db>, p: seq<byte>, st: Replayed, enc: Db -> seq<byte>,
      f: ResumeFilters, unpack: Folder -> u64)
    requires ReadsBack(enc, ds, f.trash) && Inert(p, f, unpack)
    ensures ReplayFrom(EncMany(ds, enc) + p, st, f, unpack) == Fold(st, ds, p, enc, f, unpack)
    decreases |ds|
  {
    if |ds| == 0 {
      assert EncMany(ds, enc) + p == p;
    } else {
      var rest := EncMany(ds[1..], enc) + p;
      EncManyCons(ds, enc, p);
      assert NextCheckpoint(enc(ds[0]) + rest, f.trash) == Apply(ds[0], rest);
      ReplayApply(EncMany(ds, enc) + p, st, f, unpack);
      ReadsBackTail(enc, ds, f.trash);
      ReplayRunWith(ds[1..], p, ApplyCheckpoint(st, ds[0], |rest|, f, unpack), enc, f, unpack);
    }
  }

  /** Replaying a clean run followed by an inert tail is the reference replay. */
  lemma ReplayRun(ds: seq<Db>, p: seq<byte>, st: Replayed, f: ResumeFilters, unpack: Folder -> u64)
    requires Clean(ds, f.trash) && Inert(p, f, unpack)
    ensures ReplayFrom(Concat(ds) + p, st, f, unpack) == Fold(st, ds, p, EncDelta, f, unpack)
  {
    CleanReadsBack(ds, f.trash);
    ReplayRunWith(ds, p, st, EncDelta, f, unpack);
  }

  lemma {:induction false} EncManySplit<T>(xs: seq<T>, enc: T -> seq<byte>, k: nat)
    requires k <= |xs|
    ensures EncMany(xs, enc) == EncMany(xs[..k], enc) + EncMany(xs[k..], enc)
    decreases k
  {
    if k > 0 {
      EncManySplit(xs[1..], enc, k - 1);
      assert xs[..k][1..] == xs[1..][..k - 1];
      assert xs[1..][k - 1..] == xs[k..];
      assert xs[..k][0] == xs[0];
    } else {
      assert xs[..k] == [];
      assert xs[k..] == xs;
    }
  }

  lemma {:induction false} JoinedSplit(ds: seq<Db>, k: nat)
    requires k <= |ds|
    ensures Joined(ds) == Append(Joined(ds[..k]), Joined(ds[k..]))
    decreases k
  {
    if k > 0 {
      JoinedSplit(ds[1..], k - 1);
      assert ds[..k][1..] == ds[1..][..k - 1];
      assert ds[1..][k - 1..] == ds[k..];
      assert ds[..k][0] == ds[0];
      AppendAssoc(ds[0], Joined(ds[1..][..k - 1]), Joined(ds[k..]));
    } else {
      assert ds[..k] == [];
      assert ds[k..] == ds;
      AppendEmpty(Joined(ds));
    }
  }

  /** One step of the reference replay. */
  lemma FoldStep(st: Replayed, ds: seq<Db>, p: seq<byte>, enc: Db -> seq<byte>,
      f: ResumeFilters, unpack: Folder -> u64)
    requires |ds| > 0
    ensures Fold(st, ds, p, enc, f, unpack)
      == Fold(ApplyCheckpoint(st, ds[0], |EncMany(ds[1..], enc) + p|, f, unpack), ds[1..], p, enc, f, unpack)
  {
  }

  /** The reference replay appends the whole run to the database. */
  lemma {:induction false} FoldDb(st: Replayed, ds: seq<Db>, p: seq<byte>, enc: Db -> seq<byte>,
      f: ResumeFilters, unpack: Folder -> u64)
    ensures Fold(st, ds, p, enc, f, unpack).db == Append(st.db, Joined(ds))
    decreases |ds|
  {
    if |ds| == 0 {
      AppendEmpty(st.db);
    } else {
      var next := ApplyCheckpoint(st, ds[0], |EncMany(ds[1..], enc) + p|, f, unpack);
      FoldDb(next, ds[1..], p, enc, f, unpack);
      AppendAssoc(st.db, ds[0], Joined(ds[1..]));
    }
  }

  /** The first `k` checkpoints of a run, `k` positive, joined: the first, then the
      next `k - 1`. */
  lemma JoinedPrefix(ds: seq<Db>, k: nat)
    requires 0 < k <= |ds|
    ensures Joined(ds[..k]) == Append(ds[0], Joined(ds[1..][..k - 1]))
  {
    assert ds[..k][1..] == ds[1..][..k - 1];
    assert ds[..k][0] == ds[0];
  }

  /** The reference replay's commit point: the field lengths and the bytes left after
      the last commit point of the run, or the starting ones when there is none. */
  lemma {:induction false} FoldCommit(st: Replayed, ds: seq<Db>, p: seq<byte>, enc: Db -> seq<byte>,
      f: ResumeFilters, unpack: Folder -> u64)
    ensures var r := Fold(st, ds, p, enc, f, unpack); var k := LastCommit(ds, f.coc);
      && (k == 0 ==> r.coc == st.coc && r.validLeft == st.validLeft)
      && (k > 0 ==> r.coc == Lengths(Append(st.db, Joined(ds[..k])))
                    && r.validLeft == |EncMany(ds[k..], enc) + p|)
    decreases |ds|
  {
    if |ds| > 0 {
      var cp := ds[0];
      var next := ApplyCheckpoint(st, cp, |EncMany(ds[1..], enc) + p|, f, unpack);
      var k' := LastCommit(ds[1..], f.coc);
      FoldCommit(next, ds[1..], p, enc, f, unpack);
      assert Fold(st, ds, p, enc, f, unpack) == Fold(next, ds[1..], p, enc, f, unpack);
      if k' > 0 {
        JoinedPrefix(ds, k' + 1);
        AppendAssoc(st.db, cp, Joined(ds[1..][..k']));
        assert ds[1..][k'..] == ds[k' + 1..];
      } else if IsCommit(cp, f.coc) {
        JoinedPrefix(ds, 1);
        AppendEmpty(cp);
      }
    }
  }

  lemma MatchingConcat(a: seq<Entry>, b: seq<Entry>, stat: seq<wchar>)
    ensures Matching(a + b, stat) == Matching(a, stat) + Matching(b, stat)
    decreases |a|
  {
    if |a| == 0 {
      assert a + b == b;
    } else {
      assert (a + b)[0] == a[0];
      assert (a + b)[1..] == a[1..] + b;
      MatchingConcat(a[1..], b, stat);
    }
  }

  /** The statistics count is the number of entries under `stat` in the joined run. */
  lemma {:induction false} StatCountIsMatching(ds: seq<Db>, stat: seq<wchar>)
    ensures StatCount(ds, stat) == Matching(Joined(ds).files, stat)
    decreases |ds|
  {
    if |ds| > 0 {
      StatCountIsMatching(ds[1..], stat);
      MatchingConcat(ds[0].files, Joined(ds[1..]).files, stat);
    }
  }

  /** The statistics loop run over each checkpoint of a run in turn, from the
      counters `count` and `size`. */
  function CountRun(count: u64, size: u64, ds: seq<Db>, stat: seq<wchar>, unpack: Folder -> u64): (u64, u64)
    decreases |ds|
  {
    if |ds| == 0 then (count, size)
    else
      var cp := ds[0];
      var c := CountStats(cp.files, UnpackSizes(cp.folders, unpack), stat, count, size);
      CountRun(c.0, c.1, ds[1..], stat, unpack)
  }

  /** The reference replay's counters are the statistics loop run over the whole run;
      those kept at the last commit point are the loop run over the checkpoints up to
      it. */
  lemma {:induction false} FoldCounts(st: Replayed, ds: seq<Db>, p: seq<byte>, enc: Db -> seq<byte>,
      f: ResumeFilters, unpack: Folder -> u64)
    ensures var r := Fold(st, ds, p, enc, f, unpack); var k := LastCommit(ds, f.coc);
      && (r.fileCount, r.unpackedSize) == CountRun(st.fileCount, st.unpackedSize, ds, f.stat, unpack)
      && (k == 0 ==> (r.cocFileCount, r.cocUnpackedSize) == (st.cocFileCount, st.cocUnpackedSize))
      && (k > 0 ==> (r.cocFileCount, r.cocUnpackedSize)
                    == CountRun(st.fileCount, st.unpackedSize, ds[..k], f.stat, unpack))
    decreases |ds|
  {
    if |ds| > 0 {
      var cp := ds[0];
      var next := ApplyCheckpoint(st, cp, |EncMany(ds[1..], enc) + p|, f, unpack);
      var k' := LastCommit(ds[1..], f.coc);
      FoldCounts(next, ds[1..], p, enc, f, unpack);
      FoldStep(st, ds, p, enc, f, unpack);
      assert ds[..k' + 1][0] == ds[0] && ds[..k' + 1][1..] == ds[1..][..k'];
      assert ds[1..][..0] == [];
    }
  }

  /** The statistics loop over a run adds the run's totals, modulo 2^64. */
  lemma {:induction false} CountRunClosedForm(count: u64, size: u64, ds: seq<Db>, stat: seq<wchar>,
      unpack: Folder -> u64)
    ensures CountRun(count, size, ds, stat, unpack).0 == Wrap64(count + StatCount(ds, stat))
    ensures CountRun(count, size, ds, stat, unpack).1 == Wrap64(size + StatSize(ds, stat, unpack))
    decreases |ds|
  {
    if |ds| > 0 {
      var c := CountStats(ds[0].files, UnpackSizes(ds[0].folders, unpack), stat, count, size);
      CountRunStep(count, size, ds, stat, unpack);
      StatStep(ds, stat, unpack);
      CountStatsClosedForm(ds[0].files, UnpackSizes(ds[0].folders, unpack), stat, count, size);
      CountRunClosedForm(c.0, c.1, ds[1..], stat, unpack);
      WrapPairStep(count, size, Matching(ds[0].files, stat),
        Scaled(Matching(ds[0].files, stat), Sum(UnpackSizes(ds[0].folders, unpack))),
        StatCount(ds[1..], stat), StatSize(ds[1..], stat, unpack),
        StatCount(ds, stat), StatSize(ds, stat, unpack),
        c, CountRun(count, size, ds, stat, unpack), CountRun(c.0, c.1, ds[1..], stat, unpack));
    } else {
      assert StatCount(ds, stat) == 0 && StatSize(ds, stat, unpack) == 0;
      assert CountRun(count, size, ds, stat, unpack) == (count, size);
    }
  }

  /** Two rounds of wrapping additions to a pair of counters are one round adding the sums. */
  lemma WrapPairStep(count: u64, size: u64, m: int, a: int, m': int, a': int, sm: int, sa: int,
      c: (u64, u64), whole: (u64, u64), rest: (u64, u64))
    requires whole == rest
    requires c == (Wrap64(count + m), Wrap64(size + a))
    requires rest == (Wrap64(c.0 + m'), Wrap64(c.1 + a'))
    requires sm == m + m' && sa == a + a'
    ensures whole == (Wrap64(count + sm), Wrap64(size + sa))
  {
    WrapTwice(count, m, m', c.0, sm);
    WrapTwice(size, a, a', c.1, sa);
  }

  /** One checkpoint of the run. */
  lemma CountRunStep(count: u64, size: u64, ds: seq<Db>, stat: seq<wchar>, unpack: Folder -> u64)
    requires |ds| > 0
    ensures var c := CountStats(ds[0].files, UnpackSizes(ds[0].folders, unpack), stat, count, size);
      CountRun(count, size, ds, stat, unpack) == CountRun(c.0, c.1, ds[1..], stat, unpack)
  {
  }

  /** One checkpoint of the totals. */
  lemma StatStep(ds: seq<Db>, stat: seq<wchar>, unpack: Folder -> u64)
    requires |ds| > 0
    ensures StatCount(ds, stat) == Matching(ds[0].files, stat) + StatCount(ds[1..], stat)
    ensures StatSize(ds, stat, unpack)
      == Scaled(Matching(ds[0].files, stat), Sum(UnpackSizes(ds[0].folders, unpack))) + StatSize(ds[1..], stat, unpack)
  {
  }

  // ----- Resuming -----

  /** The journal of a session: the signature, then whatever the session wrote. */
  lemma SignedJournal(x: seq<byte>)
    ensures HasSignature(Signature + x) && (Signature + x)[SignatureWidth..] == x
    ensures |Signature + x| == SignatureWidth + |x|
  {
    SignatureLength();
  }

  /** A resume of a journal that starts with the signature replays the bytes after it,
      rolls back to the last commit point and reopens the journal right after it; a
      journal that is already open is left failed instead. */
  lemma ResumeOn(h: Handler, body: seq<byte>, f: ResumeFilters, unpack: Folder -> u64, survivorsOnly: bool)
    requires !h.archiveCreated
    ensures var data := Signature + body; var st := ReplayFrom(body, InitReplay(|body|), f, unpack);
      var r := ResumeWith(h, Some(data), true, f, unpack, survivorsOnly);
      && r.result == S_OK
      && r.handler.db == Truncate(st.db, st.coc)
      && r.handler.journal
           == (if h.journal.Closed? then Open(data, SignatureWidth + (|body| - st.validLeft)) else Failed(h.journal.data))
      && r.handler.recoveredFileCount == (if survivorsOnly then st.cocFileCount else st.fileCount)
      && r.handler.recoveredSize == (if survivorsOnly then st.cocUnpackedSize else st.unpackedSize)
  {
    SignedJournal(body);
  }

  /** The replay a resume runs on a run that reads back followed by an inert tail:
      the database is the joined run, it is rolled back to the run up to its last
      commit point, the valid end is right after that checkpoint, and the counters
      are the run's totals (those at the commit point, the totals up to it). */
  lemma ResumeReplayWith(ds: seq<Db>, p: seq<byte>, enc: Db -> seq<byte>, f: ResumeFilters,
      unpack: Folder -> u64)
    requires ReadsBack(enc, ds, f.trash) && Inert(p, f, unpack)
    ensures var body := EncMany(ds, enc) + p;
      var st := ReplayFrom(body, InitReplay(|body|), f, unpack); var k := LastCommit(ds, f.coc);
      && Truncate(st.db, st.coc) == Joined(ds[..k])
      && |body| - st.validLeft == |EncMany(ds[..k], enc)|
      && (st.fileCount, st.unpackedSize) == CountRun(0, 0, ds, f.stat, unpack)
      && (st.cocFileCount, st.cocUnpackedSize) == CountRun(0, 0, ds[..k], f.stat, unpack)
  {
    var body := EncMany(ds, enc) + p;
    ReplayRunWith(ds, p, InitReplay(|body|), enc, f, unpack);
    ResumeReplayDb(ds, p, enc, f, unpack);
    ResumeReplayCounts(ds, p, enc, f, unpack);
  }

  /** The database and the commit offset part of `ResumeReplayWith`, on the reference replay. */
  lemma ResumeReplayDb(ds: seq<Db>, p: seq<byte>, enc: Db -> seq<byte>, f: ResumeFilters,
      unpack: Folder -> u64)
    ensures var n := |EncMany(ds, enc) + p|;
      var st := Fold(InitReplay(n), ds, p, enc, f, unpack); var k := LastCommit(ds, f.coc);
      && Truncate(st.db, st.coc) == Joined(ds[..k])
      && n - st.validLeft == |EncMany(ds[..k], enc)|
  {
    var st0 := InitReplay(|EncMany(ds, enc) + p|);
    var k := LastCommit(ds, f.coc);
    FoldDb(st0, ds, p, enc, f, unpack);
    FoldCommit(st0, ds, p, enc, f, unpack);
    AppendEmpty(Joined(ds));
    AppendEmpty(Joined(ds[..k]));
    JoinedSplit(ds, k);
    EncManySplit(ds, enc, k);
    TruncateToPrefix(Joined(ds[..k]), Joined(ds));
    if k == 0 {
      assert ds[..k] == [];
    }
  }

  /** The counter part of `ResumeReplayWith`, on the reference replay. */
  lemma ResumeReplayCounts(ds: seq<Db>, p: seq<byte>, enc: Db -> seq<byte>, f: ResumeFilters,
      unpack: Folder -> u64)
    ensures var n := |EncMany(ds, enc) + p|;
      var st := Fold(InitReplay(n), ds, p, enc, f, unpack); var k := LastCommit(ds, f.coc);
      && (st.fileCount, st.unpackedSize) == CountRun(0, 0, ds, f.stat, unpack)
      && (st.cocFileCount, st.cocUnpackedSize) == CountRun(0, 0, ds[..k], f.stat, unpack)
  {
    var k := LastCommit(ds, f.coc);
    FoldCounts(InitReplay(|EncMany(ds, enc) + p|), ds, p, enc, f, unpack);
    if k == 0 {
      assert ds[..k] == [];
    }
  }

  /** A journal that a crash left as the signature, a clean run of checkpoints and an
      inert tail resumes to the checkpoints up to the last commit point, with the
      journal reopened right after that commit point (or, already open, left failed). */
  lemma ResumeAfterCrash(h: Handler, ds: seq<Db>, p: seq<byte>, f: ResumeFilters,
      unpack: Folder -> u64, survivorsOnly: bool)
    requires !h.archiveCreated && Clean(ds, f.trash) && Inert(p, f, unpack)
    ensures var data := Signature + (Concat(ds) + p); var k := LastCommit(ds, f.coc);
      var r := ResumeWith(h, Some(data), true, f, unpack, survivorsOnly);
      && r.result == S_OK
      && r.handler.db == Joined(ds[..k])
      && r.handler.journal
           == (if h.journal.Closed? then Open(data, SignatureWidth + |Concat(ds[..k])|) else Failed(h.journal.data))
  {
    CleanReadsBack(ds, f.trash);
    ResumeReplayWith(ds, p, EncDelta, f, unpack);
    ResumeOn(h, Concat(ds) + p, f, unpack, survivorsOnly);
  }

  /** The statistics loop run over a whole run from zero counts the entries of the
      joined run under the statistics prefix and adds the run's size total, each
      modulo 2^64. */
  lemma CountRunMatching(ds: seq<Db>, stat: seq<wchar>, unpack: Folder -> u64)
    ensures CountRun(0, 0, ds, stat, unpack)
      == (Wrap64(Matching(Joined(ds).files, stat)), Wrap64(StatSize(ds, stat, unpack)))
  {
    CountRunClosedForm(0, 0, ds, stat, unpack);
    StatCountIsMatching(ds, stat);
  }

  /** A single checkpoint holding one entry under the statistics prefix counts one file. */
  lemma OneEntryCountsOne(d: Db, stat: seq<wchar>, unpack: Folder -> u64)
    requires |d.files| == 1 && StartsWith(d.files[0].name, stat)
    ensures CountRun(0, 0, [d], stat, unpack).0 == 1
  {
    CountRunMatching([d], stat, unpack);
    AppendEmpty(d);
    assert Joined([d]) == d;
    assert Matching(d.files, stat) == 1 + Matching(d.files[1..], stat);
  }

  /** The counters as written also count the checkpoints the rollback removes: a
      journal holding one checkpoint with one entry under the statistics prefix and
      no commit marker, followed by an inert tail, resumes to an empty database and a
      file count of one. */
  lemma RolledBackStillCounted(h: Handler, d: Db, p: seq<byte>, f: ResumeFilters, unpack: Folder -> u64)
    requires !h.archiveCreated && Clean([d], f.trash) && Inert(p, f, unpack)
    requires |d.files| == 1 && StartsWith(d.files[0].name, f.stat) && !IsCommit(d, f.coc)
    ensures var r := ResumeWith(h, Some(Signature + (Concat([d]) + p)), true, f, unpack, false);
      r.result == S_OK && r.handler.db == EmptyDb && r.handler.recoveredFileCount == 1
  {
    assert LastCommit([d], f.coc) == 0 by {
      assert [d][1..] == [];
    }
    CleanReadsBack([d], f.trash);
    ResumeReplayWith([d], p, EncDelta, f, unpack);
    ResumeOn(h, Concat([d]) + p, f, unpack, false);
    OneEntryCountsOne(d, f.stat, unpack);
    assert [d][..0] == [];
  }

  /** With the counters taken at the last commit point, they count exactly the entries
      of the recovered database: the file count is the number of its entries under
      the statistics prefix, and the size the totals of the surviving checkpoints. */
  lemma SurvivorCounters(h: Handler, ds: seq<Db>, p: seq<byte>, f: ResumeFilters, unpack: Folder -> u64)
    requires !h.archiveCreated && Clean(ds, f.trash) && Inert(p, f, unpack)
    ensures var data := Signature + (Concat(ds) + p); var k := LastCommit(ds, f.coc);
      var r := ResumeWith(h, Some(data), true, f, unpack, true);
      && r.handler.recoveredFileCount == Wrap64(Matching(r.handler.db.files, f.stat))
      && r.handler.recoveredSize == Wrap64(StatSize(ds[..k], f.stat, unpack))
  {
    var k := LastCommit(ds, f.coc);
    CleanReadsBack(ds, f.trash);
    ResumeReplayWith(ds, p, EncDelta, f, unpack);
    ResumeOn(h, Concat(ds) + p, f, unpack, true);
    CountRunMatching(ds[..k], f.stat, unpack);
  }

  /** What the host reads after a resume of a crashed journal: the entries and the
      pack size of the run up to its last commit point, and the statistics of the
      whole run as written (of the run up to the commit point when corrected). */
  lemma ResumedStatistics(h: Handler, ds: seq<Db>, p: seq<byte>, f: ResumeFilters,
      unpack: Folder -> u64, survivorsOnly: bool)
    requires !h.archiveCreated && Clean(ds, f.trash) && Inert(p, f, unpack)
    ensures var k := LastCommit(ds, f.coc); var counted := if survivorsOnly then ds[..k] else ds;
      var r := ResumeWith(h, Some(Signature + (Concat(ds) + p)), true, f, unpack, survivorsOnly);
      && GetFileCount(r.handler) == |Joined(ds[..k]).files|
      && GetTotalPackSize(r.handler) == Wrap64(Sum(Joined(ds[..k]).packSizes))
      && GetRecoveredFileCount(r.handler) == Wrap64(Matching(Joined(counted).files, f.stat))
      && GetRecoveredUncompressedFileSize(r.handler) == Wrap64(StatSize(counted, f.stat, unpack))
  {
    var k := LastCommit(ds, f.coc);
    ResumeAfterCrash(h, ds, p, f, unpack, survivorsOnly);
    CleanReadsBack(ds, f.trash);
    ResumeReplayWith(ds, p, EncDelta, f, unpack);
    ResumeOn(h, Concat(ds) + p, f, unpack, survivorsOnly);
    CountRunMatching(ds, f.stat, unpack);
    CountRunMatching(ds[..k], f.stat, unpack);
  }

  /** The journal a trash leaves behind: when the trashed entry was first journaled by
      checkpoint `i` of a run the journal ends with, the checkpoints from `i` on are
      zero-filled and the write offset returns to where checkpoint `i` began; a resume
      of that journal then recovers no more than the checkpoints before `i`, up to
      their last commit point. */
  lemma TrashThenResume(h: Handler, path: seq<wchar>, ds: seq<Db>, i: nat, h0: Handler,
      f: ResumeFilters, unpack: Folder -> u64, survivorsOnly: bool)
    requires Clean(ds, f.trash) && i < |ds| && !h0.archiveCreated
    requires h.journal == Open(Signature + Concat(ds), |Signature + Concat(ds)|)
    requires FirstNamed(h.db.files, path).Some?
    requires h.db.files[FirstNamed(h.db.files, path).value].anchor == SignatureWidth + |Concat(ds[..i])|
    ensures var t := MoveItemToTrash(h, path); var k := LastCommit(ds[..i], f.coc);
      var r := ResumeWith(h0, Some(t.0.journal.data), true, f, unpack, survivorsOnly);
      && t.1 == S_OK
      && t.0.journal.pos == SignatureWidth + |Concat(ds[..i])|
      && r.result == S_OK
      && r.handler.db == Joined(ds[..i][..k])
      && Extends(r.handler.db, Joined(ds[..i]))
  {
    var n := TrashZeroFills(h, path, ds, i, f.trash);
    CleanPrefix(ds, i, f.trash);
    ResumeAfterZeroFill(h0, ds[..i], n, f, unpack, survivorsOnly);
  }

  lemma CleanPrefix(ds: seq<Db>, i: nat, trash: seq<seq<wchar>>)
    requires Clean(ds, trash) && i <= |ds|
    ensures Clean(ds[..i], trash)
  {
    var pre := ds[..i];
    forall j | 0 <= j < |pre|
      ensures ValidDelta(pre[j]) && Unanchor(pre[j]) == pre[j] && !AnyFiltered(pre[j].files, trash)
    {
      assert pre[j] == ds[j];
    }
  }

  /** A clean run followed by zero fill resumes to the run up to its last commit point,
      which is no more than the whole run. */
  lemma ResumeAfterZeroFill(h0: Handler, pre: seq<Db>, n: nat, f: ResumeFilters,
      unpack: Folder -> u64, survivorsOnly: bool)
    requires Clean(pre, f.trash) && !h0.archiveCreated
    ensures var k := LastCommit(pre, f.coc);
      var r := ResumeWith(h0, Some(Signature + (Concat(pre) + Zeros(n))), true, f, unpack, survivorsOnly);
      && r.result == S_OK
      && r.handler.db == Joined(pre[..k])
      && Extends(r.handler.db, Joined(pre))
  {
    ZerosInert(n, f, unpack);
    ResumeAfterCrash(h0, pre, Zeros(n), f, unpack, survivorsOnly);
    var k := LastCommit(pre, f.coc);
    JoinedSplit(pre, k);
    AppendExtends(Joined(pre[..k]), Joined(pre[k..]));
  }

  /** The trash of an entry first journaled by checkpoint `i` zero-fills the journal
      from that checkpoint to its end, `n` bytes, and rewinds the write offset there. */
  lemma TrashZeroFills(h: Handler, path: seq<wchar>, ds: seq<Db>, i: nat, trash: seq<seq<wchar>>)
      returns (n: nat)
    requires Clean(ds, trash) && i < |ds|
    requires h.journal == Open(Signature + Concat(ds), |Signature + Concat(ds)|)
    requires FirstNamed(h.db.files, path).Some?
    requires h.db.files[FirstNamed(h.db.files, path).value].anchor == SignatureWidth + |Concat(ds[..i])|
    ensures var t := MoveItemToTrash(h, path);
      && t.1 == S_OK
      && t.0.journal.pos == SignatureWidth + |Concat(ds[..i])|
      && t.0.journal.data == Signature + (Concat(ds[..i]) + Zeros(n))
  {
    var x := Signature + Concat(ds[..i]);
    var y := Concat(ds[i..]);
    SignatureLength();
    SignedSplit(ds, i);
    ConcatFromNonEmpty(ds, i, trash);
    assert |x| == SignatureWidth + |Concat(ds[..i])|;
    TrashRewinds(h, path, x, y);
    n := |y|;
    Assoc(Signature, Concat(ds[..i]), Zeros(n));
  }

  /** A signed journal splits before any checkpoint of its run. */
  lemma SignedSplit(ds: seq<Db>, i: nat)
    requires i <= |ds|
    ensures Signature + Concat(ds) == (Signature + Concat(ds[..i])) + Concat(ds[i..])
  {
    ConcatSplit(ds, i);
    Assoc(Signature, Concat(ds[..i]), Concat(ds[i..]));
  }

  lemma ConcatSplit(ds: seq<Db>, i: nat)
    requires i <= |ds|
    ensures Concat(ds) == Concat(ds[..i]) + Concat(ds[i..])
  {
    EncManySplit(ds, EncDelta, i);
  }

  /** Every journaled checkpoint takes at least one byte. */
  lemma ConcatFromNonEmpty(ds: seq<Db>, i: nat, trash: seq<seq<wchar>>)
    requires Clean(ds, trash) && i < |ds|
    ensures |Concat(ds[i..])| > 0
  {
    assert ds[i..][0] == ds[i];
    NextOfDelta(ds[i], [], trash);
  }
}

=== FILE: database.dfy ===
/** The in-memory archive database `_newDB` that the recovery journal mirrors,
    the per-field recovery cursors, and the whole-record operations replay and
    rollback are built from. */
module Database {
  import opened Primitives

  /** One archive item. `anchor` is the journal offset at which the checkpoint that
      first carried this item began (`RecoveryRecordPos`); it is never journaled. */
  datatype Entry = Entry(
    attrib: u32,
    attribDefined: bool,
    crc: u32,
    crcDefined: bool,
    hasStream: bool,
    isDir: bool,
    name: seq<wchar>,
    size: u64,
    anchor: int)

  datatype BindPair = BindPair(inIndex: u32, outIndex: u32)

  /** A coder of a folder; `props` is the coder's property buffer (its capacity). */
  datatype Coder = Coder(methodId: u64, numInStreams: u32, numOutStreams: u32, props: seq<byte>)

  /** A compression unit (solid block). */
  datatype Folder = Folder(
    bindPairs: seq<BindPair>,
    coders: seq<Coder>,
    packStreams: seq<u32>,
    unpackCrc: u32,
    unpackCrcDefined: bool,
    unpackSizes: seq<u64>)

  /** One element of an optional 64-bit vector (start position or a file time). */
  datatype OptU64 = Undefined | Defined(value: u64)

  /** The eleven journaled fields, in checkpoint order. A checkpoint carries a value of
      this same shape: the elements each field gained since the previous checkpoint. */
  datatype Db = Db(
    startPos: seq<OptU64>,
    cTime: seq<OptU64>,
    mTime: seq<OptU64>,
    aTime: seq<OptU64>,
    packCrcsDefined: seq<bool>,
    packCrcs: seq<u32>,
    packSizes: seq<u64>,
    numUnpackStreams: seq<u32>,
    isAnti: seq<bool>,
    files: seq<Entry>,
    folders: seq<Folder>)

  /** `CRecoveryIndex`: one cursor per journaled field, the number of its elements
      already flushed. The same shape records the field lengths at a commit point. */
  datatype RecoveryIndex = RecoveryIndex(
    startPos: nat,
    cTime: nat,
    mTime: nat,
    aTime: nat,
    packCrcsDefined: nat,
    packCrcs: nat,
    packSizes: nat,
    numUnpackStreams: nat,
    isAnti: nat,
    files: nat,
    folders: nat)

  const EmptyDb := Db([], [], [], [], [], [], [], [], [], [], [])

  /** `CRecoveryIndex::Init`. */
  function InitIndex(): (r: RecoveryIndex)
    ensures r == Lengths(EmptyDb)
  {
    RecoveryIndex(0, 0, 0, 0, 0, 0, 0, 0, 0, 0, 0)
  }

  function Lengths(db: Db): RecoveryIndex {
    RecoveryIndex(|db.startPos|, |db.cTime|, |db.mTime|, |db.aTime|,
      |db.packCrcsDefined|, |db.packCrcs|, |db.packSizes|, |db.numUnpackStreams|,
      |db.isAnti|, |db.files|, |db.folders|)
  }

  /** Elements from index `c` on; nothing when the cursor is at or past the end. */
  function Tail<T>(xs: seq<T>, c: nat): (r: seq<T>)
    ensures c <= |xs| ==> xs == xs[..c] + r
    ensures c >= |xs| ==> r == []
  {
    if c <= |xs| then xs[c..] else []
  }

  /** `DeleteFrom(n)`: keep the first `n` elements. */
  function Keep<T>(xs: seq<T>, n: nat): (r: seq<T>)
    ensures n <= |xs| ==> r == xs[..n]
    ensures n >= |xs| ==> r == xs
  {
    if n <= |xs| then xs[..n] else xs
  }

  /** The delta a checkpoint written at cursor `idx` carries. */
  function Slice(db: Db, idx: RecoveryIndex): Db {
    Db(Tail(db.startPos, idx.startPos), Tail(db.cTime, idx.cTime), Tail(db.mTime, idx.mTime),
      Tail(db.aTime, idx.aTime), Tail(db.packCrcsDefined, idx.packCrcsDefined),
      Tail(db.packCrcs, idx.packCrcs), Tail(db.packSizes, idx.packSizes),
      Tail(db.numUnpackStreams, idx.numUnpackStreams), Tail(db.isAnti, idx.isAnti),
      Tail(db.files, idx.files), Tail(db.folders, idx.folders))
  }

  /** Replay's "Add new record": every field of `d` appended to the same field of `db`. */
  function Append(db: Db, d: Db): Db {
    Db(db.startPos + d.startPos, db.cTime + d.cTime, db.mTime + d.mTime, db.aTime + d.aTime,
      db.packCrcsDefined + d.packCrcsDefined, db.packCrcs + d.packCrcs,
      db.packSizes + d.packSizes, db.numUnpackStreams + d.numUnpackStreams,
      db.isAnti + d.isAnti, db.files + d.files, db.folders + d.folders)
  }

  /** The rollback at the end of replay: every field cut back to its length in `idx`. */
  function Truncate(db: Db, idx: RecoveryIndex): Db {
    Db(Keep(db.startPos, idx.startPos), Keep(db.cTime, idx.cTime), Keep(db.mTime, idx.mTime),
      Keep(db.aTime, idx.aTime), Keep(db.packCrcsDefined, idx.packCrcsDefined),
      Keep(db.packCrcs, idx.packCrcs), Keep(db.packSizes, idx.packSizes),
      Keep(db.numUnpackStreams, idx.numUnpackStreams), Keep(db.isAnti, idx.isAnti),
      Keep(db.files, idx.files), Keep(db.folders, idx.folders))
  }

  /** Every field of `a` is a prefix of the same field of `b`. */
  predicate Extends(a: Db, b: Db) {
    && IsPrefix(a.startPos, b.startPos) && IsPrefix(a.cTime, b.cTime)
    && IsPrefix(a.mTime, b.mTime) && IsPrefix(a.aTime, b.aTime)
    && IsPrefix(a.packCrcsDefined, b.packCrcsDefined) && IsPrefix(a.packCrcs, b.packCrcs)
    && IsPrefix(a.packSizes, b.packSizes) && IsPrefix(a.numUnpackStreams, b.numUnpackStreams)
    && IsPrefix(a.isAnti, b.isAnti) && IsPrefix(a.files, b.files)
    && IsPrefix(a.folders, b.folders)
  }

  /** Cutting a database back to the lengths of one of its prefixes gives that prefix. */
  lemma TruncateToPrefix(a: Db, b: Db)
    requires Extends(a, b)
    ensures Truncate(b, Lengths(a)) == a
  {
  }

  /** Appending the delta taken at a prefix's lengths rebuilds the extended database. */
  lemma AppendSlice(a: Db, b: Db)
    requires Extends(a, b)
    ensures Append(a, Slice(b, Lengths(a))) == b
  {
  }

  /** An append keeps the database as a prefix. */
  lemma AppendExtends(db: Db, d: Db)
    ensures Extends(db, Append(db, d))
  {
  }

  lemma ExtendsTransitive(a: Db, b: Db, c: Db)
    requires Extends(a, b) && Extends(b, c)
    ensures Extends(a, c)
  {
  }

  /** Appending then truncating at the old lengths undoes the append. */
  lemma TruncateAppend(db: Db, d: Db)
    ensures Truncate(Append(db, d), Lengths(db)) == db
  {
    TruncateToPrefix(db, Append(db, d));
  }

  lemma AppendEmpty(a: Db)
    ensures Append(a, EmptyDb) == a
    ensures Append(EmptyDb, a) == a
  {
  }

  lemma AppendAssoc(a: Db, b: Db, c: Db)
    ensures Append(Append(a, b), c) == Append(a, Append(b, c))
  {
  }
}

=== FILE: handler.dfy ===
/** The archive handler's recovery-journal state and the operations that write it:
    starting a session, appending a checkpoint, soft-deleting an item, name filters
    and the session statistics. */
module RecoveryHandler {
  import opened Primitives
  import opened Database
  import opened JournalCodec
  import opened Checkpoint

  /** The journal output stream: closed; open on the file's bytes with a write offset;
      or failed, when a second `open` was refused while it was open: it stays open on
      its old file with the failbit set, so that it writes nothing, ignores seeks and
      reports -1 for `tellp`. */
  datatype Journal = Closed | Open(data: seq<byte>, pos: nat) | Failed(data: seq<byte>)

  /** `tellp`: the write offset of a stream in a good state, -1 otherwise. */
  function Tellp(j: Journal): (r: int)
    ensures r >= 0 <==> j.Open?
    ensures j.Open? ==> r == j.pos
  {
    if j.Open? then j.pos else -1
  }

  /** `write`: the bytes go in at the write offset, which moves past them; a failed
      stream writes nothing. */
  function Written(j: Journal, bytes: seq<byte>): (r: Journal)
    ensures j.Open? ==> r.Open? && r.pos == j.pos + |bytes| <= |r.data| && r.data[j.pos..r.pos] == bytes
    ensures !j.Open? ==> r == j
  {
    if j.Open? then Open(WriteAt(j.data, j.pos, bytes), j.pos + |bytes|) else j
  }

  /** The handler fields the journal code reads and writes. `archiveCreated` stands
      for the output archive writer already holding a stream. */
  datatype Handler = Handler(
    db: Db,
    idx: RecoveryIndex,
    journal: Journal,
    totalPackSize: u64,
    recoveredFileCount: u64,
    recoveredSize: u64,
    archiveCreated: bool)

  /** `L"D7ZR"` with its terminator: five wide characters. */
  const SignatureChars: seq<wchar> := [0x44, 0x37, 0x5A, 0x52, 0]
  const Signature: seq<byte> := EncMany(SignatureChars, EncWchar)
  const SignatureWidth: nat := 5 * WcharWidth

  /** `L"Trash/"`, the folder a soft-deleted item is moved into. */
  const TrashPrefix: seq<wchar> := [0x54, 0x72, 0x61, 0x73, 0x68, 0x2F]

  lemma SignatureLength()
    ensures |Signature| == SignatureWidth
  {
    assert |EncMany(SignatureChars[4..], EncWchar)| == 2;
    assert |EncMany(SignatureChars[3..], EncWchar)| == 4;
    assert |EncMany(SignatureChars[2..], EncWchar)| == 6;
    assert |EncMany(SignatureChars[1..], EncWchar)| == 8;
  }

  /** `UString::Left(n)`: the first `n` characters, or the whole string if shorter. */
  function Left(s: seq<wchar>, n: nat): (r: seq<wchar>)
    ensures |r| == if n <= |s| then n else |s|
    ensures IsPrefix(r, s)
  {
    if n <= |s| then s[..n] else s
  }

  /** The source's filter test `name.Left(filter.Length()) == filter`, compared one
      character at a time (`StartsWithIsLeft` shows the two agree). */
  predicate StartsWith(name: seq<wchar>, filter: seq<wchar>)
    decreases |filter|
  {
    |filter| == 0 || (|name| > 0 && name[0] == filter[0] && StartsWith(name[1..], filter[1..]))
  }

  /** The character comparison is the source's `Left` comparison. */
  lemma {:induction false} StartsWithIsLeft(name: seq<wchar>, filter: seq<wchar>)
    ensures StartsWith(name, filter) <==> Left(name, |filter|) == filter
    decreases |filter|
  {
    if |filter| > 0 && |name| > 0 {
      StartsWithIsLeft(name[1..], filter[1..]);
      if |filter| <= |name| {
        assert name[..|filter|] == [name[0]] + name[1..][..|filter| - 1];
        assert filter == [filter[0]] + filter[1..];
      }
    }
  }

  /** The `Left` comparison is exactly a prefix test; an empty filter matches every name. */
  lemma StartsWithIsPrefix(name: seq<wchar>, filter: seq<wchar>)
    ensures StartsWith(name, filter) <==> IsPrefix(filter, name)
    ensures StartsWith(name, [])
  {
    StartsWithIsLeft(name, filter);
  }

  /** `IsItemFiltered`: the filters are tried in order and the first hit answers. */
  function IsItemFiltered(item: seq<wchar>, filters: seq<seq<wchar>>): (r: bool)
    ensures |filters| == 0 ==> !r
    decreases |filters|
  {
    if |filters| == 0 then false
    else if StartsWith(item, filters[0]) then true
    else IsItemFiltered(item, filters[1..])
  }

  /** An item is filtered exactly when one of the filters is a prefix of its name. */
  lemma {:induction false} IsItemFilteredIsAnyPrefix(item: seq<wchar>, filters: seq<seq<wchar>>)
    ensures IsItemFiltered(item, filters) <==> exists i :: 0 <= i < |filters| && IsPrefix(filters[i], item)
    decreases |filters|
  {
    if |filters| > 0 {
      StartsWithIsPrefix(item, filters[0]);
      IsItemFilteredIsAnyPrefix(item, filters[1..]);
      assert forall i :: 1 <= i < |filters| ==> filters[i] == filters[1..][i - 1];
    }
  }

  /** `CRecoveryIndex::Init` followed by the signature write: a fresh session. */
  function SetRecoveryOption(h: Handler, canOpen: bool): (r: (Handler, HResult))
    ensures !h.journal.Closed? ==> r == (h, S_OK)
    ensures h.journal.Closed? && !canOpen ==> r == (h, E_FAIL)
    ensures h.journal.Closed? && canOpen ==>
      && r.1 == S_OK
      && r.0 == h.(journal := Open(Signature, SignatureWidth), idx := InitIndex())
      && r.0.journal.data[..r.0.journal.pos] == Signature
  {
    SignatureLength();
    if !h.journal.Closed? then (h, S_OK)
    else if !canOpen then (h, E_FAIL)
    else (h.(journal := Open(Signature, |Signature|), idx := InitIndex()), S_OK)
  }

  /** Records the write offset as the anchor of the first file not yet journaled. */
  function Stamp(db: Db, i: nat, pos: int): (r: Db)
    ensures Unanchor(r) == Unanchor(db)
    ensures Lengths(r) == Lengths(db)
    ensures i < |db.files| ==> r.files[i].anchor == pos
    ensures forall j :: 0 <= j < |db.files| && j != i ==> r.files[j] == db.files[j]
  {
    if i < |db.files| then
      var r := db.(files := db.files[i := db.files[i].(anchor := pos)]);
      MapSeqSame(r.files, db.files, Unanchored);
      r
    else db
  }

  /** `UpdateRecoveryData`: appends one checkpoint holding every element added since
      the cursors, adds every pack size it journals to the total pack size, then
      moves every cursor to its field's end. Reading the journal at the old write
      offset gives back exactly that delta. */
  function UpdateRecoveryData(h: Handler): (r: (Handler, HResult))
    ensures r.1 == S_OK <==> !h.journal.Closed?
    ensures h.journal.Closed? ==> r == (h, S_FALSE)
    ensures !h.journal.Closed? ==>
      && r.0.idx == Lengths(r.0.db)
      && Unanchor(r.0.db) == Unanchor(h.db)
      && (h.idx.files < |h.db.files| ==> r.0.db.files[h.idx.files].anchor == Tellp(h.journal))
      && (forall j :: 0 <= j < |h.db.files| && j != h.idx.files ==> r.0.db.files[j] == h.db.files[j])
      && r.0.totalPackSize == WrapSum(h.totalPackSize, Tail(h.db.packSizes, h.idx.packSizes))
    ensures h.journal.Open? ==> r.0.journal.Open?
    ensures h.journal.Failed? ==> r.0.journal == h.journal
    ensures r.0.archiveCreated == h.archiveCreated
    ensures r.0.recoveredFileCount == h.recoveredFileCount
    ensures r.0.recoveredSize == h.recoveredSize
  {
    if h.journal.Closed? then (h, S_FALSE)
    else
      var db := Stamp(h.db, h.idx.files, Tellp(h.journal));
      var journal := Written(h.journal, WriteCheckpoint(db, h.idx));
      var packed := WrapSum(h.totalPackSize, Tail(h.db.packSizes, h.idx.packSizes));
      (h.(db := db, idx := Lengths(db), journal := journal, totalPackSize := packed), S_OK)
  }

  /** The total pack size is the wrapped sum of the pack sizes journaled so far. */
  predicate PackSizeTracked(h: Handler) {
    h.idx.packSizes <= |h.db.packSizes| && h.totalPackSize == WrapSum(0, h.db.packSizes[..h.idx.packSizes])
  }

  /** An update keeps the total pack size equal to the sum of the journaled pack sizes,
      which after it are all of them. */
  lemma UpdateTracksPackSize(h: Handler)
    requires h.journal.Open? && PackSizeTracked(h)
    ensures PackSizeTracked(UpdateRecoveryData(h).0)
    ensures UpdateRecoveryData(h).0.totalPackSize == WrapSum(0, h.db.packSizes)
  {
    var r := UpdateRecoveryData(h).0;
    assert Unanchor(r.db).packSizes == Unanchor(h.db).packSizes;
    TrackedAfterAdding(h, r);
  }

  lemma TrackedAfterAdding(h: Handler, r: Handler)
    requires PackSizeTracked(h) && r.db.packSizes == h.db.packSizes
    requires r.idx.packSizes == |r.db.packSizes|
    requires r.totalPackSize == WrapSum(h.totalPackSize, Tail(h.db.packSizes, h.idx.packSizes))
    ensures PackSizeTracked(r) && r.totalPackSize == WrapSum(0, h.db.packSizes)
  {
    var ps := h.db.packSizes;
    var c := h.idx.packSizes;
    assert ps == ps[..c] + Tail(ps, c);
    WrapSumAppend(0, ps[..c], Tail(ps, c));
    assert r.db.packSizes[..r.idx.packSizes] == ps;
  }

  /** An update writes its checkpoint at the old write offset and leaves the write
      offset right after it: the journal before the old offset is kept, and reading
      from the old offset gives back exactly the delta since the cursors, with the
      bytes after the new offset left over. */
  lemma UpdateWritesCheckpoint(h: Handler)
    requires h.journal.Open?
    ensures var h' := UpdateRecoveryData(h).0; var pos := h.journal.pos;
      && h'.journal.Open?
      && pos <= h'.journal.pos <= |h'.journal.data|
      && (pos <= |h.journal.data| ==> h'.journal.data[..pos] == h.journal.data[..pos])
      && (ValidDb(h.db) && ValidIndex(h.db, h.idx) ==>
            ReadCheckpoint(h'.journal.data[pos..])
              == Got(Unanchor(Slice(h.db, h.idx)), h'.journal.data[h'.journal.pos..]))
  {
    WrittenCheckpointReads(h.db, h.idx, h.journal.data, h.journal.pos);
  }

  /** The checkpoint written at `pos` reads back, from `pos`, as the pending delta. */
  lemma WrittenCheckpointReads(db: Db, idx: RecoveryIndex, data: seq<byte>, pos: nat)
    ensures var bytes := WriteCheckpoint(Stamp(db, idx.files, pos), idx);
      var data' := WriteAt(data, pos, bytes);
      ValidDb(db) && ValidIndex(db, idx) ==>
        ReadCheckpoint(data'[pos..]) == Got(Unanchor(Slice(db, idx)), data'[pos + |bytes|..])
  {
    var sdb := Stamp(db, idx.files, pos);
    var bytes := WriteCheckpoint(sdb, idx);
    WriteAtFrom(data, pos, bytes);
    if ValidDb(db) && ValidIndex(db, idx) {
      StampValid(db, idx.files, pos);
      CheckpointRoundTrip(sdb, idx, WriteAt(data, pos, bytes)[pos + |bytes|..]);
      UnanchorSlice(sdb, db, idx);
    }
  }

  /** From the write offset on, the journal is the written bytes and what follows them. */
  lemma WriteAtFrom(data: seq<byte>, pos: nat, bytes: seq<byte>)
    ensures WriteAt(data, pos, bytes)[pos..] == bytes + WriteAt(data, pos, bytes)[pos + |bytes|..]
  {
  }

  /** Stamping an anchor keeps every entry journalable. */
  lemma StampValid(db: Db, i: nat, pos: nat)
    requires ValidDb(db)
    ensures ValidDb(Stamp(db, i, pos))
  {
    var sdb := Stamp(db, i, pos);
    forall j | 0 <= j < |sdb.files| ensures ValidEntry(sdb.files[j]) {
      assert sdb.files[j].name == db.files[j].name;
    }
  }

  lemma UnanchorSlice(a: Db, b: Db, idx: RecoveryIndex)
    requires Unanchor(a) == Unanchor(b)
    ensures Unanchor(Slice(a, idx)) == Unanchor(Slice(b, idx))
  {
    assert MapSeq(a.files, Unanchored) == Unanchor(a).files;
    UnanchoredTail(a.files, b.files, idx.files);
  }

  /** Entries equal up to their anchors stay so from any cursor on. */
  lemma UnanchoredTail(fa: seq<Entry>, fb: seq<Entry>, c: nat)
    requires MapSeq(fa, Unanchored) == MapSeq(fb, Unanchored)
    ensures MapSeq(Tail(fa, c), Unanchored) == MapSeq(Tail(fb, c), Unanchored)
  {
    assert |fa| == |MapSeq(fa, Unanchored)| == |MapSeq(fb, Unanchored)| == |fb|;
    var ta := Tail(fa, c);
    var tb := Tail(fb, c);
    assert |ta| == |tb|;
    forall j | 0 <= j < |ta| ensures Unanchored(ta[j]) == Unanchored(tb[j]) {
      assert ta[j] == fa[c + j];
      assert tb[j] == fb[c + j];
      UnanchoredAt(fa, fb, c + j);
    }
    MapSeqSame(ta, tb, Unanchored);
  }

  /** Entries equal up to their anchors are so one by one. */
  lemma UnanchoredAt(fa: seq<Entry>, fb: seq<Entry>, k: nat)
    requires k < |fa| && MapSeq(fa, Unanchored) == MapSeq(fb, Unanchored)
    ensures k < |fb| && Unanchored(fa[k]) == Unanchored(fb[k])
  {
    MapSeqIndex(fa, Unanchored, k);
    MapSeqIndex(fb, Unanchored, k);
  }

  /** Once a checkpoint is written, nothing is pending: the next one carries no element. */
  lemma UpdateLeavesNothingPending(h: Handler)
    requires h.journal.Open?
    ensures Slice(UpdateRecoveryData(h).0.db, UpdateRecoveryData(h).0.idx) == EmptyDb
  {
  }

  /** After a fresh session starts, the next checkpoint re-emits every element. */
  lemma FreshSessionWritesAll(h: Handler)
    requires h.journal.Closed?
    ensures Slice(h.db, SetRecoveryOption(h, true).0.idx) == h.db
  {
  }

  /** Index of the first entry named `path`. */
  function FirstNamed(files: seq<Entry>, path: seq<wchar>): (r: Option<nat>)
    ensures r.Some? ==>
      && r.value < |files| && files[r.value].name == path
      && forall j :: 0 <= j < r.value ==> files[j].name != path
    ensures r.None? ==> forall j :: 0 <= j < |files| ==> files[j].name != path
  {
    if |files| == 0 then None
    else if files[0].name == path then Some(0)
    else
      match FirstNamed(files[1..], path)
      case None => None
      case Some(i) => Some(i + 1)
  }

  /** `MoveItemToTrash`: renames the first entry named `path` into the trash folder
      and, when its checkpoint lies inside the written journal, zero-fills the journal
      from that checkpoint to the write offset and rewinds the offset to it. */
  function MoveItemToTrash(h: Handler, path: seq<wchar>): (r: (Handler, HResult))
    ensures r.1 == E_FAIL <==> h.journal.Closed?
    ensures r.1 == S_OK <==>
      !h.journal.Closed? && exists j :: 0 <= j < |h.db.files| && h.db.files[j].name == path
    ensures r.1 == S_OK || r.1 == S_FALSE || r.1 == E_FAIL
    ensures r.1 != S_OK ==> r.0 == h
    ensures r.1 == S_OK ==>
      var i := FirstNamed(h.db.files, path).value;
      var e := h.db.files[i];
      && r.0.db == h.db.(files := h.db.files[i := e.(name := TrashPrefix + path)])
      && r.0 == h.(db := r.0.db, journal := r.0.journal)
      && (if 0 < e.anchor < Tellp(h.journal) then
            && r.0.journal.Open? && r.0.journal.pos == e.anchor
            && |r.0.journal.data| == Max(|h.journal.data|, h.journal.pos)
            && (forall k :: e.anchor <= k < h.journal.pos ==> r.0.journal.data[k] == 0)
            && (forall k :: 0 <= k < e.anchor && k < |h.journal.data| ==>
                  r.0.journal.data[k] == h.journal.data[k])
            && (forall k :: h.journal.pos <= k < |h.journal.data| ==>
                  r.0.journal.data[k] == h.journal.data[k])
          else r.0.journal == h.journal)
  {
    if h.journal.Closed? then (h, E_FAIL)
    else
      match FirstNamed(h.db.files, path)
      case None => (h, S_FALSE)
      case Some(i) =>
        var e := h.db.files[i];
        var db := h.db.(files := h.db.files[i := e.(name := TrashPrefix + path)]);
        var end := Tellp(h.journal);
        var journal :=
          if 0 < e.anchor < end then Open(WriteAt(h.journal.data, e.anchor, Zeros(end - e.anchor)), e.anchor)
          else h.journal;
        (h.(db := db, journal := journal), S_OK)
  }

  /** Trashing an entry whose anchor is the start of the last `|y|` journal bytes, with
      the write offset at the end, zero-fills those bytes and rewinds to them. */
  lemma TrashRewinds(h: Handler, path: seq<wchar>, x: seq<byte>, y: seq<byte>)
    requires h.journal == Open(x + y, |x + y|) && |x| > 0 && |y| > 0
    requires FirstNamed(h.db.files, path).Some?
    requires h.db.files[FirstNamed(h.db.files, path).value].anchor == |x|
    ensures MoveItemToTrash(h, path).1 == S_OK
    ensures MoveItemToTrash(h, path).0.journal == Open(x + Zeros(|y|), |x|)
  {
    ZeroFillSuffix(x, y);
  }

  /** The tail of `UpdateItems`: the last entry's anchor is cleared, and a checkpoint
      is written only if the size the callback reports equals the last entry's size,
      which tells an aborted operation from a completed one. */
  function FinishUpdate(h: Handler, reportedSize: u64): (r: Handler)
    ensures Lengths(r.db) == Lengths(h.db)
    ensures |h.db.files| == 0 ==> r == h
    ensures |h.db.files| > 0 && reportedSize != h.db.files[|h.db.files| - 1].size ==>
      && r.journal == h.journal && r.idx == h.idx
      && r.db.files[|h.db.files| - 1].anchor == 0
    ensures |h.db.files| > 0 && reportedSize == h.db.files[|h.db.files| - 1].size ==>
      r == UpdateRecoveryData(ClearLastAnchor(h)).0
    ensures Unanchor(r.db) == Unanchor(h.db)
  {
    if |h.db.files| == 0 then h
    else
      var h1 := ClearLastAnchor(h);
      if reportedSize == h.db.files[|h.db.files| - 1].size then UpdateRecoveryData(h1).0 else h1
  }

  function ClearLastAnchor(h: Handler): (r: Handler)
    requires |h.db.files| > 0
    ensures Unanchor(r.db) == Unanchor(h.db) && Lengths(r.db) == Lengths(h.db)
    ensures r.journal == h.journal && r.idx == h.idx
  {
    var n := |h.db.files| - 1;
    var r := h.(db := h.db.(files := h.db.files[n := h.db.files[n].(anchor := 0)]));
    MapSeqSame(r.db.files, h.db.files, Unanchored);
    r
  }

  /** The session statistics the host reads. */
  function GetFileCount(h: Handler): nat {
    |h.db.files|
  }

  function GetTotalPackSize(h: Handler): u64 {
    h.totalPackSize
  }

  function GetRecoveredFileCount(h: Handler): u64 {
    h.recoveredFileCount
  }

  function GetRecoveredUncompressedFileSize(h: Handler): u64 {
    h.recoveredSize
  }
}

=== FILE: multivol.dfy ===
/** `COutMultiVolStream`: one logical, seekable output stream laid over a series of
    volume files `Prefix001`, `Prefix002`, ..., whose capacities come from a size
    table whose last entry repeats for every later volume. */
module MultiVolume {
  import opened Primitives

  // ----- Volume names -----

  /** The character `'0'`. */
  const Digit0: wchar := 48

  /** `ConvertUInt64ToString`: the decimal digits of `k`, most significant first. */
  function Decimal(k: nat): (r: seq<wchar>)
    ensures |r| >= 1
    decreases k
  {
    if k < 10 then [Digit0 + k] else Decimal(k / 10) + [Digit0 + k % 10]
  }

  /** Prepends `'0'` until the string has at least three characters. */
  function PadTo3(s: seq<wchar>): (r: seq<wchar>)
    decreases if |s| >= 3 then 0 else 3 - |s|
  {
    if |s| >= 3 then s else PadTo3([Digit0] + s)
  }

  /** The file name of volume `k` (counted from 1). */
  function VolumeName(prefix: seq<wchar>, k: nat): seq<wchar> {
    prefix + PadTo3(Decimal(k))
  }

  /** The number a string of decimal digits denotes, read most significant first. */
  function DecimalValue(s: seq<wchar>): int
    decreases |s|
  {
    if |s| == 0 then 0 else DecimalValue(s[..|s| - 1]) * 10 + (s[|s| - 1] - Digit0)
  }

  lemma {:induction false} DecimalRoundTrip(k: nat)
    ensures DecimalValue(Decimal(k)) == k
    decreases k
  {
    if k >= 10 {
      DecimalRoundTrip(k / 10);
      var d := Decimal(k);
      assert d[..|d| - 1] == Decimal(k / 10);
    }
  }

  /** A leading zero does not change the value. */
  lemma {:induction false} LeadingZero(s: seq<wchar>)
    ensures DecimalValue([Digit0] + s) == DecimalValue(s)
    decreases |s|
  {
    if |s| > 0 {
      var t := [Digit0] + s;
      assert t[..|t| - 1] == [Digit0] + s[..|s| - 1];
      LeadingZero(s[..|s| - 1]);
    }
  }

  lemma {:induction false} PadValue(s: seq<wchar>)
    ensures DecimalValue(PadTo3(s)) == DecimalValue(s)
    ensures |PadTo3(s)| == if |s| >= 3 then |s| else 3
    decreases if |s| >= 3 then 0 else 3 - |s|
  {
    if |s| < 3 {
      LeadingZero(s);
      PadValue([Digit0] + s);
    }
  }

  /** The volume number can be read back from a volume name: the name is the prefix
      followed by at least three digits whose value is the number. */
  lemma VolumeNameIndex(prefix: seq<wchar>, k: nat)
    ensures |VolumeName(prefix, k)| >= |prefix| + 3
    ensures VolumeName(prefix, k)[..|prefix|] == prefix
    ensures DecimalValue(VolumeName(prefix, k)[|prefix|..]) == k
  {
    var d := PadTo3(Decimal(k));
    PadValue(Decimal(k));
    DecimalRoundTrip(k);
    assert VolumeName(prefix, k)[|prefix|..] == d;
  }

  /** Different volumes never share a name. */
  lemma VolumeNameInjective(prefix: seq<wchar>, a: nat, b: nat)
    ensures VolumeName(prefix, a) == VolumeName(prefix, b) <==> a == b
  {
    VolumeNameIndex(prefix, a);
    VolumeNameIndex(prefix, b);
  }

  /** The first volume is `Prefix001`. */
  lemma FirstVolumeName(prefix: seq<wchar>)
    ensures VolumeName(prefix, 1) == prefix + [Digit0, Digit0, Digit0 + 1]
  {
    assert Decimal(1) == [Digit0 + 1];
    assert [Digit0] + [Digit0 + 1] == [Digit0, Digit0 + 1];
    assert [Digit0] + [Digit0, Digit0 + 1] == [Digit0, Digit0, Digit0 + 1];
    assert PadTo3([Digit0 + 1]) == PadTo3([Digit0, Digit0 + 1]);
    assert PadTo3([Digit0, Digit0 + 1]) == PadTo3([Digit0, Digit0, Digit0 + 1]);
    assert PadTo3([Digit0, Digit0, Digit0 + 1]) == [Digit0, Digit0, Digit0 + 1];
  }

  // ----- State -----

  /** `CSubStreamInfo`: a volume's name, whether its file is open, the file position,
      the highest offset written (`RealSize`) and the file's bytes. */
  datatype Volume = Volume(name: seq<wchar>, isOpen: bool, pos: u64, realSize: u64, data: seq<byte>)

  /** The stream: the current volume and the offset in it, the logical position and
      length, the volumes so far, and the caller's size table and name prefix. */
  datatype Stream = Stream(streamIndex: nat, offsetPos: u64, absPos: u64, length: u64,
    volumes: seq<Volume>, sizes: seq<u64>, prefix: seq<wchar>)

  /** The overridable hooks: `OnNewPart(k, name, open)` may veto volume `k` (`open`
      is true when `Open` finds it, false when `Write` creates it; the name follows
      from `k`), `IsValidNonExistentPart(k)` declares volume `k` a placeholder that
      need not exist. The base class accepts every volume and declares none a
      placeholder. */
  datatype Hooks = Hooks(onNewPart: (nat, bool) -> bool, placeholder: nat -> bool)

  function BaseHooks(): Hooks {
    Hooks((_, _) => true, _ => false)
  }

  /** A usable size table: not empty, and no volume of capacity zero. */
  predicate GoodSizes(sizes: seq<u64>) {
    |sizes| > 0 && forall i :: 0 <= i < |sizes| ==> sizes[i] > 0
  }

  /** The current volume index never runs past the volumes created so far. */
  predicate Valid(st: Stream) {
    GoodSizes(st.sizes) && st.streamIndex <= |st.volumes|
  }

  /** Capacity of volume `i` (counted from 0): its entry in the size table, or the
      table's last entry past its end. */
  function Capacity(sizes: seq<u64>, i: nat): (r: u64)
    requires GoodSizes(sizes)
    ensures r > 0
    ensures i < |sizes| ==> r == sizes[i]
    ensures i >= |sizes| ==> r == sizes[|sizes| - 1]
  {
    if i < |sizes| then sizes[i] else sizes[|sizes| - 1]
  }

  /** Logical offset at which volume `i` starts: the capacities before it. */
  function Start(sizes: seq<u64>, i: nat): nat
    requires GoodSizes(sizes)
    decreases i
  {
    if i == 0 then 0 else Start(sizes, i - 1) + Capacity(sizes, i - 1)
  }

  /** The volume index and offset agree with the logical position, modulo 2^64 as
      the source's `UInt64` position wraps. */
  predicate Located(st: Stream)
    requires GoodSizes(st.sizes)
  {
    Wrap64(Start(st.sizes, st.streamIndex) + st.offsetPos) == st.absPos
  }

  /** `Init`: volume 0, offset 0, position 0, length 0. */
  function Init(st: Stream): (r: Stream)
    requires Valid(st)
    ensures Valid(r) && Located(r)
    ensures r.absPos == 0 && r.length == 0 && r.volumes == st.volumes
  {
    st.(streamIndex := 0, offsetPos := 0, absPos := 0, length := 0)
  }

  /** Where the logical offset `off` past the start of volume `i` lies: the volume
      and the offset inside it, skipping every volume the offset passes. */
  function Resolve(sizes: seq<u64>, i: nat, off: nat): (r: (nat, nat))
    requires GoodSizes(sizes)
    ensures r.0 >= i && r.1 < Capacity(sizes, r.0)
    ensures Start(sizes, r.0) + r.1 == Start(sizes, i) + off
    decreases off
  {
    if off >= Capacity(sizes, i) then Resolve(sizes, i + 1, off - Capacity(sizes, i))
    else (i, off)
  }

  /** Volume `j` as the stream has it, or as `Write` creates it when it does not
      exist yet: empty, open, named after its number. */
  function VolumeOrNew(st: Stream, j: nat): Volume {
    if j < |st.volumes| then st.volumes[j] else Volume(VolumeName(st.prefix, j + 1), true, 0, 0, [])
  }

  /** Every volume is named after its position: volume `j` is `Prefix` + `j + 1`. */
  predicate NamesConsecutive(st: Stream) {
    forall j :: 0 <= j < |st.volumes| ==> st.volumes[j].name == VolumeName(st.prefix, j + 1)
  }

  // ----- Write -----

  /** What a `Write` call leaves: the stream, the result code and `*processedSize`. */
  datatype Written = Written(st: Stream, result: HResult, processed: nat)

  /** `Write(data, size, &processed)`. `canCreate` says whether the file system lets
      a new volume file of a name be created (`Create(name, false)` fails when the
      file exists); `accept` is how many bytes the volume file's own `Write` takes. */
  function Write(st: Stream, data: seq<byte>, hooks: Hooks, canCreate: seq<wchar> -> bool,
      accept: nat): (r: Written)
    requires Valid(st) && |data| < TwoTo32
    ensures Valid(r.st) && r.st.sizes == st.sizes && r.st.prefix == st.prefix
    ensures r.processed <= |data|
    ensures r.result != S_OK ==> r.processed == 0
    decreases st.offsetPos, if st.streamIndex >= |st.volumes| then 1 else 0
  {
    if |data| == 0 then Written(st, S_OK, 0)
    else if st.streamIndex >= |st.volumes| then
      var k := st.streamIndex + 1;
      var name := VolumeName(st.prefix, k);
      if !hooks.onNewPart(k, false) then Written(st, E_FAIL, 0)
      else if !canCreate(name) then Written(st, LastError, 0)
      else Write(Created(st), data, hooks, canCreate, accept)
    else if st.offsetPos >= Capacity(st.sizes, st.streamIndex) then
      Write(Skipped(st), data, hooks, canCreate, accept)
    else Put(st, data, accept)
  }

  /** The stream after the current volume, which did not exist, was created. */
  function Created(st: Stream): (r: Stream)
    requires Valid(st) && st.streamIndex >= |st.volumes|
    ensures Valid(r) && r.volumes == st.volumes + [VolumeOrNew(st, st.streamIndex)]
    ensures r.streamIndex == st.streamIndex && r.offsetPos == st.offsetPos
    ensures r.sizes == st.sizes && r.prefix == st.prefix && r.absPos == st.absPos
  {
    st.(volumes := st.volumes + [Volume(VolumeName(st.prefix, st.streamIndex + 1), true, 0, 0, [])])
  }

  /** The stream moved past the current volume, whose capacity its offset reaches. */
  function Skipped(st: Stream): (r: Stream)
    requires Valid(st) && st.streamIndex < |st.volumes|
    requires st.offsetPos >= Capacity(st.sizes, st.streamIndex)
    ensures Valid(r) && r.volumes == st.volumes && r.streamIndex == st.streamIndex + 1
    ensures r.offsetPos == st.offsetPos - Capacity(st.sizes, st.streamIndex)
    ensures r.sizes == st.sizes && r.prefix == st.prefix && r.absPos == st.absPos
  {
    st.(offsetPos := st.offsetPos - Capacity(st.sizes, st.streamIndex), streamIndex := st.streamIndex + 1)
  }

  /** The part of `Write` that writes into the current volume, which exists and has
      room at the current offset: at most the rest of the volume, and at most what
      the file takes; a full volume moves the stream on to the next. A write the file
      takes nothing of only seeks, so the volume's bytes stay as they were. */
  function Put(st: Stream, data: seq<byte>, accept: nat): (r: Written)
    requires Valid(st) && st.streamIndex < |st.volumes| && 0 < |data| < TwoTo32
    requires st.offsetPos < Capacity(st.sizes, st.streamIndex)
    ensures Valid(r.st) && r.st.sizes == st.sizes && r.st.prefix == st.prefix
    ensures r.processed <= |data|
    ensures r.result != S_OK ==> r.processed == 0
  {
    var i := st.streamIndex;
    var cap := Capacity(st.sizes, i);
    var v := st.volumes[i];
    if !v.isOpen then Written(st, E_FAIL, 0)
    else
      var cur := Min(|data|, cap - st.offsetPos);
      var n := Min(cur, accept);
      var end: u64 := st.offsetPos + n;
      var bytes := if n == 0 then v.data else WriteAt(v.data, st.offsetPos, data[..n]);
      var v' := v.(pos := end, realSize := Max(v.realSize, end), data := bytes);
      var abs := Wrap64(st.absPos + n);
      var full := end == cap;
      var st' := st.(volumes := st.volumes[i := v'], absPos := abs, length := Max(st.length, abs),
        streamIndex := if full then i + 1 else i, offsetPos := if full then 0 else end);
      Written(st', if n == 0 then E_FAIL else S_OK, n)
  }

  /** What `Put` does: the bytes go into the current volume at the current offset,
      as many as fit in the volume and the file takes; nothing else changes, and the
      logical position moves on by the bytes written. */
  lemma PutLands(st: Stream, data: seq<byte>, accept: nat)
    requires Valid(st) && st.streamIndex < |st.volumes| && 0 < |data| < TwoTo32
    requires st.offsetPos < Capacity(st.sizes, st.streamIndex)
    ensures var r := Put(st, data, accept); var i := st.streamIndex; var off := st.offsetPos;
      var v := st.volumes[i];
      && (!v.isOpen ==> r == Written(st, E_FAIL, 0))
      && (v.isOpen ==>
          && r.processed == Min(Min(|data|, Capacity(st.sizes, i) - off), accept)
          && (r.result == S_OK <==> accept > 0)
          && |r.st.volumes| == |st.volumes|
          && r.st.volumes[i].data
               == (if r.processed == 0 then v.data else WriteAt(v.data, off, data[..r.processed]))
          && r.st.volumes[i].realSize == Max(v.realSize, off + r.processed)
          && r.st.volumes[i].name == v.name
          && (forall j :: 0 <= j < |st.volumes| && j != i ==> r.st.volumes[j] == st.volumes[j])
          && r.st.absPos == Wrap64(st.absPos + r.processed)
          && r.st.length == Max(st.length, r.st.absPos))
  {
  }

  /** `Put` keeps the volume index and offset in step with the logical position. */
  lemma PutKeepsLocated(st: Stream, data: seq<byte>, accept: nat)
    requires Valid(st) && st.streamIndex < |st.volumes| && 0 < |data| < TwoTo32
    requires st.offsetPos < Capacity(st.sizes, st.streamIndex)
    requires Located(st)
    ensures Located(Put(st, data, accept).st)
  {
    var i := st.streamIndex;
    var r := Put(st, data, accept);
    if st.volumes[i].isOpen {
      var end := st.offsetPos + r.processed;
      assert r.st.absPos == Wrap64(st.absPos + r.processed);
      assert (r.st.streamIndex, r.st.offsetPos)
        == if end == Capacity(st.sizes, i) then (i + 1, 0) else (i, end);
      WrapAddLeft(Start(st.sizes, i) + st.offsetPos, r.processed);
      assert Start(st.sizes, i + 1) == Start(st.sizes, i) + Capacity(st.sizes, i);
    }
  }

  /** A successful write of `data` from `st` ended in `r` by writing into volume
      `i` at offset `off` only: the volumes up to `i` exist, as many bytes as fit in
      the volume and the file takes went in at `off`, every other volume is as it was
      (or new and empty), and the logical position moved on by the bytes written. */
  ghost predicate LandedAt(st: Stream, i: nat, off: nat, data: seq<byte>, accept: nat, r: Written)
    requires GoodSizes(st.sizes)
  {
    && |r.st.volumes| == Max(|st.volumes|, i + 1)
    && r.processed == Min(Min(|data|, Capacity(st.sizes, i) - off), accept)
    && r.processed > 0
    && r.st.volumes[i].data == WriteAt(VolumeOrNew(st, i).data, off, data[..r.processed])
    && r.st.volumes[i].name == VolumeOrNew(st, i).name
    && (forall j :: 0 <= j < |r.st.volumes| && j != i ==> r.st.volumes[j] == VolumeOrNew(st, j))
    && r.st.absPos == Wrap64(st.absPos + r.processed)
  }

  /** Creating the missing current volume does not change where a write lands. */
  lemma LandedAfterCreate(st: Stream, i: nat, off: nat, data: seq<byte>, accept: nat, r: Written)
    requires Valid(st) && st.streamIndex >= |st.volumes| && i >= st.streamIndex
    requires LandedAt(Created(st), i, off, data, accept, r)
    ensures LandedAt(st, i, off, data, accept, r)
  {
    assert forall j: nat :: VolumeOrNew(Created(st), j) == VolumeOrNew(st, j);
  }

  /** Skipping a full volume changes neither the volumes nor the position. */
  lemma LandedAfterSkip(st: Stream, i: nat, off: nat, data: seq<byte>, accept: nat, r: Written)
    requires Valid(st) && st.streamIndex < |st.volumes|
    requires st.offsetPos >= Capacity(st.sizes, st.streamIndex)
    requires LandedAt(Skipped(st), i, off, data, accept, r)
    ensures LandedAt(st, i, off, data, accept, r)
  {
    assert forall j: nat :: VolumeOrNew(Skipped(st), j) == VolumeOrNew(st, j);
  }

  /** Skipping a volume leaves the target of the write where it was. */
  lemma SkipKeepsTarget(sizes: seq<u64>, i: nat, off: nat)
    requires GoodSizes(sizes) && off >= Capacity(sizes, i)
    ensures Resolve(sizes, i + 1, off - Capacity(sizes, i)) == Resolve(sizes, i, off)
  {
  }

  /** A successful `Put` lands at the current volume and offset. */
  lemma LandedByPut(st: Stream, data: seq<byte>, accept: nat)
    requires Valid(st) && st.streamIndex < |st.volumes| && 0 < |data| < TwoTo32
    requires st.offsetPos < Capacity(st.sizes, st.streamIndex)
    ensures var r := Put(st, data, accept);
      r.result == S_OK ==> LandedAt(st, st.streamIndex, st.offsetPos, data, accept, r)
  {
    PutLands(st, data, accept);
  }

  /** A successful `Write` of at least one byte writes into exactly one volume: the
      one holding the stream's logical position, at the offset that position has in
      it (`Resolve` skips the volumes it passes). It creates, empty and named after
      their numbers, the volumes up to that one that did not exist, writes as many
      bytes as fit in that volume and the file takes, changes no other volume, and
      moves the logical position on by the bytes written. */
  lemma {:induction false} WriteLands(st: Stream, data: seq<byte>, hooks: Hooks,
      canCreate: seq<wchar> -> bool, accept: nat)
    requires Valid(st) && 0 < |data| < TwoTo32
    ensures var r := Write(st, data, hooks, canCreate, accept);
      var t := Resolve(st.sizes, st.streamIndex, st.offsetPos);
      r.result == S_OK ==> LandedAt(st, t.0, t.1, data, accept, r)
    decreases st.offsetPos, if st.streamIndex >= |st.volumes| then 1 else 0, 1
  {
    if st.streamIndex >= |st.volumes| {
      WriteLandsCreating(st, data, hooks, canCreate, accept);
    } else if st.offsetPos >= Capacity(st.sizes, st.streamIndex) {
      WriteLandsSkipping(st, data, hooks, canCreate, accept);
    } else {
      LandedByPut(st, data, accept);
    }
  }

  /** `WriteLands` when the current volume does not exist yet. */
  lemma {:induction false} WriteLandsCreating(st: Stream, data: seq<byte>, hooks: Hooks,
      canCreate: seq<wchar> -> bool, accept: nat)
    requires Valid(st) && 0 < |data| < TwoTo32 && st.streamIndex >= |st.volumes|
    ensures var r := Write(st, data, hooks, canCreate, accept);
      var t := Resolve(st.sizes, st.streamIndex, st.offsetPos);
      r.result == S_OK ==> LandedAt(st, t.0, t.1, data, accept, r)
    decreases st.offsetPos, 1, 0
  {
    var k := st.streamIndex + 1;
    if hooks.onNewPart(k, false) && canCreate(VolumeName(st.prefix, k)) {
      WriteLands(Created(st), data, hooks, canCreate, accept);
      var t := Resolve(st.sizes, st.streamIndex, st.offsetPos);
      var r := Write(Created(st), data, hooks, canCreate, accept);
      if r.result == S_OK {
        LandedAfterCreate(st, t.0, t.1, data, accept, r);
      }
    }
  }

  /** `WriteLands` when the offset lies past the current volume. */
  lemma {:induction false} WriteLandsSkipping(st: Stream, data: seq<byte>, hooks: Hooks,
      canCreate: seq<wchar> -> bool, accept: nat)
    requires Valid(st) && 0 < |data| < TwoTo32 && st.streamIndex < |st.volumes|
    requires st.offsetPos >= Capacity(st.sizes, st.streamIndex)
    ensures var r := Write(st, data, hooks, canCreate, accept);
      var t := Resolve(st.sizes, st.streamIndex, st.offsetPos);
      r.result == S_OK ==> LandedAt(st, t.0, t.1, data, accept, r)
    decreases st.offsetPos, 0, 0
  {
    WriteLands(Skipped(st), data, hooks, canCreate, accept);
    SkipKeepsTarget(st.sizes, st.streamIndex, st.offsetPos);
    var t := Resolve(st.sizes, st.streamIndex, st.offsetPos);
    var r := Write(Skipped(st), data, hooks, canCreate, accept);
    if r.result == S_OK {
      LandedAfterSkip(st, t.0, t.1, data, accept, r);
    }
  }

  /** The volume and offset a write lands at hold the stream's logical position. */
  lemma ResolveLocated(st: Stream)
    requires Valid(st) && Located(st)
    ensures var t := Resolve(st.sizes, st.streamIndex, st.offsetPos);
      Wrap64(Start(st.sizes, t.0) + t.1) == st.absPos
  {
  }

  /** Every volume file the stream holds is open. */
  predicate AllOpen(st: Stream) {
    forall j :: 0 <= j < |st.volumes| ==> st.volumes[j].isOpen
  }

  /** Whatever `Write` returns, the volume index and offset stay in step with the
      logical position. */
  lemma {:induction false} WriteKeepsLocated(st: Stream, data: seq<byte>, hooks: Hooks,
      canCreate: seq<wchar> -> bool, accept: nat)
    requires Valid(st) && |data| < TwoTo32 && Located(st)
    ensures Located(Write(st, data, hooks, canCreate, accept).st)
    decreases st.offsetPos, if st.streamIndex >= |st.volumes| then 1 else 0
  {
    if |data| == 0 {
    } else if st.streamIndex >= |st.volumes| {
      WriteKeepsLocated(Created(st), data, hooks, canCreate, accept);
    } else if st.offsetPos >= Capacity(st.sizes, st.streamIndex) {
      WriteKeepsLocated(Skipped(st), data, hooks, canCreate, accept);
    } else {
      PutKeepsLocated(st, data, accept);
    }
  }

  /** Whatever `Write` returns, volumes stay named after their numbers. */
  lemma {:induction false} WriteKeepsNames(st: Stream, data: seq<byte>, hooks: Hooks,
      canCreate: seq<wchar> -> bool, accept: nat)
    requires Valid(st) && |data| < TwoTo32 && NamesConsecutive(st)
    ensures NamesConsecutive(Write(st, data, hooks, canCreate, accept).st)
    decreases st.offsetPos, if st.streamIndex >= |st.volumes| then 1 else 0
  {
    if |data| == 0 {
    } else if st.streamIndex >= |st.volumes| {
      WriteKeepsNames(Created(st), data, hooks, canCreate, accept);
    } else if st.offsetPos >= Capacity(st.sizes, st.streamIndex) {
      WriteKeepsNames(Skipped(st), data, hooks, canCreate, accept);
    } else {
      PutLands(st, data, accept);
    }
  }

  /** `Write` fails only for a reason: when every new volume is accepted and can be
      created, every volume held is open and the file takes bytes, it succeeds; and
      whatever it returns keeps every volume open then. */
  lemma {:induction false} WriteSucceeds(st: Stream, data: seq<byte>, hooks: Hooks,
      canCreate: seq<wchar> -> bool, accept: nat)
    requires Valid(st) && |data| < TwoTo32 && AllOpen(st) && accept > 0
    requires forall k: nat :: hooks.onNewPart(k, false)
    requires forall name :: canCreate(name)
    ensures var r := Write(st, data, hooks, canCreate, accept);
      r.result == S_OK && AllOpen(r.st) && (|data| > 0 ==> r.processed > 0)
    decreases st.offsetPos, if st.streamIndex >= |st.volumes| then 1 else 0
  {
    if |data| == 0 {
    } else if st.streamIndex >= |st.volumes| {
      WriteSucceeds(Created(st), data, hooks, canCreate, accept);
    } else if st.offsetPos >= Capacity(st.sizes, st.streamIndex) {
      WriteSucceeds(Skipped(st), data, hooks, canCreate, accept);
    } else {
      PutLands(st, data, accept);
    }
  }

  // ----- Seek -----

  /** The `seekOrigin` values of `IStream::Seek`. */
  const SeekSet: u32 := 0
  const SeekCur: u32 := 1
  const SeekEnd: u32 := 2

  /** What a `Seek` call leaves: the stream, the result code and `*newPosition`
      (not written on failure). */
  datatype Sought = Sought(st: Stream, result: HResult, position: Option<u64>)

  /** `Seek(offset, seekOrigin, &newPosition)`: sets the logical position (the
      signed offset converted to `UInt64`, so a negative one wraps) and leaves the
      volume index at 0 with the whole position as its offset, for the next `Write`
      to walk forward from. */
  function Seek(st: Stream, offset: i64, origin: u32): (r: Sought)
  {
    if origin >= 3 then Sought(st, STG_E_INVALIDFUNCTION, None)
    else
      var abs := if origin == SeekSet then Wrap64(offset)
        else if origin == SeekCur then Wrap64(st.absPos + offset)
        else Wrap64(st.length + offset);
      Sought(st.(absPos := abs, offsetPos := abs, streamIndex := 0), S_OK, Some(abs))
  }

  /** `Seek` accepts exactly the three origins; on success it reports the new
      position, the position is the offset from the origin modulo 2^64, the volume
      index and offset agree with it, and nothing else changes. On failure nothing
      changes. */
  lemma SeekMoves(st: Stream, offset: i64, origin: u32)
    ensures var r := Seek(st, offset, origin);
      && (r.result == S_OK <==> origin < 3)
      && (r.result != S_OK ==> r.st == st && r.result == STG_E_INVALIDFUNCTION && r.position.None?)
      && (r.result == S_OK ==>
          && r.position == Some(r.st.absPos)
          && (origin == SeekSet ==> r.st.absPos == Wrap64(offset))
          && (origin == SeekCur ==> r.st.absPos == Wrap64(st.absPos + offset))
          && (origin == SeekEnd ==> r.st.absPos == Wrap64(st.length + offset))
          && (GoodSizes(st.sizes) ==> Valid(r.st) && Located(r.st))
          && r.st.volumes == st.volumes && r.st.length == st.length
          && r.st.sizes == st.sizes && r.st.prefix == st.prefix)
  {
  }

  /** Seeking by a non-negative offset below 2^63 from the start lands exactly there. */
  lemma SeekSetExact(st: Stream, offset: i64)
    requires offset >= 0
    ensures Seek(st, offset, SeekSet).position == Some(offset)
  {
  }

  // ----- SetSize -----

  /** Total of the volumes' `RealSize`s. */
  function RealTotal(vs: seq<Volume>): nat
    decreases |vs|
  {
    if |vs| == 0 then 0 else vs[0].realSize + RealTotal(vs[1..])
  }

  /** A file's bytes after `SetSize(n)` on it: cut to `n` bytes, or grown with zeros. */
  function Resize(data: seq<byte>, n: nat): (r: seq<byte>)
    ensures |r| == n
    ensures forall i :: 0 <= i < n && i < |data| ==> r[i] == data[i]
  {
    if n <= |data| then data[..n] else data + Zeros(n - |data|)
  }

  /** The volumes after truncating the stream to `n` bytes, and what is left of `n`
      (the new size of the volume that was cut, or `n` less every volume when none
      was); `None` when the volume to cut is not open, so its `SetSize` fails. */
  function CutAt(vs: seq<Volume>, n: nat): (r: Option<(seq<Volume>, nat)>)
    ensures r.Some? ==> |r.value.0| <= |vs| && r.value.1 <= n
    ensures r.Some? ==> RealTotal(r.value.0) == Min(n, RealTotal(vs))
    ensures r.Some? && n >= RealTotal(vs) ==> r.value == (vs, n - RealTotal(vs))
    ensures r.None? ==> n < RealTotal(vs)
    ensures r.Some? ==> forall j :: 0 <= j < |r.value.0| ==> r.value.0[j].name == vs[j].name
    decreases |vs|
  {
    if |vs| == 0 then Some(([], n))
    else if n < vs[0].realSize then
      if !vs[0].isOpen then None
      else Some(([vs[0].(realSize := n, data := Resize(vs[0].data, n))], n))
    else
      match CutAt(vs[1..], n - vs[0].realSize)
      case None => None
      case Some(c) =>
        assert [vs[0]] + vs[1..] == vs;
        Some(([vs[0]] + c.0, c.1))
  }

  /** `SetSize(newSize)`, with `lengthIsSize` choosing what becomes the stream's
      length: the source assigns what is left of `newSize` after the loop
      (`lengthIsSize` false), where the size asked for is evidently meant (true).
      Volumes past the one cut are deleted; the next `Write` walks from volume 0. */
  function SetSizeWith(st: Stream, newSize: i64, lengthIsSize: bool): (r: (Stream, HResult))
  {
    if newSize < 0 then (st, E_INVALIDARG)
    else match CutAt(st.volumes, newSize)
      case None => (st, E_FAIL)
      case Some(c) =>
        (st.(volumes := c.0, offsetPos := st.absPos, streamIndex := 0,
          length := if lengthIsSize then newSize else c.1), S_OK)
  }

  lemma {:induction false} RealTotalSnoc(vs: seq<Volume>, k: nat)
    requires k < |vs|
    ensures RealTotal(vs[..k + 1]) == RealTotal(vs[..k]) + vs[k].realSize
    decreases k
  {
    if k > 0 {
      assert vs[..k + 1][1..] == vs[1..][..k];
      assert vs[..k][1..] == vs[1..][..k - 1];
      RealTotalSnoc(vs[1..], k - 1);
    }
  }

  /** Which volume `SetSize(n)` cuts, independently of the loop: volume `k` when the
      volumes before it total at most `n` and volume `k` reaches past `n`. The cut
      fails exactly when that volume is not open; otherwise the volumes before it
      stay as they are, it keeps `n` less the volumes before it, and the volumes
      after it go. */
  lemma {:induction false} CutAtIndex(vs: seq<Volume>, n: nat, k: nat)
    requires k < |vs| && RealTotal(vs[..k]) <= n < RealTotal(vs[..k]) + vs[k].realSize
    ensures var r := CutAt(vs, n); var m := n - RealTotal(vs[..k]);
      && (r.None? <==> !vs[k].isOpen)
      && (r.Some? ==> r.value == (vs[..k] + [vs[k].(realSize := m, data := Resize(vs[k].data, m))], m))
    decreases k
  {
    if k > 0 {
      assert vs[..k][1..] == vs[1..][..k - 1];
      assert RealTotal(vs[..k]) == vs[0].realSize + RealTotal(vs[1..][..k - 1]);
      CutAtIndex(vs[1..], n - vs[0].realSize, k - 1);
      assert vs[1..][k - 1] == vs[k];
      assert vs[..k] == [vs[0]] + vs[1..][..k - 1];
      var m := n - RealTotal(vs[..k]);
      var x := vs[k].(realSize := m, data := Resize(vs[k].data, m));
      assert [vs[0]] + (vs[1..][..k - 1] + [x]) == vs[..k] + [x];
      var c := CutAt(vs[1..], n - vs[0].realSize);
      assert CutAt(vs, n) == if c.None? then None else Some(([vs[0]] + c.value.0, c.value.1));
    } else {
      var x := vs[0].(realSize := n, data := Resize(vs[0].data, n));
      assert RealTotal(vs[..0]) == 0;
      assert vs[..0] + [x] == [x];
    }
  }

  /** `SetSize` in every case: a negative size is refused, the cut fails when the
      volume to cut is not open, and otherwise the volumes total the smaller of the
      new size and their old total, keep their names, and the stream's position is
      kept, with the volume index and offset in step with it. On failure nothing
      changes. */
  lemma SetSizeResult(st: Stream, newSize: i64, lengthIsSize: bool)
    ensures var r := SetSizeWith(st, newSize, lengthIsSize);
      && (r.1 == E_INVALIDARG <==> newSize < 0)
      && (r.1 == S_OK || r.1 == E_INVALIDARG || r.1 == E_FAIL)
      && (r.1 != S_OK ==> r.0 == st)
      && (r.1 == E_FAIL ==> newSize < RealTotal(st.volumes))
      && (r.1 == S_OK ==>
          && RealTotal(r.0.volumes) == Min(newSize, RealTotal(st.volumes))
          && |r.0.volumes| <= |st.volumes|
          && (newSize >= RealTotal(st.volumes) ==> r.0.volumes == st.volumes)
          && (NamesConsecutive(st) ==> NamesConsecutive(r.0))
          && (GoodSizes(st.sizes) ==> Valid(r.0) && Located(r.0))
          && r.0.absPos == st.absPos && r.0.sizes == st.sizes && r.0.prefix == st.prefix)
  {
  }

  /** With the length set to the size asked for, a successful `SetSize(n)` makes the
      stream `n` bytes long, so a seek to its end lands at `n`. */
  lemma SetSizeLength(st: Stream, newSize: i64)
    requires newSize >= 0
    ensures var r := SetSizeWith(st, newSize, true);
      r.1 == S_OK ==> r.0.length == newSize && Seek(r.0, 0, SeekEnd).position == Some(newSize)
  {
  }

  /** As written, the length becomes what is left of the size asked for: three open
      volumes of 100, 100 and 50 bytes truncated to 120 bytes leave the second volume
      with 20 bytes and the stream's length at 20, so a seek to the end lands at 20
      instead of 120. */
  lemma SetSizeLengthIsRemainder(st: Stream)
    requires |st.volumes| == 3
    requires st.volumes[0].realSize == 100 && st.volumes[1].realSize == 100
    requires st.volumes[2].realSize == 50
    requires st.volumes[0].isOpen && st.volumes[1].isOpen && st.volumes[2].isOpen
    ensures var r := SetSizeWith(st, 120, false);
      && r.1 == S_OK && RealTotal(r.0.volumes) == 120 && |r.0.volumes| == 2
      && r.0.length == 20 && Seek(r.0, 0, SeekEnd).position == Some(20)
  {
    assert st.volumes[..1] == [st.volumes[0]];
    RealTotalSnoc(st.volumes, 1);
    CutAtIndex(st.volumes, 120, 1);
  }

  // ----- Open -----

  /** The volume files on disk, by name. */
  type Files = map<seq<wchar>, seq<byte>>

  /** Every file's size fits the `UInt64` that `Seek` reports it in. */
  predicate SizesFit(fs: Files) {
    forall name :: name in fs ==> |fs[name]| < TwoTo64
  }

  /** The highest part number `Open` probes: its `int` counter would overflow past it. */
  const LastPart: nat := 0x7FFF_FFFF

  /** `RealSize` a placeholder part `k` is given: the size of the nearest earlier
      part that is not a placeholder (which `Open` found on disk), or 0. */
  function SizeBefore(prefix: seq<wchar>, fs: Files, hooks: Hooks, k: nat): (r: u64)
    requires SizesFit(fs)
    decreases k
  {
    if k <= 1 then 0
    else if !hooks.placeholder(k - 1) && VolumeName(prefix, k - 1) in fs then |fs[VolumeName(prefix, k - 1)]|
    else SizeBefore(prefix, fs, hooks, k - 1)
  }

  /** What probing the parts from some number on gives: the parts found, in order,
      and whether `OnNewPart` vetoed the part after them. */
  datatype Probed = Probed(parts: seq<Volume>, vetoed: bool)

  /** The volumes `Open` finds from part `k` on, `previous` being the size of the last
      part found on disk. A part that is neither on disk nor a placeholder ends the
      series; a part `OnNewPart` vetoes ends it too, and is reported. */
  function OpenFrom(prefix: seq<wchar>, fs: Files, hooks: Hooks, k: nat, previous: u64): (r: Probed)
    requires SizesFit(fs) && k >= 1
    decreases LastPart + 1 - k
  {
    if k > LastPart then Probed([], false)
    else
      var name := VolumeName(prefix, k);
      var placeholder := hooks.placeholder(k);
      if name !in fs && !placeholder then Probed([], false)
      else if !hooks.onNewPart(k, true) then Probed([], true)
      else
        var rest := OpenFrom(prefix, fs, hooks, k + 1, NextPrevious(prefix, fs, hooks, k, previous));
        Probed([Probe(prefix, fs, hooks, k, previous)] + rest.parts, rest.vetoed)
  }

  /** Part `k` as `Open` holds it once found: a file on disk is open at its end; a
      placeholder is at offset 0 with the previous part's size. */
  function Probe(prefix: seq<wchar>, fs: Files, hooks: Hooks, k: nat, previous: u64): Volume
    requires SizesFit(fs)
    requires !Absent(prefix, fs, hooks, k)
  {
    var name := VolumeName(prefix, k);
    if hooks.placeholder(k) then Volume(name, name in fs, 0, previous, if name in fs then fs[name] else [])
    else Volume(name, true, |fs[name]|, |fs[name]|, fs[name])
  }

  /** The size a later placeholder inherits after part `k`. */
  function NextPrevious(prefix: seq<wchar>, fs: Files, hooks: Hooks, k: nat, previous: u64): u64
    requires SizesFit(fs)
    requires !Absent(prefix, fs, hooks, k)
  {
    if hooks.placeholder(k) then previous else |fs[VolumeName(prefix, k)]|
  }

  /** `Open()`: appends every volume found on disk (or declared a placeholder), from
      part 1 on, to the stream's volumes; `S_FALSE` when the stream ends up with none.
      A veto fails the open, and the parts found before it stay appended. */
  function Open(st: Stream, fs: Files, hooks: Hooks): (r: (Stream, HResult))
    requires SizesFit(fs)
  {
    if |st.prefix| == 0 then (st, E_FAIL)
    else
      var o := OpenFrom(st.prefix, fs, hooks, 1, 0);
      var st' := st.(volumes := st.volumes + o.parts);
      if o.vetoed then (st', E_FAIL)
      else (st', if |st'.volumes| == 0 then S_FALSE else S_OK)
  }

  /** A part `Open` finds is held as `PartFound` describes, and the size it passes
      on is the one `SizeBefore` gives the next part. */
  lemma ProbeFound(prefix: seq<wchar>, fs: Files, hooks: Hooks, k: nat, previous: u64)
    requires SizesFit(fs) && k >= 1 && previous == SizeBefore(prefix, fs, hooks, k)
    requires !Absent(prefix, fs, hooks, k) && hooks.onNewPart(k, true)
    ensures PartFound(prefix, fs, hooks, k, Probe(prefix, fs, hooks, k, previous))
    ensures NextPrevious(prefix, fs, hooks, k, previous) == SizeBefore(prefix, fs, hooks, k + 1)
  {
  }

  /** What `Open` finds from part `k` on: consecutive parts, each described by
      `PartFound`, up to the first part that is neither on disk nor a placeholder
      (or past the last part number), or up to the first part `OnNewPart` vetoes. */
  lemma {:induction false} OpenFromParts(prefix: seq<wchar>, fs: Files, hooks: Hooks, k: nat, previous: u64)
    requires SizesFit(fs) && k >= 1 && previous == SizeBefore(prefix, fs, hooks, k)
    ensures var r := OpenFrom(prefix, fs, hooks, k, previous);
      && (!r.vetoed ==> FoundFrom(prefix, fs, hooks, k, r.parts))
      && (r.vetoed ==> VetoedAfter(prefix, fs, hooks, k, r.parts))
    decreases LastPart + 1 - k
  {
    if k <= LastPart && !Absent(prefix, fs, hooks, k) && hooks.onNewPart(k, true) {
      ProbeFound(prefix, fs, hooks, k, previous);
      var next := NextPrevious(prefix, fs, hooks, k, previous);
      OpenFromParts(prefix, fs, hooks, k + 1, next);
      var r := OpenFrom(prefix, fs, hooks, k + 1, next);
      var v := Probe(prefix, fs, hooks, k, previous);
      PartsCons(prefix, fs, hooks, k, v, r.parts);
      assert |[v] + r.parts| == 1 + |r.parts|;
    } else if k <= LastPart && !Absent(prefix, fs, hooks, k) {
      assert Vetoed(prefix, fs, hooks, k + |OpenFrom(prefix, fs, hooks, k, previous).parts|);
    }
  }

  lemma PartsCons(prefix: seq<wchar>, fs: Files, hooks: Hooks, k: nat, v: Volume, vs: seq<Volume>)
    requires SizesFit(fs) && PartFound(prefix, fs, hooks, k, v) && PartsFrom(prefix, fs, hooks, k + 1, vs)
    ensures PartsFrom(prefix, fs, hooks, k, [v] + vs)
  {
    var ws := [v] + vs;
    forall j | 0 <= j < |ws|
      ensures PartFound(prefix, fs, hooks, k + j, ws[j])
    {
      if j > 0 {
        assert ws[j] == vs[j - 1];
      }
    }
  }

  /** `Open` fails from part `k` on exactly when `OnNewPart` vetoes a part it would
      have opened, that is, a part on disk or a placeholder after an unbroken series
      of such parts from `k`. */
  lemma OpenFromVetoed(prefix: seq<wchar>, fs: Files, hooks: Hooks, k: nat, previous: u64)
    requires SizesFit(fs) && k >= 1
    ensures OpenFrom(prefix, fs, hooks, k, previous).vetoed <==>
      exists m :: k <= m <= LastPart && Vetoed(prefix, fs, hooks, m) && Unbroken(prefix, fs, hooks, k, m)
  {
    var r := OpenFrom(prefix, fs, hooks, k, previous);
    if r.vetoed {
      OpenFromVetoStop(prefix, fs, hooks, k, previous);
    }
    if m :| k <= m <= LastPart && Vetoed(prefix, fs, hooks, m) && Unbroken(prefix, fs, hooks, k, m) {
      OpenFromReachesVeto(prefix, fs, hooks, k, previous, m);
    }
  }

  /** No part from `k` up to `m` (excluded) is missing. */
  predicate Unbroken(prefix: seq<wchar>, fs: Files, hooks: Hooks, k: nat, m: nat) {
    forall j :: k <= j < m ==> !Absent(prefix, fs, hooks, j)
  }

  /** A failing probe stops at a vetoed part after an unbroken series from `k`. */
  lemma {:induction false} OpenFromVetoStop(prefix: seq<wchar>, fs: Files, hooks: Hooks, k: nat, previous: u64)
    requires SizesFit(fs) && k >= 1 && OpenFrom(prefix, fs, hooks, k, previous).vetoed
    ensures var m := k + |OpenFrom(prefix, fs, hooks, k, previous).parts|;
      m <= LastPart && Vetoed(prefix, fs, hooks, m) && Unbroken(prefix, fs, hooks, k, m)
    decreases LastPart + 1 - k
  {
    if hooks.onNewPart(k, true) {
      var next := NextPrevious(prefix, fs, hooks, k, previous);
      OpenFromVetoStop(prefix, fs, hooks, k + 1, next);
    }
  }

  /** A vetoed part after an unbroken series from `k` fails the probe from `k`. */
  lemma {:induction false} OpenFromReachesVeto(prefix: seq<wchar>, fs: Files, hooks: Hooks, k: nat,
      previous: u64, m: nat)
    requires SizesFit(fs) && k >= 1 && k <= m <= LastPart
    requires Vetoed(prefix, fs, hooks, m) && Unbroken(prefix, fs, hooks, k, m)
    ensures OpenFrom(prefix, fs, hooks, k, previous).vetoed
    decreases m - k
  {
    if k < m {
      assert !Absent(prefix, fs, hooks, k);
      if hooks.onNewPart(k, true) {
        OpenFromReachesVeto(prefix, fs, hooks, k + 1, NextPrevious(prefix, fs, hooks, k, previous), m);
      }
    }
  }

  /** Each of `vs` is part `k` onwards as `PartFound` describes it. */
  predicate PartsFrom(prefix: seq<wchar>, fs: Files, hooks: Hooks, k: nat, vs: seq<Volume>)
    requires SizesFit(fs)
  {
    forall j :: 0 <= j < |vs| ==> PartFound(prefix, fs, hooks, k + j, vs[j])
  }

  /** `vs` are the parts found from part `k` on: each as `PartFound` describes, up to
      the first part that is neither on disk nor a placeholder (or past the last
      part number). */
  predicate FoundFrom(prefix: seq<wchar>, fs: Files, hooks: Hooks, k: nat, vs: seq<Volume>)
    requires SizesFit(fs)
  {
    PartsFrom(prefix, fs, hooks, k, vs) && (k + |vs| > LastPart || Absent(prefix, fs, hooks, k + |vs|))
  }

  /** `vs` are the parts found from part `k` on before `OnNewPart` vetoed the next one. */
  predicate VetoedAfter(prefix: seq<wchar>, fs: Files, hooks: Hooks, k: nat, vs: seq<Volume>)
    requires SizesFit(fs)
  {
    PartsFrom(prefix, fs, hooks, k, vs) && k + |vs| <= LastPart && Vetoed(prefix, fs, hooks, k + |vs|)
  }

  /** Part `k` is neither on disk nor a placeholder. */
  predicate Absent(prefix: seq<wchar>, fs: Files, hooks: Hooks, k: nat) {
    VolumeName(prefix, k) !in fs && !hooks.placeholder(k)
  }

  /** Part `k` would have been opened but `OnNewPart` vetoes it. */
  predicate Vetoed(prefix: seq<wchar>, fs: Files, hooks: Hooks, k: nat) {
    !Absent(prefix, fs, hooks, k) && !hooks.onNewPart(k, true)
  }

  /** `v` is how `Open` holds part `k`. */
  predicate PartFound(prefix: seq<wchar>, fs: Files, hooks: Hooks, k: nat, v: Volume)
    requires SizesFit(fs)
  {
    var name := VolumeName(prefix, k);
    && v.name == name && !Absent(prefix, fs, hooks, k) && hooks.onNewPart(k, true)
    && (name in fs ==> v.data == fs[name])
    && (!hooks.placeholder(k) ==> v.isOpen && v.pos == |fs[name]| && v.realSize == |fs[name]|)
    && (hooks.placeholder(k) ==>
        v.isOpen == (name in fs) && v.pos == 0 && v.realSize == SizeBefore(prefix, fs, hooks, k))
  }

  /** When `Open` fails: an empty prefix fails with nothing changed; otherwise it fails
      exactly when `OnNewPart` vetoes a part, and the parts found before that one, each
      as `PartFound` describes, stay appended to the stream's volumes. */
  lemma OpenFailure(st: Stream, fs: Files, hooks: Hooks)
    requires SizesFit(fs)
    ensures var r := Open(st, fs, hooks); var n := |st.volumes|;
      && (r.1 == S_OK || r.1 == S_FALSE || r.1 == E_FAIL)
      && (|st.prefix| == 0 ==> r == (st, E_FAIL))
      && (|st.prefix| > 0 ==>
            (r.1 == E_FAIL <==>
               exists m :: 1 <= m <= LastPart && Vetoed(st.prefix, fs, hooks, m) && Unbroken(st.prefix, fs, hooks, 1, m)))
      && (|st.prefix| > 0 && r.1 == E_FAIL ==>
            && r.0 == st.(volumes := r.0.volumes) && |r.0.volumes| >= n
            && r.0.volumes[..n] == st.volumes
            && VetoedAfter(st.prefix, fs, hooks, 1, r.0.volumes[n..]))
  {
    if |st.prefix| > 0 {
      OpenFromVetoed(st.prefix, fs, hooks, 1, 0);
      OpenFromParts(st.prefix, fs, hooks, 1, 0);
      var o := OpenFrom(st.prefix, fs, hooks, 1, 0);
      var vs := st.volumes + o.parts;
      assert vs[..|st.volumes|] == st.volumes;
      assert vs[|st.volumes|..] == o.parts;
    }
  }

  /** What a successful `Open` finds: the parts from part 1 on, as `FoundFrom`
      describes, follow the stream's volumes, nothing else changes, and `S_FALSE`
      means exactly that the stream has no volume. */
  lemma OpenResult(st: Stream, fs: Files, hooks: Hooks)
    requires SizesFit(fs)
    ensures var r := Open(st, fs, hooks); var n := |st.volumes|;
      r.1 != E_FAIL ==>
        && (r.1 == S_FALSE <==> |r.0.volumes| == 0)
        && r.0 == st.(volumes := r.0.volumes) && |r.0.volumes| >= n
        && r.0.volumes[..n] == st.volumes
        && FoundFrom(st.prefix, fs, hooks, 1, r.0.volumes[n..])
  {
    if |st.prefix| > 0 {
      OpenFromParts(st.prefix, fs, hooks, 1, 0);
      var o := OpenFrom(st.prefix, fs, hooks, 1, 0);
      var vs := st.volumes + o.parts;
      assert vs[..|st.volumes|] == st.volumes;
      assert vs[|st.volumes|..] == o.parts;
    }
  }

  /** Opening a stream that has no volumes names its volumes after their numbers. */
  lemma OpenNames(st: Stream, fs: Files, hooks: Hooks)
    requires SizesFit(fs) && st.volumes == []
    ensures NamesConsecutive(Open(st, fs, hooks).0)
  {
    OpenResult(st, fs, hooks);
    OpenFailure(st, fs, hooks);
    var r := Open(st, fs, hooks);
    assert r.0.volumes[0..] == r.0.volumes;
    forall j | 0 <= j < |r.0.volumes|
      ensures r.0.volumes[j].name == VolumeName(st.prefix, j + 1)
    {
      assert PartFound(st.prefix, fs, hooks, 1 + j, r.0.volumes[j]);
    }
  }

  /** With the base class's hooks `Open` fails only on an empty prefix, and finds
      exactly the parts on disk from part 1 up to the first missing one, each open
      at its end with its size as `RealSize`. */
  lemma OpenBase(st: Stream, fs: Files)
    requires SizesFit(fs) && |st.prefix| > 0 && st.volumes == []
    ensures var r := Open(st, fs, BaseHooks()); var vs := r.0.volumes;
      && r.1 != E_FAIL
      && (r.1 == S_FALSE <==> VolumeName(st.prefix, 1) !in fs)
      && (forall j :: 0 <= j < |vs| ==> OnDisk(st.prefix, fs, j + 1, vs[j]))
      && (|vs| + 1 > LastPart || VolumeName(st.prefix, |vs| + 1) !in fs)
  {
    var hooks := BaseHooks();
    OpenFailure(st, fs, hooks);
    OpenResult(st, fs, hooks);
    var r := Open(st, fs, hooks);
    assert r.0.volumes[0..] == r.0.volumes;
    assert |r.0.volumes| == 0 ==> Absent(st.prefix, fs, hooks, 1);
    assert VolumeName(st.prefix, 1) !in fs ==> |r.0.volumes| == 0 by {
      if |r.0.volumes| > 0 {
        assert PartFound(st.prefix, fs, hooks, 1 + 0, r.0.volumes[0]);
      }
    }
    forall j | 0 <= j < |r.0.volumes|
      ensures OnDisk(st.prefix, fs, j + 1, r.0.volumes[j])
    {
      assert PartFound(st.prefix, fs, hooks, 1 + j, r.0.volumes[j]);
    }
  }

  /** `v` is part `k` as found on disk: open at its end, with its size as `RealSize`. */
  predicate OnDisk(prefix: seq<wchar>, fs: Files, k: nat, v: Volume)
    requires SizesFit(fs)
  {
    var name := VolumeName(prefix, k);
    name in fs && v == Volume(name, true, |fs[name]|, |fs[name]|, fs[name])
  }
}

=== FILE: primitives.dfy ===
/** Fixed-width machine values, the little-endian byte layout the journal uses
    for them, and the result codes the handler and the stream return. */
module Primitives {

  type byte = x: int | 0 <= x < 0x100
  type u32 = x: int | 0 <= x < 0x1_0000_0000
  type u64 = x: int | 0 <= x < 0x1_0000_0000_0000_0000
  type i32 = x: int | -0x8000_0000 <= x < 0x8000_0000
  type i64 = x: int | -0x8000_0000_0000_0000 <= x < 0x8000_0000_0000_0000
  /** One UTF-16 code unit: `wchar_t` on the Windows build the journal was written on. */
  type wchar = x: int | 0 <= x < 0x1_0000

  const TwoTo32: int := 0x1_0000_0000
  const TwoTo64: int := 0x1_0000_0000_0000_0000

  /** Byte widths of the journaled scalar types. */
  const BoolWidth: nat := 1
  const IntWidth: nat := 4
  const U32Width: nat := 4
  const U64Width: nat := 8
  const WcharWidth: nat := 2

  /** The HRESULT values the modelled code returns; `LastError` is whatever code
      `GetLastError` reports after a file could not be created. */
  datatype HResult = S_OK | S_FALSE | E_FAIL | E_INVALIDARG | STG_E_INVALIDFUNCTION | LastError

  /** Wrap-around of `unsigned long long` arithmetic. */
  function Wrap64(x: int): (r: u64)
    ensures 0 <= x < TwoTo64 ==> r == x
  {
    x % 0x1_0000_0000_0000_0000
  }

  function Pow256(n: nat): (r: nat)
    ensures r > 0
  {
    if n == 0 then 1 else 256 * Pow256(n - 1)
  }

  /** The `n` low-order bytes of `x`, least significant first. */
  function LE(x: nat, n: nat): (r: seq<byte>)
    ensures |r| == n
  {
    if n == 0 then [] else [x % 256] + LE(x / 256, n - 1)
  }

  /** The number whose little-endian bytes are `b`. */
  function FromLE(b: seq<byte>): (r: nat)
    ensures r < Pow256(|b|)
  {
    if |b| == 0 then 0 else b[0] + 256 * FromLE(b[1..])
  }

  lemma {:induction false} LERoundTrip(x: nat, n: nat)
    requires x < Pow256(n)
    ensures FromLE(LE(x, n)) == x
  {
    if n > 0 {
      assert x / 256 < Pow256(n - 1);
      LERoundTrip(x / 256, n - 1);
      assert LE(x, n)[1..] == LE(x / 256, n - 1);
    }
  }

  lemma Pow256Widths()
    ensures Pow256(1) == 0x100
    ensures Pow256(2) == 0x1_0000
    ensures Pow256(4) == TwoTo32
    ensures Pow256(8) == TwoTo64
  {
  }

  /** Bytes that, read as a 32-bit two's-complement `int`, give `c`. */
  function EncInt(c: i32): (r: seq<byte>)
    ensures |r| == IntWidth
  {
    LE(if c >= 0 then c else c + TwoTo32, IntWidth)
  }

  function DecInt(b: seq<byte>): (c: i32)
    requires |b| == IntWidth
  {
    Pow256Widths();
    var u := FromLE(b);
    if u < 0x8000_0000 then u else u - TwoTo32
  }

  lemma IntRoundTrip(c: i32)
    ensures DecInt(EncInt(c)) == c
  {
    Pow256Widths();
    LERoundTrip(if c >= 0 then c else c + TwoTo32, IntWidth);
  }

  /** Result of a sequential read: the value and the unread suffix, or end of stream. */
  datatype Read<T> = Got(value: T, rest: seq<byte>) | Eof

  /** `n` raw bytes; end of stream when fewer remain. */
  function ReadBytes(n: nat, s: seq<byte>): (r: Read<seq<byte>>)
    ensures r.Got? <==> n <= |s|
    ensures r.Got? ==> |r.value| == n && r.value + r.rest == s
  {
    if |s| < n then Eof else Got(s[..n], s[n..])
  }

  /** `bytes` written at offset `pos` of `data`: a gap past the end reads as zeros,
      bytes after the written range are kept. */
  function WriteAt(data: seq<byte>, pos: nat, bytes: seq<byte>): (r: seq<byte>)
    ensures |r| == if pos + |bytes| > |data| then pos + |bytes| else |data|
    ensures r[pos..pos + |bytes|] == bytes
    ensures forall i :: 0 <= i < pos && i < |data| ==> r[i] == data[i]
    ensures forall i :: |data| <= i < pos ==> r[i] == 0
    ensures forall i :: pos + |bytes| <= i < |data| ==> r[i] == data[i]
  {
    var head := if pos <= |data| then data[..pos] else data + Zeros(pos - |data|);
    var tail := if pos + |bytes| < |data| then data[pos + |bytes|..] else [];
    head + bytes + tail
  }

  /** Zero-filling everything after `x` keeps `x` and blanks the rest. */
  lemma ZeroFillSuffix(x: seq<byte>, y: seq<byte>)
    ensures WriteAt(x + y, |x|, Zeros(|y|)) == x + Zeros(|y|)
  {
    var w := WriteAt(x + y, |x|, Zeros(|y|));
    assert |w| == |x + Zeros(|y|)|;
    forall j | 0 <= j < |w| ensures w[j] == (x + Zeros(|y|))[j] {
      if j >= |x| {
        assert w[j] == w[|x|..|x| + |y|][j - |x|];
      }
    }
  }

  function Zeros(n: nat): (r: seq<byte>)
    ensures |r| == n
    ensures forall i :: 0 <= i < n ==> r[i] == 0
  {
    seq(n, _ => 0)
  }

  function Min(a: int, b: int): int {
    if a <= b then a else b
  }

  function Max(a: int, b: int): int {
    if a >= b then a else b
  }

  /** Prefix test on sequences. */
  predicate IsPrefix<T(==)>(p: seq<T>, s: seq<T>) {
    |p| <= |s| && s[..|p|] == p
  }

  datatype Option<T> = None | Some(value: T)

  /** Sum of a sequence, first element first. */
  function Sum(xs: seq<int>): int {
    if |xs| == 0 then 0 else xs[0] + Sum(xs[1..])
  }

  /** An `unsigned long long` accumulator that adds the elements one at a time,
      wrapping after every addition, as the source's summing loops do. */
  function WrapSum(acc: u64, xs: seq<u64>): u64
    decreases |xs|
  {
    if |xs| == 0 then acc else WrapSum(Wrap64(acc + xs[0]), xs[1..])
  }

  /** Summing two runs one after the other is summing their concatenation. */
  lemma {:induction false} WrapSumAppend(acc: u64, a: seq<u64>, b: seq<u64>)
    ensures WrapSum(acc, a + b) == WrapSum(WrapSum(acc, a), b)
    decreases |a|
  {
    if |a| > 0 {
      assert (a + b)[1..] == a[1..] + b;
      WrapSumAppend(Wrap64(acc + a[0]), a[1..], b);
    } else {
      assert a + b == b;
    }
  }

  lemma WrapAddLeft(x: int, c: int)
    ensures Wrap64(Wrap64(x) + c) == Wrap64(x + c)
  {
    var q := x / TwoTo64;
    assert x == q * TwoTo64 + Wrap64(x);
    assert x + c == (Wrap64(x) + c) + q * TwoTo64;
    ShiftMod(Wrap64(x) + c, q);
  }

  /** Two wrapping additions are one wrapping addition of the sum. */
  lemma WrapTwice(x: int, a: int, b: int, y: int, s: int)
    requires y == Wrap64(x + a) && s == a + b
    ensures Wrap64(y + b) == Wrap64(x + s)
  {
    WrapAddLeft(x + a, b);
  }

  lemma ShiftMod(y: int, q: int)
    ensures (y + q * TwoTo64) % TwoTo64 == y % TwoTo64
  {
    var a := y + q * TwoTo64;
    var ra := a % TwoTo64;
    var ry := y % TwoTo64;
    assert a == (a / TwoTo64) * TwoTo64 + ra;
    assert y == (y / TwoTo64) * TwoTo64 + ry;
    assert ra - ry == (y / TwoTo64 + q - a / TwoTo64) * TwoTo64;
    var k := y / TwoTo64 + q - a / TwoTo64;
    assert ra - ry == k * TwoTo64;
    assert -TwoTo64 < ra - ry < TwoTo64;
    assert k == 0;
  }

  /** `t` added `m` times, as a loop that adds it once per step does. */
  function Scaled(m: nat, t: int): int
    decreases m
  {
    if m == 0 then 0 else t + Scaled(m - 1, t)
  }

  lemma {:induction false} ScaledIsProduct(m: nat, t: int)
    ensures Scaled(m, t) == m * t
    decreases m
  {
    if m > 0 {
      ScaledIsProduct(m - 1, t);
    }
  }

  /** Wrapping after every addition is the same as wrapping the exact sum once. */
  lemma {:induction false} WrapSumIsSum(acc: u64, xs: seq<u64>)
    ensures WrapSum(acc, xs) == Wrap64(acc + Sum(xs))
    decreases |xs|
  {
    if |xs| > 0 {
      WrapSumIsSum(Wrap64(acc + xs[0]), xs[1..]);
      WrapAddLeft(acc + xs[0], Sum(xs[1..]));
    }
  }
}

=== FILE: recovery.dfy ===
/** `OpenWithRecoveryData`: replaying a journal into the database, rolling back to
    the last commit point, and re-seating the handler for appending. */
module Recovery {
  import opened Primitives
  import opened Database
  import opened JournalCodec
  import opened Checkpoint
  import opened RecoveryHandler

  /** The names a resume is given: trash folders (replay stops at a checkpoint holding
      an entry under one), the statistics prefix, and the commit-marker prefix. */
  datatype ResumeFilters = ResumeFilters(trash: seq<seq<wchar>>, stat: seq<wchar>, coc: seq<wchar>)

  /** Replay state: the database so far, its field lengths at the last commit point,
      how many journal bytes follow that commit (the source keeps the offset instead;
      the offset is the journal length minus this), and the two counters. The last
      two fields keep the counters' values at the last commit point; only the
      corrected resume reads them. */
  datatype Replayed = Replayed(
    db: Db,
    coc: RecoveryIndex,
    validLeft: nat,
    fileCount: u64,
    unpackedSize: u64,
    cocFileCount: u64,
    cocUnpackedSize: u64)

  /** What a resume leaves behind: the handler, the result code, and the size the
      output stream is set to and positioned at (the pack sizes plus the 32-byte
      start header), when it gets that far. */
  datatype Resumed = Resumed(handler: Handler, result: HResult, streamTarget: Option<u64>)

  /** Some entry of the checkpoint lies under a trash filter. */
  function AnyFiltered(files: seq<Entry>, trash: seq<seq<wchar>>): (r: bool)
    ensures |files| == 0 ==> !r
    decreases |files|
  {
    if |files| == 0 then false
    else IsItemFiltered(files[0].name, trash) || AnyFiltered(files[1..], trash)
  }

  /** The trash test fails a checkpoint exactly when one of its entries is filtered. */
  lemma {:induction false} AnyFilteredIsSome(files: seq<Entry>, trash: seq<seq<wchar>>)
    ensures AnyFiltered(files, trash) <==> exists j :: 0 <= j < |files| && IsItemFiltered(files[j].name, trash)
    decreases |files|
  {
    if |files| > 0 {
      AnyFilteredIsSome(files[1..], trash);
      assert forall j :: 1 <= j < |files| ==> files[j] == files[1..][j - 1];
    }
  }

  /** The checkpoint is a commit point: its last entry's name starts with the marker. */
  predicate IsCommit(cp: Db, coc: seq<wchar>) {
    |cp.files| > 0 && StartsWith(cp.files[|cp.files| - 1].name, coc)
  }

  /** The unpacked size of each folder, in folder order. */
  function UnpackSizes(folders: seq<Folder>, unpack: Folder -> u64): seq<u64> {
    MapSeq(folders, unpack)
  }

  /** Number of entries whose names start with `stat`. */
  function Matching(files: seq<Entry>, stat: seq<wchar>): nat
    decreases |files|
  {
    if |files| == 0 then 0
    else (if StartsWith(files[0].name, stat) then 1 else 0) + Matching(files[1..], stat)
  }

  /** The statistics loop over one checkpoint, given the unpacked size of each of its
      folders: for every entry under `stat`, the file counter goes up by one and every
      folder size is added, each addition wrapping at 2^64. */
  function CountStats(files: seq<Entry>, sizes: seq<u64>, stat: seq<wchar>, count: u64, size: u64): (r: (u64, u64))
    decreases |files|
  {
    if |files| == 0 then (count, size)
    else if StartsWith(files[0].name, stat) then
      CountStats(files[1..], sizes, stat, Wrap64(count + 1), WrapSum(size, sizes))
    else CountStats(files[1..], sizes, stat, count, size)
  }

  /** The loop adds, modulo 2^64, one per matching entry to the count and the total
      unpacked size of the checkpoint's folders once per matching entry to the size. */
  lemma {:induction false} CountStatsClosedForm(files: seq<Entry>, sizes: seq<u64>,
      stat: seq<wchar>, count: u64, size: u64)
    ensures var m := Matching(files, stat);
      CountStats(files, sizes, stat, count, size) == (Wrap64(count + m), Wrap64(size + Scaled(m, Sum(sizes))))
    decreases |files|
  {
    if |files| > 0 {
      var m := Matching(files[1..], stat);
      if StartsWith(files[0].name, stat) {
        var size' := WrapSum(size, sizes);
        CountStatsClosedForm(files[1..], sizes, stat, Wrap64(count + 1), size');
        WrapSumIsSum(size, sizes);
        assert Matching(files, stat) == m + 1;
        WrapTwice(count, 1, m, Wrap64(count + 1), m + 1);
        WrapTwice(size, Sum(sizes), Scaled(m, Sum(sizes)), size', Scaled(m + 1, Sum(sizes)));
      } else {
        CountStatsClosedForm(files[1..], sizes, stat, count, size);
        assert Matching(files, stat) == m;
      }
    }
  }

  /** Applies one fully read checkpoint, after which `left` journal bytes remain:
      counts its statistics, appends it, and records a commit point if it is one. */
  function ApplyCheckpoint(st: Replayed, cp: Db, left: nat, f: ResumeFilters, unpack: Folder -> u64): (r: Replayed)
    ensures r.db == Append(st.db, cp)
    ensures IsCommit(cp, f.coc) ==>
      r.coc == Lengths(r.db) && r.validLeft == left
      && (r.cocFileCount, r.cocUnpackedSize) == (r.fileCount, r.unpackedSize)
    ensures !IsCommit(cp, f.coc) ==>
      r.coc == st.coc && r.validLeft == st.validLeft
      && (r.cocFileCount, r.cocUnpackedSize) == (st.cocFileCount, st.cocUnpackedSize)
  {
    var stats := CountStats(cp.files, UnpackSizes(cp.folders, unpack), f.stat, st.fileCount, st.unpackedSize);
    var db := Append(st.db, cp);
    if IsCommit(cp, f.coc) then Replayed(db, Lengths(db), left, stats.0, stats.1, stats.0, stats.1)
    else Replayed(db, st.coc, st.validLeft, stats.0, stats.1, st.cocFileCount, st.cocUnpackedSize)
  }

  /** What the replay loop gets from the bytes at its position: a checkpoint to apply
      and the bytes after it, or the signal to stop. */
  datatype Next = Stop | Apply(cp: Db, rest: seq<byte>)

  /** One turn of the replay loop's reading: the ten head fields, the trash test on
      their entries, then the folders. End of stream anywhere, or an entry under a
      trash filter, stops the loop. */
  function NextCheckpoint(s: seq<byte>, trash: seq<seq<wchar>>): (r: Next)
    ensures r.Apply? ==> |r.rest| < |s|
    ensures r.Apply? <==> ReadCheckpoint(s).Got? && !AnyFiltered(ReadCheckpoint(s).value.files, trash)
    ensures r.Apply? ==> r == Apply(ReadCheckpoint(s).value, ReadCheckpoint(s).rest)
  {
    match ReadHead(s)
    case Eof => Stop
    case Got(head, s1) =>
      if AnyFiltered(head.files, trash) then Stop
      else
        match ReadFolders(s1)
        case Eof => Stop
        case Got(folders, s2) => Apply(head.(folders := folders), s2)
  }

  /** The replay loop over the journal bytes `s`. The bytes after the last commit
      point never grow past where the replay started. */
  function ReplayFrom(s: seq<byte>, st: Replayed, f: ResumeFilters, unpack: Folder -> u64): (r: Replayed)
    ensures |s| <= st.validLeft ==> r.validLeft <= st.validLeft
    decreases |s|
  {
    var n := NextCheckpoint(s, f.trash);
    if n.Stop? then st
    else
      var next := ApplyCheckpoint(st, n.cp, |n.rest|, f, unpack);
      ReplayFrom(n.rest, next, f, unpack)
  }

  /** The state replay starts from, before `left` bytes of checkpoints. */
  function InitReplay(left: nat): Replayed {
    Replayed(EmptyDb, InitIndex(), left, 0, 0, 0, 0)
  }

  /** The journal starts with the session signature. */
  predicate HasSignature(data: seq<byte>) {
    |data| >= SignatureWidth && data[..SignatureWidth] == Signature
  }

  /** `_recoveryStreamOut.open` on the journal file followed by `seekp` to the commit
      offset. A closed stream opens on the file when `reopened` holds and is placed at
      the offset. An open stream refuses the second `open`: it stays open on its old
      file, fails, and the seek does nothing. */
  function Reopen(j: Journal, data: seq<byte>, validEnd: nat, reopened: bool): (r: Journal)
    ensures r.Closed? <==> j.Closed? && !reopened
    ensures j.Closed? && reopened ==> r == Open(data, validEnd)
    ensures !j.Closed? ==> r.Failed? && r.data == j.data
  {
    if j.Closed? then (if reopened then Open(data, validEnd) else Closed)
    else Failed(j.data)
  }

  /** `OpenWithRecoveryData`, given the journal file's bytes (`None` when it cannot be
      opened) and whether opening it for writing succeeds. With `survivorsOnly`
      false the recovered counters are those of every checkpoint read, as the source
      computes them; with it true they are the counters at the last commit point. */
  function ResumeWith(h: Handler, file: Option<seq<byte>>, reopened: bool, f: ResumeFilters,
      unpack: Folder -> u64, survivorsOnly: bool): (r: Resumed)
    ensures h.archiveCreated ==> r == Resumed(h.(recoveredFileCount := 0, recoveredSize := 0), S_FALSE, None)
    ensures !h.archiveCreated && (file.None? || !HasSignature(file.value)) ==>
      r == Resumed(h.(recoveredFileCount := 0, recoveredSize := 0), E_FAIL, None)
    ensures r.result == S_OK <==>
      !h.archiveCreated && file.Some? && HasSignature(file.value) && (reopened || !h.journal.Closed?)
    ensures r.result == S_OK ==>
      && r.handler.idx == Lengths(r.handler.db)
      && (h.journal.Closed? ==>
            && r.handler.journal.Open? && r.handler.journal.data == file.value
            && SignatureWidth <= r.handler.journal.pos <= |file.value|)
      && (!h.journal.Closed? ==> r.handler.journal == Failed(h.journal.data))
      && r.handler.totalPackSize == Wrap64(Sum(r.handler.db.packSizes))
      && PackSizeTracked(r.handler)
      && r.streamTarget == Some(StreamTarget(r.handler.totalPackSize))
  {
    var h0 := h.(recoveredFileCount := 0, recoveredSize := 0);
    if h.archiveCreated then Resumed(h0, S_FALSE, None)
    else
      match file
      case None => Resumed(h0, E_FAIL, None)
      case Some(data) =>
        if !HasSignature(data) then Resumed(h0, E_FAIL, None)
        else
          var st := ReplayFrom(data[SignatureWidth..], InitReplay(|data| - SignatureWidth), f, unpack);
          var db := Truncate(st.db, st.coc);
          var counts := if survivorsOnly then (st.cocFileCount, st.cocUnpackedSize)
                        else (st.fileCount, st.unpackedSize);
          var h1 := h0.(db := db, recoveredFileCount := counts.0, recoveredSize := counts.1);
          var j := Reopen(h.journal, data, |data| - st.validLeft, reopened);
          if j.Closed? then Resumed(h1, S_FALSE, None)
          else Reseat(h1, j)
  }

  /** The last step of a successful resume: the handler takes the reopened journal,
      the cursors are set to the field lengths, and the output stream is sized and
      positioned past the pack streams and the 32-byte start header. */
  function Reseat(h: Handler, j: Journal): (r: Resumed)
    ensures r.result == S_OK
    ensures r.handler == h.(journal := j, idx := Lengths(h.db),
      totalPackSize := r.handler.totalPackSize, archiveCreated := true)
    ensures r.handler.totalPackSize == Wrap64(Sum(h.db.packSizes))
    ensures PackSizeTracked(r.handler)
    ensures r.streamTarget == Some(StreamTarget(r.handler.totalPackSize))
  {
    assert h.db.packSizes[..|h.db.packSizes|] == h.db.packSizes;
    var packed := WrapSum(0, h.db.packSizes);
    WrapSumIsSum(0, h.db.packSizes);
    Resumed(h.(journal := j, idx := Lengths(h.db),
        totalPackSize := packed, archiveCreated := true),
      S_OK, Some(StreamTarget(packed)))
  }

  /** A resume while the journal stream is open still reports S_OK, but leaves the
      stream failed on its old file: every later checkpoint reports S_OK and writes
      nothing, and a later trash zero-fills nothing. */
  lemma ResumeOnOpenJournal(h: Handler, data: seq<byte>, reopened: bool, f: ResumeFilters,
      unpack: Folder -> u64, survivorsOnly: bool, path: seq<wchar>)
    requires h.journal.Open? && !h.archiveCreated && HasSignature(data)
    ensures var r := ResumeWith(h, Some(data), reopened, f, unpack, survivorsOnly);
      && r.result == S_OK
      && r.handler.journal == Failed(h.journal.data)
      && UpdateRecoveryData(r.handler).1 == S_OK
      && UpdateRecoveryData(r.handler).0.journal == r.handler.journal
      && MoveItemToTrash(r.handler, path).0.journal == r.handler.journal
  {
  }

  /** The stream size and position after a resume: the pack size plus the 32-byte
      start header, wrapping at 2^64. */
  function StreamTarget(packed: u64): (r: u64)
    ensures packed + 32 < TwoTo64 ==> r == packed + 32
    ensures packed + 32 >= TwoTo64 ==> r == packed + 32 - TwoTo64
  {
    Wrap64(packed + 32)
  }

  /** One turn of the replay loop applies the checkpoint read and continues after it. */
  lemma ReplayApply(s: seq<byte>, st: Replayed, f: ResumeFilters, unpack: Folder -> u64)
    requires NextCheckpoint(s, f.trash).Apply?
    ensures var n := NextCheckpoint(s, f.trash);
      ReplayFrom(s, st, f, unpack) == ReplayFrom(n.rest, ApplyCheckpoint(st, n.cp, |n.rest|, f, unpack), f, unpack)
  {
  }

  /** The replay loop leaves its state alone when it stops. */
  lemma ReplayStop(s: seq<byte>, st: Replayed, f: ResumeFilters, unpack: Folder -> u64)
    requires NextCheckpoint(s, f.trash).Stop?
    ensures ReplayFrom(s, st, f, unpack) == st
  {
  }

  /** Replay only ever appends: the starting database is a prefix of the result. */
  lemma {:induction false} ReplayExtends(s: seq<byte>, st: Replayed, f: ResumeFilters, unpack: Folder -> u64)
    ensures Extends(st.db, ReplayFrom(s, st, f, unpack).db)
    decreases |s|
  {
    var n := NextCheckpoint(s, f.trash);
    if n.Stop? {
      ReplayStop(s, st, f, unpack);
    } else {
      var next := ApplyCheckpoint(st, n.cp, |n.rest|, f, unpack);
      ReplayApply(s, st, f, unpack);
      ReplayExtends(n.rest, next, f, unpack);
      AppendExtends(st.db, n.cp);
      ExtendsTransitive(st.db, next.db, ReplayFrom(n.rest, next, f, unpack).db);
    }
  }
}
